=== FILE: README.md ===
# trailcam_animal_id in Dafny

This project models the statable core of trailcam_animal_id. That is a desktop tool: it extracts evenly spaced frames from trail-camera clips, classifies the animals in them with a detector, summarises the detections per clip, and lets the user review the clips one at a time. The model is functional: immutable datatypes and pure functions over sequences, strings and integers, with small record-based state machines where the program keeps state.

What the modules model:

- **ReviewTab** (`gui/review_tab.py`): the review screen.
  - It builds the clip list from the rows of the summary CSV.
  - It keeps the current index, with the moves play-at, next, previous and delete.
  - It has a search filter with a match count and a first-match jump, and the animals caption.
  - It gates keyboard shortcuts.
  - It shows an end-of-clip overlay whose auto-advance timer is never cancelled.
- **VideoPlayer** (`gui/video_player.py`): the playback engine, one loop pass at a time, over a decoder that delivers a finite stream of frames.
  - It covers the speed clamp, the frame step with round-half-to-even, progress reporting and the single completion callback.
  - It covers the flag transitions and the aspect-ratio fit.
- **SessionManager** (`gui/session_manager.py`): the in-memory session and its persistence as a versioned record in a configuration file.
- **ReviewClips** (`review_clips.py`): the older command-line review tool.
  - It covers annotation loading, the filter lists and the include/auto-delete decisions.
  - It covers the sorted visiting order, the navigation loop and the frame step.
- **ExtractFrames, ClassifyFrames, SummarizeVideos** (`extract_frames.py`, `classify_frames.py`, `summarize_videos.py`): the three pipeline steps as transforms of names, labels and rows.
- **RunPipeline** (`run_pipeline.py`): the driver's argument parsing, default paths, per-step skip decisions and abort-on-failure semantics.
- **GuiConfig** (`gui/config.py`): the default configuration and the worker-count options.
- **PipelineTab, PipelineWizard** (`gui/pipeline_tab.py`, `gui/pipeline_wizard.py`): how the GUI launches the pipeline.
  - This covers the script path, the default output paths, the argv list and that argv parsing back to the form's values.
  - It covers the `is_running` guard, completion and cancel, and the wizard's steps and step-1 validation.
- **Cleanup** (`gui/cleanup_tab.py`, `gui/cleanup_modal.py`): the output directory, the file and byte tally, and the size unit.

The shared modules are:

- **Paths**: a model of `pathlib`. A path is a flag and its normalised parts, and the file system is the sequence of existing paths, in listing order. A leading `//` is read as a single root, where POSIX `pathlib` keeps `//a` apart from `/a`.
- **Layout**: the `.pipeline_output` directory tree.
- **Strings**: Python's `strip`, `lower`, `split`, `join`, `find` and `int()`, restricted to ASCII case and ASCII white space.
- **Order**: sorting, deduplication and permutations.
- **Assoc**: insertion-ordered dictionaries.
- **Options**: the `Option` type.

Quantities the program reads from outside are inputs of the model, never effects:

- the file system;
- what the decoder delivers;
- the user's answers to dialogs;
- the detector's labels;
- child exit codes;
- `os.cpu_count()`.

## Model

| member | source | states |
|---|---|---|
| ReviewTab.FirstProbe | gui/review_tab.py:444-450 | the index of the first extension, in list order, under which `dir/(title+ext)` exists; none before it exists; none at all when it returns nothing |
| ReviewTab.FindClip | gui/review_tab.py:444-450 | the path found exists, and nothing is found exactly when no extension gives an existing file |
| ReviewTab.ClipOf | gui/review_tab.py:376-386 | the list entry's animals are never empty (`'none'` stands in for an empty field) and equal the raw field otherwise; `multiple` holds iff the field is exactly `'true'` |
| ReviewTab.BuildClips | gui/review_tab.py:366-386 | at most one clip per row, and every clip's file exists and has a non-empty animals text |
| ReviewTab.BuildClipsSound | gui/review_tab.py:366-386 | every clip in the list comes from some row whose title was found under exactly that path |
| ReviewTab.BuildClipsComplete | gui/review_tab.py:366-386 | every row whose file is found contributes its clip |
| ReviewTab.BuildClipsAppend | gui/review_tab.py:366-386 | CSV order is kept: the clips of consecutive blocks of rows are the concatenation of each block's clips |
| ReviewTab.DropsMissing | gui/review_tab.py:374-377 | a row whose title exists under none of `.mp4,.MP4,.mov,.MOV` adds nothing to the list |
| ReviewTab.LoadClips | gui/review_tab.py:340-399 | a missing clips directory or a missing summary CSV only raises the matching alert; otherwise the list is replaced by the built clips and the first one is made current when there is one |
| ReviewTab.AnimalsDisplay | gui/review_tab.py:427-429 | the caption is at most 28 characters and holds no `&` or `_`; it is the pretty text when that fits and its first 25 characters plus `...` otherwise |
| ReviewTab.PlainNameShownAsIs | gui/review_tab.py:427-429 | a short animals field without `&` or `_` is shown unchanged |
| Strings.ReplaceAbsent | gui/review_tab.py:427 | replacing a character that does not occur changes nothing |
| ReviewTab.Launch | gui/review_tab.py:489-509 | a new player ends up running at position 0 exactly when the decoder opens the file with a non-zero size; the player invariant holds either way |
| ReviewTab.Retire | gui/review_tab.py:457-459 | the previous player, stopped, is appended to the replaced players |
| ReviewTab.PlayAt | gui/review_tab.py:452-509 | an index outside `[0, len)` changes nothing; otherwise the index is set even when opening fails, the old player is stopped, a new player is created, and an error shows exactly when it raised |
| ReviewTab.Next | gui/review_tab.py:556-571 | the overlay is hidden; with no current clip nothing else changes; the next index is played when in range; at the last clip the index stays, the player is stopped and the end message shows |
| ReviewTab.Previous | gui/review_tab.py:573-583 | the overlay is hidden; the previous index is played when it is at least 0; it never wraps and is otherwise a no-op |
| ReviewTab.RemoveAt | gui/review_tab.py:614-615 | removing the `d`-th element keeps the others in order |
| ReviewTab.Delete | gui/review_tab.py:585-634 | unconfirmed or with no current clip nothing changes; a failed trash move leaves the list and index alone and shows an error; a successful one removes exactly the current clip, records the file as trashed, and moves to `min(deleted, len-1)` or to no index when the list is empty |
| ReviewTab.TogglePause | gui/review_tab.py:636-644 | with a player, its pause flag flips; list and index are untouched |
| ReviewTab.StopPlayback | gui/review_tab.py:646-650 | with a player, it is stopped and released; list and index are untouched |
| ReviewTab.LastSpeedWins | gui/review_tab.py:326-331 | moving the slider to `a` and then to `b` leaves the tab as moving it to `b` alone |
| ReviewTab.UpdateSpeed | gui/review_tab.py:326-331 | without a player nothing changes; with one, the player becomes `set_speed` of the slider value (so its speed is at least 0.1) and nothing else of the tab changes |
| ReviewTab.FrameResized | gui/review_tab.py:333-338 | with no player or a frame of at most 1 pixel either way nothing changes |
| ReviewTab.Visibility | gui/review_tab.py:677-692 | the filter does not change the list; entry `i` shows iff the query is empty or the lower-cased query occurs in the lower-cased title or in the lower-cased `animals` entry (the raw field or `none`, not the pretty caption) |
| ReviewTab.MatchCount | gui/review_tab.py:680-690 | the count is at most the number of clips |
| ReviewTab.MatchCountIsShown | gui/review_tab.py:680-690 | the match count equals the number of entries shown |
| ReviewTab.EmptyQueryShowsAll | gui/review_tab.py:686 | an empty query shows every clip |
| ReviewTab.CountLabel | gui/review_tab.py:693-698 | the count label is empty iff the query is empty; otherwise it splits into the four words `M`, `of`, `N`, `clips`, whose numbers read back as the match count and the number of clips |
| ReviewTab.CountWords | gui/review_tab.py:698 | the label text built from two space-free numbers splits back into exactly its four words |
| ReviewTab.FirstTitleMatch | gui/review_tab.py:711-716 | the lowest index whose lower-cased title contains the query; the animals are not consulted |
| ReviewTab.JumpToFirstMatch | gui/review_tab.py:709-716 | with no title match nothing happens; otherwise the first match is played |
| ReviewTab.EmptyJumpPlaysFirst | gui/review_tab.py:711-716 | Return in an empty search box plays the first clip |
| ReviewTab.ShortcutGating | gui/review_tab.py:718-732 | while the search box has focus no shortcut runs; after focus-out shortcuts follow the global switch |
| ReviewTab.OnVideoComplete | gui/review_tab.py:521-549 | the overlay shows and one timer is scheduled: an advance with auto-play, a bare hide without |
| ReviewTab.FireTimer | gui/review_tab.py:537-554 | a fired timer hides the overlay, and an advance timer then runs the next-clip move, whatever happened since it was scheduled |
| ReviewTab.PlayerPass | gui/review_tab.py:521 | a playback pass never changes the list or the index |
| ReviewTab.StaleAdvanceSkips | gui/review_tab.py:537-571 | an advance scheduled before a manual next still fires, so the two together move two clips on |
| ReviewTab.PressKey | gui/review_tab.py:316-324 | a key shortcut does nothing when shortcuts may not run |
| ReviewTab.NewInv | gui/review_tab.py:20-27 | a new tab satisfies the index invariant and accepts shortcuts |
| ReviewTab.RetireInv | gui/review_tab.py:457-459 | every replaced player is stopped |
| ReviewTab.PlayAtInv | gui/review_tab.py:452-462 | play-at keeps the index inside the list |
| ReviewTab.NextInv | gui/review_tab.py:556-571 | next keeps the index inside the list |
| ReviewTab.PreviousInv | gui/review_tab.py:573-583 | previous keeps the index inside the list |
| ReviewTab.DeleteInv | gui/review_tab.py:612-631 | delete keeps the index inside the list, or clears it |
| ReviewTab.ApplyInv | gui/review_tab.py:316-324 | every user or timer action keeps the invariant |
| ReviewTab.RunInv | gui/review_tab.py:452-634 | over any sequence of actions the current index stays inside a non-empty list and every replaced player has been stopped |
| VideoPlayer.SetSpeed | gui/video_player.py:133-139 | the stored multiplier is `max(0.1, m)`, and nothing else changes |
| VideoPlayer.RoundHalfEven | gui/video_player.py:159 | Python's `round`: the nearest integer, and the even one at a tie |
| VideoPlayer.RoundHalfEvenUnique | gui/video_player.py:159 | any integer nearest to `x` that is even at a tie is `round(x)` |
| VideoPlayer.FrameStep | gui/video_player.py:159 | the step is `max(1, round(speed))`, so at least 1 |
| VideoPlayer.FrameStepExamples | gui/video_player.py:159 | 1.5 gives 2, 2.5 gives 2, 0.1 gives 1, 4.0 gives 4 and 0.5 gives 1 |
| VideoPlayer.TruncDiv | gui/video_player.py:61 | `int(a / b)` truncates toward zero: its magnitude is the floor of `|a| / |b|` and it is never on the other side of zero from the true quotient; for non-negative operands it is floor division |
| VideoPlayer.FitDisplay | gui/video_player.py:48-73 | no size is computed when the video has a zero side; without a container the width is 640 |
| VideoPlayer.FitsContainer | gui/video_player.py:56-68 | the fitted size lies within the container, fills it on one side, and keeps the aspect ratio up to truncation of the other side |
| VideoPlayer.FallbackWidth | gui/video_player.py:69-73 | without a container the display is 640 wide with the truncated proportional height |
| VideoPlayer.Recalc | gui/video_player.py:48-51 | before a video is loaded nothing changes; otherwise only the display size does |
| VideoPlayer.SetContainerSize | gui/video_player.py:37-46 | the container is always recorded; the display size is recomputed only with a video loaded, and that raises only for a zero-sided video |
| VideoPlayer.Stop | gui/video_player.py:116-127 | the player is not running and holds no capture; nothing else changes |
| VideoPlayer.StopIdempotent | gui/video_player.py:116-127 | stopping twice equals stopping once, and stopping a stopped player changes nothing |
| VideoPlayer.LoadVideo | gui/video_player.py:75-102 | the capture is installed and the player stopped; it raises iff the capture does not open or a side is zero; on success the size and frame count are read and `paused` is reset |
| VideoPlayer.Start | gui/video_player.py:104-114 | it raises iff no opened capture is present; it is a no-op when already running; otherwise it starts a fresh run at position 0 |
| VideoPlayer.TogglePause | gui/video_player.py:129-131 | the pause flag flips and nothing else changes |
| VideoPlayer.TogglePauseTwice | gui/video_player.py:129-131 | toggling twice restores the player |
| VideoPlayer.Ratio | gui/video_player.py:188-189 | progress `min(1, cur/total)` is within [0, 1] and is 1 exactly when `cur >= total` |
| VideoPlayer.RatioMonotone | gui/video_player.py:188-189 | progress does not decrease as the position grows |
| VideoPlayer.Complete | gui/video_player.py:166-184 | the end of the stream stops the loop, reports 1.0 and counts one completion |
| VideoPlayer.Tick | gui/video_player.py:151-190 | a stopped or paused loop consumes nothing; otherwise one read plus `step-1` grabs are taken, progress is reported when the frame count is positive, and a short stream completes |
| VideoPlayer.NewInv | gui/video_player.py:15-35 | a new player is stopped at speed 1 and satisfies the invariant |
| VideoPlayer.AppendMonotone | gui/video_player.py:188-190 | reporting a value at least the last one keeps the reports non-decreasing |
| VideoPlayer.TickInv | gui/video_player.py:151-190 | one pass keeps progress bounded and non-decreasing and completion at most once |
| VideoPlayer.ApplyInv | gui/video_player.py:37-139 | every operation between passes keeps the invariant |
| VideoPlayer.RunInv | gui/video_player.py:141-190 | over any run, progress stays in [0, 1] and non-decreasing, and completion fires at most once, last, after a report of 1.0 |
| VideoPlayer.CompletedStaysPut | gui/video_player.py:166-172 | once completed, further passes change nothing |
| VideoPlayer.PausedStaysPut | gui/video_player.py:153-155 | while paused, passes consume no frames |
| SessionManager.SetClipsDirectory | gui/session_manager.py:19-26 | the directory is recorded and the CSV path is the summary CSV of the `.pipeline_output` layout below it, `d/.pipeline_output/detection_csvs/animals_in_videos.csv`; the index is unchanged |
| SessionManager.SaveClipIndex | gui/session_manager.py:28-34 | only the index changes |
| SessionManager.OutputsAfterSetDirectory | gui/session_manager.py:48-56 | after choosing a directory, outputs exist iff its summary CSV exists |
| SessionManager.Reset | gui/session_manager.py:58-62 | index 0, no directory and no CSV path |
| SessionManager.ResetForgetsOutputs | gui/session_manager.py:48-62 | after a reset no outputs are reported |
| SessionManager.LoadState | gui/session_manager.py:74-94 | a record is returned iff the file holds a parseable record with version `1.0`, and it is that record |
| SessionManager.PathField | gui/session_manager.py:134-136 | a path is saved as a string iff it is set |
| SessionManager.SavedDoc | gui/session_manager.py:130-139 | the saved record carries version `1.0`, the preferences and the index |
| SessionManager.SaveState | gui/session_manager.py:122-145 | a failed open leaves the file alone; a failure during the dump leaves no loadable record; a full write loads back as the saved record |
| SessionManager.ValidateState | gui/session_manager.py:96-120 | valid iff the session is present and both the directory and the CSV path are non-empty and exist |
| SessionManager.RestoreFromState | gui/session_manager.py:147-168 | with no session the index becomes 0 and the rest stays; a non-empty path field replaces the current path with its parse and an empty or missing one leaves it; the index is the stored one or 0; the preferences are the stored ones or `{}` |
| SessionManager.PathFieldRoundTrip | gui/session_manager.py:134-166 | a well-formed path saved and restored is the same path; an unset one leaves the fallback |
| SessionManager.SaveLoadRestore | gui/session_manager.py:122-168 | save, then load, then restore reproduces the index and every path that was set, and returns the preferences unchanged |
| SessionManager.SaveRestoreSelf | gui/session_manager.py:130-168 | restoring a manager from its own saved record changes nothing |
| SessionManager.SavedValidates | gui/session_manager.py:96-139 | a saved session validates iff both of its paths were set and still exist |
| SessionManager.WriteFailureKeepsOldOrNothing | gui/session_manager.py:141-145 | after any write, loading gives the old record, the new record, or nothing |
| ReviewClips.RowAnn | review_clips.py:75-76 | the multiple flag holds iff the stripped, lower-cased field (default `"false"`) equals `"true"` |
| ReviewClips.LoadAnnotations | review_clips.py:69-79 | one annotation per title: the keys are distinct |
| ReviewClips.RowTitles | review_clips.py:74 | each row's title is its stripped `video_title` field, empty when absent |
| ReviewClips.AnnotatedTitles | review_clips.py:73-78 | the annotated titles are exactly the non-empty stripped titles of the rows |
| ReviewClips.LastRowWins | review_clips.py:77-78 | for a repeated title the last row's annotation is kept, and other titles are unaffected |
| ReviewClips.ParseFilterList | review_clips.py:235-236 | the result holds exactly the non-empty stripped comma-separated parts, none containing a comma |
| ReviewClips.FirstSeen | review_clips.py:228-231 | distinct values, exactly the non-empty stripped ones, in the order of their first occurrence |
| ReviewClips.LoadAvailableAnimals | review_clips.py:222-232 | nothing when the file is missing; otherwise distinct names, a name is listed iff some row's stripped `animal` field is that non-empty name, and the names come in the order of their first row |
| ReviewClips.ColumnFirstSeen | review_clips.py:228-232 | reading the column field by field gives the distinct non-empty stripped values in first-occurrence order |
| ReviewClips.AutoDeletedSingle | review_clips.py:268 | the auto-delete rule only fires for a clip with exactly one animal, and that animal is listed |
| ReviewClips.Decide | review_clips.py:260-277 | a title without a clip file is skipped; a found one is dropped when it fails the wanted filter, trashed when it is a listed single-species clip, and listed otherwise with its path and the annotation's unique-animals text and multiple flag (empty and false when the title has none) |
| ReviewClips.BuildList | review_clips.py:259-277 | every listed entry comes from the titles and passes the wanted filter and escapes the auto-delete rule; listed plus trashed is at most the titles |
| ReviewClips.BuildListComplete | review_clips.py:259-277 | every title that is listed or trashed on its own ends up in the list or the trash of the whole loop |
| ReviewClips.BuildListSorted | review_clips.py:254-275 | titles visited in sorted order give a review list in title order |
| ReviewClips.SortedTitles | review_clips.py:254 | the titles are sorted and are a permutation of the annotation keys |
| ReviewClips.ToSet | review_clips.py:245-246 | the set holds exactly the list's elements |
| ReviewClips.ParseExts | review_clips.py:244 | every extension is non-empty and has no comma |
| ReviewClips.Prepare | review_clips.py:239-280 | a missing CSV or clips directory stops with that error; otherwise the list is in title order and holds exactly the candidates of the annotated titles, each as `Decide` judges it, and no title has a candidate when there is nothing to review |
| ReviewClips.ListedCandidates | review_clips.py:254-277 | the loop over the sorted annotated titles lists an entry iff it is the candidate of an annotated title |
| ReviewClips.BuildListSound | review_clips.py:259-277 | every listed entry is the one `Decide` gives for its own title, which is among the titles visited |
| ReviewClips.NavStep | review_clips.py:287-304 | next and a failed delete advance by one; prev goes back but never below 0; a successful delete removes exactly the current clip and lands on the clip that followed it, or on the new last clip |
| ReviewClips.DeleteStep | review_clips.py:291-295 | a trashed clip leaves the list and nothing else does; the index stays on the clip that followed it, or moves to the new last clip when the deleted one was last |
| ReviewClips.NavStepKeeps | review_clips.py:287-304 | one pass of the loop loses no clip: what leaves the list is exactly what goes to the trash, and the index ends at most one past the end |
| ReviewClips.Navigate | review_clips.py:282-304 | clips are only moved between the list and the trash, never lost; a run without a successful delete leaves the list as it was and trashes nothing; every clip played comes from the list, the first being the first clip; the loop ends on quit or as soon as the index leaves the list |
| ReviewClips.Ceil | review_clips.py:117 | `math.ceil`: the least integer not below `x` |
| ReviewClips.FrameStep | review_clips.py:117 | the step is `max(1, ceil(play_rate))`: at least 1, the rate rounded up when positive, 1 for rates up to 1 |
| SummarizeVideos.VideoNameFromFrame | summarize_videos.py:31-35 | the result is a prefix of the file's stem that no `_frame_` occurs inside; it is the whole stem when there is no `_frame_`, and otherwise stops exactly where the first `_frame_` starts |
| SummarizeVideos.FrameNameParts | extract_frames.py:34 | a frame file name is the stem, `_frame_`, the number and `.jpg` |
| SummarizeVideos.FrameFileStem | extract_frames.py:34 | the stem of a frame file name is `{stem}_frame_{idx}` |
| SummarizeVideos.FirstMarker | summarize_videos.py:33-34 | in `{stem}_frame_{rest}` the first `_frame_` is the appended one, when the stem has none and does not end in `_frame` |
| SummarizeVideos.FrameNameRoundTrip | summarize_videos.py:31-35 | the clip name recovered from a frame file written by frame extraction is the clip's stem, when the stem has no `_frame_` and does not end in `_frame` |
| SummarizeVideos.StemEndingInFrameIsCut | summarize_videos.py:31-35 | for a stem ending in `_frame` the recovered name is the stem without that ending, so the round trip fails |
| SummarizeVideos.NormalizeAnimal | summarize_videos.py:38-39 | every space becomes `_` and every other character stays, so no space is left |
| SummarizeVideos.AnimalsOf | summarize_videos.py:46-50 | the reference grouping: a clip's animals in row order, at most one per row |
| SummarizeVideos.LoadPredictions | summarize_videos.py:42-51 | one group per clip: the keys are distinct, and they are the clips of the rows without repeats, in the order the rows first name them (dict insertion order) |
| Assoc.Upsert | summarize_videos.py:50 | `d[k] = v`: `k` now holds `v` and every other key keeps its value; a new key goes last and an existing key keeps its place |
| Order.DedupFirstSeen | summarize_videos.py:42-51 | dropping repeats keeps each element's first occurrence, in order: the kept elements come in the order of their first positions |
| SummarizeVideos.TitledRowIff | summarize_videos.py:42-66 | a clip has a summary row exactly when some prediction row names it |
| SummarizeVideos.SummaryInFirstSeenOrder | summarize_videos.py:42-66 | the summary rows come in the order the prediction rows first name their clips |
| SummarizeVideos.GroupsAreReference | summarize_videos.py:42-51 | every row lands in exactly its clip's group, in row order, and a clip has a group iff some row belongs to it |
| SummarizeVideos.Uniq | summarize_videos.py:57 | the distinct non-empty animal names |
| SummarizeVideos.NormalizedSorted | summarize_videos.py:58 | sorted, and a permutation of the normalised distinct names |
| SummarizeVideos.SummaryOf | summarize_videos.py:56-65 | the row carries the clip's title and a flag that is `"true"` or `"false"` |
| SummarizeVideos.Aggregate | summarize_videos.py:54-66 | one row per group, in group order, titled by the group's clip |
| SummarizeVideos.AggregateAt | summarize_videos.py:54-66 | the `i`-th row summarises the `i`-th group |
| SummarizeVideos.MultipleIff | summarize_videos.py:57-63 | the flag is `"true"` iff the clip has two different non-empty raw animal names |
| SummarizeVideos.UniqueAnimalsEmptyIff | summarize_videos.py:57-58 | the joined text is empty iff every animal name is empty |
| SummarizeVideos.SameNamesSameSummary | summarize_videos.py:57-63 | the summary depends only on the set of non-empty names, not their order or repeats |
| SummarizeVideos.SplitUniqueAnimals | summarize_videos.py:58 | splitting the joined text on `&` gives back the sorted normalised names |
| SummarizeVideos.MergedNamesRepeat | summarize_videos.py:57-58 | two raw names that normalise alike, such as `red fox` and `red_fox`, appear twice in the joined text while the flag says multiple |
| SummarizeVideos.SpaceSpellingMerges | summarize_videos.py:38-39 | every name with a space has a different `_` spelling that normalises the same |
| SummarizeVideos.OneRowPerVideo | summarize_videos.py:54-66 | the output titles are distinct; a clip has a row iff some prediction row belongs to it, and that row summarises exactly the clip's animals |
| SummarizeVideos.WriteOutput | summarize_videos.py:69-76 | a header `video_title, unique_animals, multiple_animals` and one three-field record per row |
| SummarizeVideos.IndexOf | summarize_videos.py:72-74 | the position of a column in the header, if present |
| SummarizeVideos.ReadBack | summarize_videos.py:69-76 | reading a written record by column name gives back each field of the row |
| SummarizeVideos.DefaultPaths | summarize_videos.py:81-83 | the default input and output are `detection_csvs/animal_predictions.csv` and `detection_csvs/animals_in_videos.csv` |
| SummarizeVideos.Main | summarize_videos.py:79-91 | a missing input stops with an error; otherwise the output goes to the given or default path and is the written table of the per-clip summary, one row per clip plus the header |
| ClassifyFrames.NormalizeLabel | classify_frames.py:50-51 | the normalised label has no `_`, `-` or capital letter and no surrounding white space |
| ClassifyFrames.NormalizeLabelIsReference | classify_frames.py:50-51 | the label equals the independent reading: every character with `_` and `-` turned into spaces and lower-cased, then stripped |
| ClassifyFrames.NormalFixed | classify_frames.py:50-51 | a label without separators, capitals or surrounding space is left as it is |
| ClassifyFrames.NormalizeCase | classify_frames.py:50-51 | lower-casing the raw label first changes nothing |
| ClassifyFrames.NormalizeRedDeer | classify_frames.py:50-51 | `Red_Deer` normalises to `red deer` |
| ClassifyFrames.NormalizeIdempotent | classify_frames.py:50-51 | normalising twice is normalising once |
| ClassifyFrames.NormalizeSeparators | classify_frames.py:50-51 | `_` and `-` are interchangeable in a detector label: turning every `_` into `-` does not change the normalised label |
| ClassifyFrames.MapLabel | classify_frames.py:70-72 | the canonical label is a value of the label map or `"other"`, and it is not `"other"` iff the normalised label is a key of the map |
| ClassifyFrames.MapLabelNormalized | classify_frames.py:70-72 | mapping a normalised label gives the same canonical label as mapping the raw one |
| ClassifyFrames.DeerMerged | classify_frames.py:32-40 | a label maps to `"deer"` iff it normalises to fallow deer, red deer or roe deer |
| ClassifyFrames.FirstMax | classify_frames.py:79 | `max(..., key=labels.count)`: a candidate whose count no candidate exceeds |
| ClassifyFrames.FirstMaxIsFirst | classify_frames.py:79 | ties go to the first candidate of maximal count in iteration order |
| ClassifyFrames.SummarizeLabels | classify_frames.py:75-80 | no labels give `("other", False)`; otherwise the majority is one of the labels and no label occurs more often |
| ClassifyFrames.MultipleIff | classify_frames.py:78-80 | the flag holds iff two labels differ |
| ClassifyFrames.StrictMajorityWins | classify_frames.py:78-79 | a label occurring more often than every other is the majority, whatever the set's iteration order |
| ClassifyFrames.FrameLabels | classify_frames.py:93-99 | each detection contributes its canonical label, in order |
| ClassifyFrames.PredictFrame | classify_frames.py:83-102 | the row is named after the frame file; an unreadable image gives `(name, "other", False)`; the animal is `"other"` or a canonical label some detection mapped to |
| ClassifyFrames.FindFrames | classify_frames.py:105-109 | only images that exist directly in the frames directory are listed |
| ClassifyFrames.FindFramesComplete | classify_frames.py:105-109 | every file of the directory ending in `.jpg`, `.jpeg` or `.png` is listed |
| ClassifyFrames.CsvRecord | classify_frames.py:150-152 | a prediction is written as name, animal and `True`/`False` |
| ClassifyFrames.Main | classify_frames.py:129-148 | no frames stop with an error; otherwise every listed frame is classified and the CSV goes to `animal_predictions.csv` in the given directory or in `detection_csvs` beside the frames directory |
| ClassifyFrames.WriteRows | classify_frames.py:148-152 | the header, then one record per prediction in completion order |
| ExtractFrames.Step | extract_frames.py:28 | the step is at least 1, and with at least as many frames as samples it is the floor quotient `total // fpc` |
| ExtractFrames.Positions | extract_frames.py:23-29 | no positions without frames or samples; otherwise exactly `fpc` positions, starting at 0, non-decreasing, each a valid frame number |
| ExtractFrames.EvenlySpaced | extract_frames.py:28-29 | with `fpc <= total` the positions are the multiples of `total // fpc` and strictly increasing, so the clamp never acts |
| ExtractFrames.OverSampled | extract_frames.py:28-29 | with fewer frames than samples the step is 1 and every position past the last frame reads the last frame |
| ExtractFrames.FrameFileNameInjective | extract_frames.py:36 | different frame numbers of one clip give different file names |
| ExtractFrames.ReadableNumbers | extract_frames.py:31-38 | the 1-based numbers of the sample positions that read, strictly increasing, each one readable, none readable left out |
| ExtractFrames.ExtractEvenFrames | extract_frames.py:14-41 | no frame is written for a clip that does not open; each written file is `{stem}_frame_{idx}.jpg` with the 1-based number of a readable sample position; numbers strictly increase; every readable position of an opened clip is written, so an unreadable one only leaves a gap |
| ExtractFrames.ToPattern | extract_frames.py:86 | an entry already starting with `*` is the pattern itself; any other entry becomes the pattern of names ending in it |
| ExtractFrames.PatternsOf | extract_frames.py:86 | every pattern starts with `*`, one at most per entry |
| ExtractFrames.PatternsOfEntries | extract_frames.py:86 | every non-empty entry yields its pattern, and only empty entries yield none |
| ExtractFrames.PatternsOfIsMap | extract_frames.py:86 | the patterns are the non-empty entries, in order, each given a leading `*` unless it has one |
| ExtractFrames.ParsePatterns | extract_frames.py:86-88 | never empty; with some non-empty stripped `--exts` entry the patterns are those entries in order, each with a leading `*`; with none it falls back to `*.mp4`, `*.MP4` |
| ExtractFrames.MatchSorted | extract_frames.py:47 | the sorted names of exactly the entries of the directory that end in the pattern's suffix |
| ExtractFrames.ChildrenOf | extract_frames.py:47 | the paths of the named entries, in order |
| ExtractFrames.FindVideos | extract_frames.py:44-48 | every clip listed exists directly in the input directory |
| ExtractFrames.FindVideosAppend | extract_frames.py:44-48 | the matches are listed pattern by pattern, in pattern order |
| ExtractFrames.FindVideosComplete | extract_frames.py:44-48 | every entry matching some pattern is listed |
| ExtractFrames.VideoMatchesSomePattern | extract_frames.py:44-48 | every listed clip matches one of the patterns |
| ExtractFrames.PlanRun | extract_frames.py:79-90 | the output directory is the given one or `frames` beside the input directory; the patterns are those of `--exts`; the clips come from the input directory |
| ExtractFrames.NoVideosIff | extract_frames.py:90-92 | the run stops for want of clips iff no entry of the input directory matches any pattern |
| RunPipeline.SetOption | run_pipeline.py:28-34 | one `--flag value` pair; the only usage error is a value `int()` rejects for one of the three numeric options |
| RunPipeline.ParseFrom | run_pipeline.py:26-36 | a successful parse sets `force` exactly when `--force` occurs among the tokens |
| RunPipeline.ParseStep | run_pipeline.py:26-36 | an option taking a value fails when the next token cannot be a value or is a bad number, and otherwise parsing goes on after the pair |
| RunPipeline.FramesDir | run_pipeline.py:42 | the frames directory is the one given, or `frames` beside the clips directory |
| RunPipeline.DetectionDir | run_pipeline.py:43 | the detection directory is the one given, or `detection_csvs` beside the frames directory |
| RunPipeline.DefaultLayout | run_pipeline.py:42-46 | with neither directory given, frames and CSVs sit beside the clips directory and both CSVs are in the detection directory |
| RunPipeline.AsWrittenAlwaysTrue | run_pipeline.py:21-23 | as written, the frame check holds for every directory, including an empty file system where no frame exists |
| RunPipeline.AnyFramesExistIff | run_pipeline.py:21-23 | the corrected check holds exactly when the directory has a `.jpg`, `.jpeg` or `.png` entry |
| RunPipeline.ExtractOnlyWhenForced | run_pipeline.py:49 | as written, extraction runs exactly when `--force` is given |
| RunPipeline.Command | run_pipeline.py:50-96 | every step's command line is the running interpreter, the step's script, then that step's flag and value pairs |
| RunPipeline.ExtractCommand | run_pipeline.py:50-64 | extraction is handed the clips directory, the frames directory, the frame count, its worker count and the patterns, each under its own flag |
| RunPipeline.ClassifyCommand | run_pipeline.py:71-81 | classification is handed the frames directory, the CSV directory and its worker count |
| RunPipeline.SummarizeCommand | run_pipeline.py:88-96 | summarising is handed the per-frame CSV and the summary CSV |
| RunPipeline.CommandsAgree | run_pipeline.py:55-95 | classification reads the frames directory extraction writes to, writes into the directory of the predictions CSV, and summarising reads that CSV |
| RunPipeline.RunFrom | run_pipeline.py:14-18 | no more steps run than are listed, and only listed ones; a run that exits does so with a non-zero code after some step ran (the exact step and code are stated by `RunPipeline.ExitAt`) |
| RunPipeline.RanIff | run_pipeline.py:48-99 | for any run-or-skip test, a step runs iff no earlier step failed and the test says to run it on the file system found at that point |
| RunPipeline.ExitAt | run_pipeline.py:14-18 | a run exits iff some step that ran failed; that step is then the last one that ran, and the run reports its exit code on the file system it found; a completed run leaves the file system the steps left |
| RunPipeline.Run | run_pipeline.py:39-99 | `main` with the corrected frame check (extraction runs when `--force` is given or no frame exists; the other two steps when `--force` is given or their CSV is missing): the steps run in pipeline order and the run exits only with a non-zero code |
| RunPipeline.RunAsWritten | run_pipeline.py:39-99 | `main` as written: the steps run in pipeline order, the run exits only with a non-zero code, and extraction runs exactly when `--force` is given |
| RunPipeline.AsWrittenLaterDecisions | run_pipeline.py:69-99 | as written, classification and summarising run iff no earlier step failed and `--force` is given or their CSV is missing on the file system the earlier steps left |
| RunPipeline.AsWrittenSkipsMissingFrames | run_pipeline.py:21-23 | without `--force` and with no files at all, the corrected `main` extracts frames and `main` as written does not |
| RunPipeline.ClassifyDecision | run_pipeline.py:69-84 | in the corrected run, classification runs iff extraction did not fail and `--force` is given or the predictions CSV is missing once extraction is over |
| RunPipeline.SummarizeDecision | run_pipeline.py:86-99 | in the corrected run, summarising runs iff neither earlier step failed and `--force` is given or the summary CSV is missing once they are over |
| RunPipeline.RunExitCode | run_pipeline.py:14-18 | an aborted corrected `main` exits with the code the child returned for the last step that ran, on the file system that step found; a completed one leaves what the three steps left |
| RunPipeline.ConsInOrder | run_pipeline.py:48-99 | a step that comes before all later steps may be put in front of an ordered run |
| RunPipeline.HeadFirst | run_pipeline.py:48-99 | an ordered run's first step precedes the rest, which stay ordered |
| RunPipeline.RanInOrder | run_pipeline.py:48-99 | the steps that ran are in pipeline order, whatever is skipped |
| RunPipeline.AllRunPrefix | run_pipeline.py:14-18 | when nothing is skipped the steps that ran are a prefix of the list, all of it on completion |
| RunPipeline.AllRunExitCode | run_pipeline.py:16-18 | when nothing is skipped an aborted run reports the exit code of its last step, run on the file system the earlier steps left |
| RunPipeline.NoFailureCompletes | run_pipeline.py:14-18 | when no step fails the pipeline completes |
| RunPipeline.ForceRunsAll | run_pipeline.py:49-87 | in the corrected run with `--force`, extraction, classification and summarising run in that order until one fails, all three on success |
| RunPipeline.ExtractDecision | run_pipeline.py:49 | with the corrected check, extraction runs first exactly when `--force` is given or the frames directory holds no frame |
| RunPipeline.NothingToDo | run_pipeline.py:49-99 | in the corrected run, with frames, the predictions CSV and the summary present and no `--force`, nothing runs and the file system is unchanged |
| GuiConfig.CpuOr | gui/config.py:60 | `os.cpu_count() or d`: a positive count is kept; no count, or 0, gives the default |
| GuiConfig.DefaultConfig | gui/config.py:47-56 | the default clips directory is `Desktop` in the home directory; both worker defaults are the CPU count when it is between 1 and 3, 4 when it is 4 or more, and 1 when it is unknown or 0; the numeric defaults lie inside their ranges |
| GuiConfig.Pow2Monotone | gui/config.py:65-68 | powers of two strictly increase with the exponent |
| GuiConfig.Powers | gui/config.py:65-68 | the `j` powers of two from 8 on, in order |
| GuiConfig.WorkerOptionList | gui/config.py:58-76 | the list starts 1, 2, 4, holds the CPU count (4 when unknown), and the loop appends exactly the powers of two from 8 up to it, then the count if missing, then (below 32) the option above it as the last entry |
| GuiConfig.ListSound | gui/config.py:62-76 | everything appended is an allowed option for the CPU count |
| GuiConfig.ListComplete | gui/config.py:62-76 | 1, 2, 4, the CPU count, every power of two from 8 up to it and, below 32, `min(32, 2n)` are all appended |
| GuiConfig.WorkerOptions | gui/config.py:58-78 | the options are strictly ascending without repeats, contain exactly the allowed values listed above and no other |
| PipelineTab.ScriptPath | gui/pipeline_tab.py:14-31 | the bare script name unless the application is frozen and the bundled copy exists, in which case that copy's path |
| PipelineTab.ScriptPathExistsOrBare | gui/pipeline_tab.py:14-31 | the path returned is the bare name or a file that exists |
| PipelineTab.DefaultPaths | gui/pipeline_tab.py:330-334 | the default frames and CSV fields name `.pipeline_output/frames` and `.pipeline_output/detection_csvs` below the clips directory |
| PipelineTab.WithDefaultPaths | gui/pipeline_tab.py:330-334 | resetting the default paths changes only the frames and CSV fields, to the layout below the clips directory; every other field is the same |
| PipelineTab.Launcher | gui/pipeline_tab.py:388-399 | the command starts with the script path, preceded by the interpreter only when the application is not frozen |
| PipelineTab.Values | gui/pipeline_tab.py:402-410 | one value per option the pipeline script takes |
| PipelineTab.PairsFrom | gui/pipeline_tab.py:402-410 | each option flag is followed by its value, in declaration order |
| PipelineTab.OptionArgs | gui/pipeline_tab.py:402-415 | the seven flag/value pairs in order, then `--force` exactly when the box is ticked |
| PipelineTab.BuildCommand | gui/pipeline_tab.py:388-415 | the launcher, then each flag with the form's value, then `--force` when ticked |
| PipelineTab.NumberIsValueToken | gui/pipeline_tab.py:405-407 | a rendered integer, negative or not, is taken by argparse as a value and reads back as the same number |
| PipelineTab.ParsePairs | gui/pipeline_tab.py:402-410 | argparse reads the flag/value pairs one at a time and fails at the first value it cannot take |
| PipelineTab.SetFromForm | gui/pipeline_tab.py:402-410 | reading the pairs from the defaults puts each form value in its own option |
| PipelineTab.CommandParses | gui/pipeline_tab.py:388-415 | the pipeline script reads back exactly the form's settings, and rejects the command line exactly when a text field starts with '-' and is not a negative number |
| PipelineTab.DefaultOutputsLandInLayout | gui/pipeline_tab.py:330-334 | with the default paths, the pipeline script writes its frames and summary where the review and cleanup views look for them |
| PipelineTab.NewTab | gui/pipeline_tab.py:37-56 | a new tab is idle, without a runner, with consistent buttons and the default output paths for the configured clips directory |
| PipelineTab.BrowseClips | gui/pipeline_tab.py:311-316 | a cancelled dialog changes nothing; a chosen directory becomes the clips field and resets both output fields to its layout |
| PipelineTab.PressRun | gui/pipeline_tab.py:364-433 | pressing Run while running does nothing; a command starts exactly when idle, the clips directory exists and both directories are made; then the tab runs, both directories exist and the command is built from the form; no existing path disappears |
| PipelineTab.Complete | gui/pipeline_tab.py:350-362 | the tab becomes idle with Run enabled, and the status says success exactly for exit code 0 and otherwise carries the code |
| PipelineTab.Cancel | gui/pipeline_tab.py:435-443 | with a runner and a run in progress the tab becomes idle with a cancelling status; otherwise nothing changes |
| PipelineTab.ReplayConsistent | gui/pipeline_tab.py:350-443 | after any sequence of events Run is enabled exactly while idle and Cancel exactly while running |
| PipelineTab.OneRunAtATime | gui/pipeline_tab.py:366-367 | without a completion or a cancel, pressing Run repeatedly starts at most one command, none while one is running |
| PipelineWizard.VideoFiles | gui/pipeline_wizard.py:203-205 | the names step 1 counts are exactly the entries of the directory ending in one of the video extensions |
| PipelineWizard.Validate | gui/pipeline_wizard.py:186-238 | Continue is enabled exactly when the directory exists and holds a video; then it reads "Skip to Review" exactly when the summary CSV exists for that directory; a missing directory leaves the session untouched, an existing one becomes the session's directory |
| PipelineWizard.ShowStep1 | gui/pipeline_wizard.py:84-177 | step 1 shows the prompt with Continue disabled, and validates the current field only when the configured default directory exists |
| PipelineWizard.Open | gui/pipeline_wizard.py:37-82 | the wizard opens on step 1 with the given settings and no runner |
| PipelineWizard.Step1Continue | gui/pipeline_wizard.py:240-263 | the output fields are derived from the clips directory; the wizard closes asking to skip the pipeline exactly when the session has outputs and the user agrees, and moves to step 2 otherwise |
| PipelineWizard.ShowStep3 | gui/pipeline_wizard.py:413-528 | step 3 starts the tab's command line exactly when the clips directory exists and both output directories are made; a missing clips directory shows an error; no existing path disappears |
| PipelineWizard.Handle | gui/pipeline_wizard.py:50-569 | a closed wizard ignores events; Continue and Cancel do nothing while disabled, and an enabled Cancel with a runner cancels the run; only starting the run changes the file system, and it removes nothing |
| PipelineWizard.FailedRunIgnoresCancel | gui/pipeline_wizard.py:455-569 | after a failed run Cancel is disabled, so pressing it keeps the failure status on screen |
| PipelineWizard.Cancel | gui/pipeline_wizard.py:535-540 | with a runner the status becomes cancelled and Cancel is disabled; without one nothing changes |
| PipelineWizard.Complete | gui/pipeline_wizard.py:542-569 | exit code 0 closes the wizard asking not to skip the pipeline; any other code shows an error and stays on step 3 with the code in the status |
| PipelineWizard.StepMoves | gui/pipeline_wizard.py:50-569 | every event moves the wizard along one of its edges, only a successful run leaves step 3, and a closed wizard ignores events |
| PipelineWizard.SkipOnlyWithOutputs | gui/pipeline_wizard.py:179-263 | after browsing to a directory, Continue skips the pipeline exactly when the user agrees and the directory exists, holds a video and has a summary CSV |
| Cleanup.TabOutputDir | gui/cleanup_tab.py:78-80 | the tab's output directory is `.pipeline_output` directly in the clips directory |
| Cleanup.ModalOutputDir | gui/cleanup_modal.py:113-115 | the dialog's output directory is the same `.pipeline_output` in the clips directory |
| Cleanup.Tally | gui/cleanup_tab.py:92-99 | no more files are counted than are listed, and no files means no bytes |
| Cleanup.TallyCovers | gui/cleanup_tab.py:92-99 | each listed regular file's size is part of the total, and a listing without regular files totals nothing |
| Cleanup.TallyAppend | gui/cleanup_tab.py:92-99 | the totals of a listing are the sums of the totals of its parts |
| Cleanup.TallyCountsFiles | gui/cleanup_tab.py:92-99 | the count is the number of listed regular files |
| Cleanup.TallySums | gui/cleanup_tab.py:92-99 | the byte total is the sum of the sizes of the listed regular files |
| Cleanup.RegularFiles | gui/cleanup_tab.py:96 | exactly the listed paths that are regular files |
| Cleanup.UnitFor | gui/cleanup_tab.py:101-109 | the unit is the largest that keeps the number at least 1: the total reaches it, and it stays below 1024 of it except in GB |
| Cleanup.SizeString | gui/cleanup_tab.py:101-109 | below 1024 bytes the exact decimal count followed by " B", read back as the total; otherwise the total divided by the unit's scale, between 1 and 1024 (no upper bound in GB), with two decimals in GB and one otherwise |
| Cleanup.RefreshInfo | gui/cleanup_tab.py:82-120 | a missing output directory is reported by name; otherwise the count of regular files below it, a byte total equal to the sum of their sizes, and the size line for that total |
| Paths.FromStr | run_pipeline.py:41 | `Path(s)` keeps only proper components and is absolute exactly when the string starts with '/' |
| Paths.StrRoundTrip | run_pipeline.py:55-57 | `Path(str(p))` is `p` for every path `Path` can produce, so a path handed to a child process as a string arrives unchanged |
| Paths.ParentOfChild | run_pipeline.py:42-43 | `(p / name).parent` is `p` |
| Paths.Stem | summarize_videos.py:32 | the stem followed by the suffix is the name |
| Paths.MakeDirs | gui/pipeline_tab.py:379-381 | `mkdir(parents=True, exist_ok=True)` leaves the directory and each of its ancestors existing, keeps every existing entry, and adds only ancestors of the directory |
| Paths.GlobIn | extract_frames.py:47 | the names matched are exactly the entries directly in the directory ending in the suffix |
| Paths.Below | gui/cleanup_tab.py:96 | `rglob("*")` lists exactly the entries below the directory |

## Left out

- Threads, sleeps and Tk `after()` timing: the playback thread and its `join`, the fps-derived delays in `gui/video_player.py` and `review_clips.py`, and the post-clip wait arithmetic. A tick, a timer firing and a log append are explicit events instead.
- `gui/process_runner.py` and `subprocess.run`: a child process is reduced to the command line it is given and the exit code it returns. Its log streaming, progress parsing and process-group kill are not part of this model.
- The HTTP playback backend (`video_backend.py`, `gui/video_client.py`, `backend_main.py`), which wraps the same decoder behind a local server.
- OpenCV, PIL, the YOLO model and its download, `send2trash` and `appdirs` are foreign code. Their results are inputs:
  - whether a clip opens;
  - its frame count and size;
  - which frames can be read;
  - the detector's labels;
  - whether a move to the trash succeeds;
  - where the configuration file lives.
- CSV and JSON text. Rows and the session record are datatypes. The ISO timestamp in the saved record is not modelled.
- Floating point:
  - Speeds and ratios are exact reals.
  - The display size uses exact floor division.
  - The KB/MB/GB line keeps the exact quotient and the number of decimals, not its rounded rendering.
  - `frames_per_clip` read from a slider as a float is not modelled.
- Worker pools (`ThreadPoolExecutor`) in the pipeline scripts. Their completion order is an input: `ClassifyFrames.WriteRows` takes the predictions in the order they completed, and extraction does not depend on the order its clips finish.
- The argument parsers of `extract_frames.py`, `classify_frames.py`, `summarize_videos.py` and `review_clips.py` are not modelled as parsers. Their entry points take the parsed values. Only `run_pipeline.py`'s parser is modelled.
- `RunPipeline.ParseFrom` covers only part of argparse:
  - It does not model abbreviated options (`--clips`), the `--flag=value` form, or `-h`/`--help`.
  - Any value token that starts with '-' and is not a negative integer is treated as an option. argparse also takes as a value a lone '-', a negative decimal, and such a token containing a space. The `!Passable` half of `PipelineTab.CommandParses` is stated for this simplified parser.
- `Strings.ParseInt` accepts an optional '-' and decimal digits. The whitespace, '+' and underscore forms that Python's `int()` also accepts are left out.
- The order of iterating a Python `set` is arbitrary. Where the program iterates one (`summarize_videos.py` before sorting, `review_clips.py`'s animal sets), the model uses an ordered sequence with the same elements.
- Widgets, theming, message-box text and the keyboard-shortcut table. A confirmation dialog is a boolean input, and an error box is a flag in the state.
- The cleanup views' delete actions and "open in Finder", the settings panel, the main window and the application entry point.
- `PipelineWizard.Open` states only the screen, the settings and the absence of a runner. What step 1 shows is stated by `PipelineWizard.ShowStep1`.
- `Cleanup.Tally` states only bounds. The exact count and the exact byte sum are stated by `Cleanup.TallyCountsFiles` and `Cleanup.TallySums`.
- `Strings.Lower` and `Strings.Strip` act on ASCII only. Python's `lower()` also folds non-ASCII capitals, and `strip()` also removes Unicode white space such as U+00A0. Labels, titles and queries with such characters are outside the model.
- `ExtractFrames.ParsePatterns`, `ExtractFrames.PlanRun`: an `--exts` entry is matched as a literal name suffix after its leading `*`. Glob syntax inside the entry (`*.mp[34]`, `clip_*.mp4`, `**/*.mp4`) matches differently in Python and is not modelled.
- Directory creation by the pipeline scripts is not modelled. `mkdir(parents=True, exist_ok=True)` at `extract_frames.py:16` and `extract_frames.py:84`, `classify_frames.py:134` and `summarize_videos.py:70` is left out of `ExtractFrames.ExtractEvenFrames`, `ExtractFrames.PlanRun`, `ClassifyFrames.Main` and `SummarizeVideos.Main`. Their results name what is written, not the file system after the run.
- `Paths.FromStr`: exactly two leading slashes are kept by POSIX `pathlib` as the root `//` (`str(Path("//x")) == "//x"`); the model reads them as the single root `/` and renders `/x`.
- `SessionManager.ValidateState`: a record whose `session` is present but `null` makes the program raise `AttributeError` at `session.get` (gui/session_manager.py:108-111); the model answers false.
- `SessionManager.RestoreFromState`: a stored index that is present but `null` is read as absent, so the model restores 0 where the program stores `None`. A `session` that is present but `null` makes the program raise `AttributeError`; the model reads it as no session.
- Case-insensitive file systems are not modelled: `Paths.Exists` compares names exactly. On such a system the `exists()` probes of `find_clip` and `_find_clip` (review_clips.py:82-87, gui/review_tab.py:444-450) succeed for `clip.mp4` when the file is stored as `clip.MP4`, and return the `.mp4` spelling; `ReviewTab.FindClip`, which both review tools use here, finds nothing there. Glob patterns are unaffected, since pathlib matches them case-sensitively on POSIX.

## Findings

| source | as written | input that shows it | evidently intended | confidence | as-written member | corrected member |
|---|---|---|---|---|---|---|
| run_pipeline.py:21-23, 49 | `any(frames_dir.glob(p) for p in patterns)` tests the truth of three generator objects, which are always true, so the frame check holds even for an empty or missing directory and extraction is skipped unless `--force` is given | a first run without `--force` on a clips directory whose `frames` sibling does not exist: extraction is skipped, then classification finds no frames | the check holds only when some `.jpg`, `.jpeg` or `.png` file exists in the frames directory | high; not executed | RunPipeline.AsWrittenAlwaysTrue | RunPipeline.AnyFramesExistIff |

The as-written check is `RunPipeline.AnyFramesExistAsWritten`. `RunPipeline.ExtractOnlyWhenForced` proves that with it extraction runs exactly when `--force` is given. The corrected `RunPipeline.AnyFramesExist` is what `RunPipeline.Run` uses, and `RunPipeline.ExtractDecision` proves the intended decision about it. `RunPipeline.RunAsWritten` is `main` with the check as written; `RunPipeline.AsWrittenSkipsMissingFrames` shows the two runs parting on an empty file system.

Other behaviour the model keeps as written:

- The review screen keeps the CSV's row order. The command-line review tool sorts by title.
- The search query is not stripped, so a query of spaces filters.
- A scheduled auto-advance is never cancelled (`ReviewTab.StaleAdvanceSkips`).
- `save_state` writes in place, so a failed write can leave a truncated file (`SessionManager.WriteFailureKeepsOldOrNothing`).
- `summarize_videos.py` normalises after deduplicating. So "red fox" and "red_fox" give the name `red_fox` twice (`SummarizeVideos.MergedNamesRepeat`).
- A clip stem that ends in `_frame` does not survive the frame-name round trip (`SummarizeVideos.StemEndingInFrameIsCut`).
- `review_clips.py` splits `unique_animals` on `_`, while `summarize_videos.py` joins the names with `&`.
- In the wizard, "Use Defaults" does the same as "Run Analysis".
- Step 1 checks that the configured default directory exists but validates the current field.
- The skip decision uses the session state from the most recent validation.

=== FILE: assoc.dfy ===
/** Python dicts keyed by strings, as their items in insertion order. */
module Assoc {
  import opened Options
  import opened Order

  type Assoc<V> = seq<(string, V)>

  /** `list(d.keys())` */
  function Keys<V>(d: Assoc<V>): (ks: seq<string>)
    ensures |ks| == |d| && forall i :: 0 <= i < |d| ==> ks[i] == d[i].0
  {
    if |d| == 0 then [] else [d[0].0] + Keys(d[1..])
  }

  /** `d.get(k)`: the value of the first item with key `k`. */
  function Lookup<V>(d: Assoc<V>, k: string): Option<V> {
    if |d| == 0 then None
    else if d[0].0 == k then Some(d[0].1)
    else Lookup(d[1..], k)
  }

  /** `d[k] = v`: a new key goes last; an existing key keeps its place and
      takes the new value. */
  function Upsert<V>(d: Assoc<V>, k: string, v: V): (r: Assoc<V>)
    ensures Lookup(r, k) == Some(v)
    ensures forall k' :: k' != k ==> Lookup(r, k') == Lookup(d, k')
    ensures forall x :: x in Keys(r) <==> x in Keys(d) || x == k
    ensures k in Keys(d) ==> Keys(r) == Keys(d)
    ensures k !in Keys(d) ==> Keys(r) == Keys(d) + [k]
  {
    if |d| == 0 then [(k, v)]
    else if d[0].0 == k then [(k, v)] + d[1..]
    else
      var rest := Upsert(d[1..], k, v);
      assert ([d[0]] + rest)[1..] == rest;
      [d[0]] + rest
  }

  /** Setting a key never repeats a key. */
  lemma {:induction false} UpsertDistinct<V>(d: Assoc<V>, k: string, v: V)
    requires Distinct(Keys(d))
    ensures Distinct(Keys(Upsert(d, k, v)))
  {
    if |d| > 0 {
      if d[0].0 == k {
        assert ([(k, v)] + d[1..])[1..] == d[1..];
      } else {
        var rest := Upsert(d[1..], k, v);
        DistinctTail(Keys(d));
        UpsertDistinct(d[1..], k, v);
        assert ([d[0]] + rest)[1..] == rest;
        DistinctCons(d[0].0, Keys(rest));
      }
    }
  }

  /** A key is present exactly when looking it up finds a value. */
  lemma {:induction false} LookupKeys<V>(d: Assoc<V>, k: string)
    ensures Lookup(d, k).Some? <==> k in Keys(d)
  {
    if |d| > 0 {
      LookupKeys(d[1..], k);
      assert Keys(d) == [d[0].0] + Keys(d[1..]);
    }
  }

  /** With distinct keys, the item at `i` is what its key looks up. */
  lemma {:induction false} LookupDistinct<V>(d: Assoc<V>, i: nat)
    requires Distinct(Keys(d)) && i < |d|
    ensures Lookup(d, d[i].0) == Some(d[i].1)
  {
    if i > 0 {
      DistinctTail(Keys(d));
      assert Keys(d[1..]) == Keys(d)[1..];
      assert d[0].0 != d[i].0 by { assert Keys(d)[0] != Keys(d)[i]; }
      LookupDistinct(d[1..], i - 1);
    }
  }
}

=== FILE: classify_frames.dfy ===
/** The label handling of the frame classifier: detector class names are
    normalised and mapped onto the canonical animal labels, a frame's labels
    are summarised as a majority and a multiple-animals flag, and the
    classifier's frame list, output location and rows. The detector itself is
    an input: the raw class names it reports for a frame, or nothing when the
    image cannot be read. */
module ClassifyFrames {
  import opened Options
  import opened Strings
  import opened Order
  import opened Paths
  import ExtractFrames

  /** `LABEL_MAP`: normalised detector labels to canonical labels. */
  const LabelMap: map<string, string> := map[
    "bird" := "bird",
    "cat" := "cat",
    "chamois" := "chamois",
    "dog" := "dog",
    "eurasian lynx" := "eurasian_lynx",
    "eurasian red squirrel" := "eurasian_red_squirrel",
    "european badger" := "european_badger",
    "european mouflon" := "european_mouflon",
    "fallow deer" := "deer",
    "gray wolf" := "gray_wolf",
    "hare" := "hare",
    "marten" := "marten",
    "moose" := "moose",
    "red deer" := "deer",
    "red fox" := "red_fox",
    "reindeer" := "reindeer",
    "roe deer" := "deer",
    "wild boar" := "wild_boar"
  ]

  const Other: string := "other"

  /** `normalize_label(raw)`: `_` and `-` become spaces, then the result is
      stripped and lower-cased. */
  function NormalizeLabel(raw: string): (r: string)
    ensures '_' !in r && '-' !in r
    ensures forall i :: 0 <= i < |r| ==> !('A' <= r[i] <= 'Z')
    ensures |r| > 0 ==> !IsSpace(r[0]) && !IsSpace(r[|r| - 1])
  {
    var b := ReplaceChar(ReplaceChar(raw, '_', " "), '-', " ");
    var c := Strip(b);
    StripKeepsOut(b, '_');
    StripKeepsOut(b, '-');
    LowerSpaces(c);
    LowerNoCapitals(c);
    LowerKeepsOut(c, '_');
    LowerKeepsOut(c, '-');
    Lower(c)
  }

  /** Normalising a normalised label changes nothing. */
  lemma NormalizeIdempotent(raw: string)
    ensures NormalizeLabel(NormalizeLabel(raw)) == NormalizeLabel(raw)
  {
    NormalFixed(NormalizeLabel(raw));
  }

  /** A name already in normal form (no separator, no capital, no
      surrounding whitespace, as every `LABEL_MAP` key is) is left as it
      is; with the shape `NormalizeLabel` ensures, these are exactly its
      results. */
  lemma NormalFixed(s: string)
    requires '_' !in s && '-' !in s
    requires forall i :: 0 <= i < |s| ==> !('A' <= s[i] <= 'Z')
    requires |s| > 0 ==> !IsSpace(s[0]) && !IsSpace(s[|s| - 1])
    ensures NormalizeLabel(s) == s
  {
    ReplaceAbsent(s, '_', " ");
    ReplaceAbsent(s, '-', " ");
    StripStripped(s);
    LowerLowered(s);
  }

  /** What one character of a detector name becomes: a separator `_` or `-`
      is read as a space, and a capital as its small letter. */
  function LabelChar(c: char): char {
    if c == '_' || c == '-' then ' ' else LowerChar(c)
  }

  /** Reference reading of a detector name: every character read on its
      own, then the surrounding whitespace dropped. */
  function ReadLabel(raw: string): string {
    Strip(seq(|raw|, i requires 0 <= i < |raw| => LabelChar(raw[i])))
  }

  /** `normalize_label` is the character-by-character reading, stripped. */
  lemma NormalizeLabelIsReference(raw: string)
    ensures NormalizeLabel(raw) == ReadLabel(raw)
  {
    var a := ReplaceChar(raw, '_', " ");
    var b := ReplaceChar(a, '-', " ");
    ReplaceCharPointwise(raw, '_', ' ');
    ReplaceCharPointwise(a, '-', ' ');
    assert Lower(b) == seq(|raw|, i requires 0 <= i < |raw| => LabelChar(raw[i]));
    StripLower(b);
  }

  /** A label read character by character into `want`, which has no
      surrounding space, normalises to `want`. */
  lemma ReadsAs(raw: string, want: string)
    requires |raw| == |want| && forall i :: 0 <= i < |raw| ==> LabelChar(raw[i]) == want[i]
    requires |want| > 0 ==> !IsSpace(want[0]) && !IsSpace(want[|want| - 1])
    ensures NormalizeLabel(raw) == want
  {
    NormalizeLabelIsReference(raw);
    assert seq(|raw|, i requires 0 <= i < |raw| => LabelChar(raw[i])) == want;
    StripStripped(want);
  }

  /** Separators and capitals in a detector name are read away. */
  lemma NormalizeRedDeer(raw: string)
    requires raw == "Red_Deer"
    ensures NormalizeLabel(raw) == "red deer"
  {
    var want := "red deer";
    assert LabelChar(raw[0]) == want[0] && LabelChar(raw[3]) == want[3] && LabelChar(raw[4]) == want[4];
    assert raw[1] == want[1] && raw[2] == want[2] && raw[5] == want[5] && raw[6] == want[6] && raw[7] == want[7];
    ReadsAs(raw, want);
  }

  /** Normalisation only merges spellings: a separator `_` or `-` and a
      space are read alike. */
  lemma NormalizeSeparators(raw: string)
    ensures NormalizeLabel(ReplaceChar(raw, '_', "-")) == NormalizeLabel(raw)
  {
    var a := ReplaceChar(raw, '_', "-");
    ReplaceCharPointwise(raw, '_', '-');
    ReplaceCharPointwise(raw, '_', ' ');
    ReplaceCharPointwise(a, '_', ' ');
    var x := ReplaceChar(ReplaceChar(raw, '_', " "), '-', " ");
    var y := ReplaceChar(ReplaceChar(a, '_', " "), '-', " ");
    ReplaceCharPointwise(ReplaceChar(raw, '_', " "), '-', ' ');
    ReplaceCharPointwise(ReplaceChar(a, '_', " "), '-', ' ');
    assert x == y;
  }

  /** Upper- and lower-case spellings of a name normalise alike. */
  lemma NormalizeCase(raw: string)
    ensures NormalizeLabel(Lower(raw)) == NormalizeLabel(raw)
  {
    NormalizeLabelIsReference(raw);
    NormalizeLabelIsReference(Lower(raw));
    var l := Lower(raw);
    var x := seq(|l|, i requires 0 <= i < |l| => LabelChar(l[i]));
    var y := seq(|raw|, i requires 0 <= i < |raw| => LabelChar(raw[i]));
    forall i | 0 <= i < |raw| ensures x[i] == y[i] {
      LabelCharLower(raw[i]);
    }
    assert x == y;
  }

  lemma LabelCharLower(c: char)
    ensures LabelChar(LowerChar(c)) == LabelChar(c)
  {
  }

  /** `map_label(raw)` */
  function MapLabel(raw: string): (r: string)
    ensures r == Other || r in LabelMap.Values
    ensures r != Other <==> NormalizeLabel(raw) in LabelMap
  {
    var n := NormalizeLabel(raw);
    if n in LabelMap then
      assert LabelMap[n] in LabelMap.Values;
      OtherUnmapped(n);
      LabelMap[n]
    else Other
  }

  /** No detector name maps to the fallback label. */
  lemma OtherUnmapped(n: string)
    requires n in LabelMap
    ensures LabelMap[n] != Other
  {
    assert LabelMap[n] in LabelMap.Values;
    assert forall v :: v in LabelMap.Values ==> v[0] != 'o';
  }

  /** A label depends only on the normalised detector name. */
  lemma MapLabelNormalized(raw: string)
    ensures MapLabel(NormalizeLabel(raw)) == MapLabel(raw)
  {
    NormalizeIdempotent(raw);
  }

  /** The three deer species, and only they, become "deer". */
  lemma DeerMerged(raw: string)
    ensures MapLabel(raw) == "deer" <==>
      NormalizeLabel(raw) == "fallow deer" || NormalizeLabel(raw) == "red deer" || NormalizeLabel(raw) == "roe deer"
  {
    var n := NormalizeLabel(raw);
    if n in LabelMap && LabelMap[n] == "deer" {
      DeerKeys(n);
    }
    DeerSpecies();
  }

  lemma DeerSpecies()
    ensures "fallow deer" in LabelMap && LabelMap["fallow deer"] == "deer"
    ensures "red deer" in LabelMap && LabelMap["red deer"] == "deer"
    ensures "roe deer" in LabelMap && LabelMap["roe deer"] == "deer"
  {
  }

  lemma DeerKeys(n: string)
    requires n in LabelMap && LabelMap[n] == "deer"
    ensures n == "fallow deer" || n == "red deer" || n == "roe deer"
  {
    var others := LabelMap - {"fallow deer", "red deer", "roe deer"};
    assert forall k :: k in others ==> others[k] != "deer";
  }

  /** `labels.count(x)` */
  function Count(labels: seq<string>, x: string): nat {
    multiset(labels)[x]
  }

  /** The order in which a Python set of `labels` is iterated: each distinct
      label exactly once. Python leaves this order unspecified. */
  predicate IterationOrder(order: seq<string>, labels: seq<string>) {
    && Distinct(order)
    && (forall x :: x in order ==> x in labels)
    && (forall x :: x in labels ==> x in order)
  }

  /** `max(candidates, key=labels.count)`: the first candidate, in iteration
      order, whose count no later one exceeds. */
  function FirstMax(candidates: seq<string>, labels: seq<string>): (r: string)
    requires |candidates| > 0
    ensures r in candidates
    ensures forall c :: c in candidates ==> Count(labels, c) <= Count(labels, r)
  {
    if |candidates| == 1 then candidates[0]
    else
      var init := candidates[..|candidates| - 1];
      var m := FirstMax(init, labels);
      var last := candidates[|candidates| - 1];
      assert forall c :: c in candidates ==> c in init || c == last;
      if Count(labels, last) > Count(labels, m) then last else m
  }

  /** Ties go to the candidate met first: every candidate before the result
      has a strictly smaller count. */
  lemma {:induction false} FirstMaxIsFirst(candidates: seq<string>, labels: seq<string>) returns (k: nat)
    requires |candidates| > 0
    ensures k < |candidates| && candidates[k] == FirstMax(candidates, labels)
    ensures forall i :: 0 <= i < k ==> Count(labels, candidates[i]) < Count(labels, candidates[k])
  {
    if |candidates| == 1 {
      k := 0;
    } else {
      var init := candidates[..|candidates| - 1];
      var last := candidates[|candidates| - 1];
      var m := FirstMax(init, labels);
      var j := FirstMaxIsFirst(init, labels);
      if Count(labels, last) > Count(labels, m) {
        k := |candidates| - 1;
        forall i | 0 <= i < k ensures Count(labels, candidates[i]) < Count(labels, candidates[k]) {
          assert candidates[i] == init[i] && init[i] in init;
        }
      } else {
        k := j;
      }
    }
  }

  /** `summarize_labels(labels)`: the majority label and whether the labels
      are not all the same; `order` is the iteration order of `set(labels)`. */
  function SummarizeLabels(labels: seq<string>, order: seq<string>): (r: (string, bool))
    requires IterationOrder(order, labels)
    ensures labels == [] ==> r == (Other, false)
    ensures labels != [] ==> r.0 in labels && forall x :: x in labels ==> Count(labels, x) <= Count(labels, r.0)
  {
    if |labels| == 0 then (Other, false)
    else
      assert labels[0] in order;
      (FirstMax(order, labels), |order| > 1)
  }

  /** The flag is set exactly when two labels differ. */
  lemma MultipleIff(labels: seq<string>, order: seq<string>)
    requires IterationOrder(order, labels)
    ensures SummarizeLabels(labels, order).1 <==>
      exists i, j :: 0 <= i < |labels| && 0 <= j < |labels| && labels[i] != labels[j]
  {
    if |labels| > 0 {
      var d := Dedup(labels);
      DedupMoreThanOne(labels);
      DistinctSameMembers(order, d);
      assert |order| == |multiset(order)| == |multiset(d)| == |d|;
    }
  }

  /** A label that occurs more often than every other one is the majority,
      whatever order the set is iterated in. */
  lemma StrictMajorityWins(labels: seq<string>, order: seq<string>, x: string)
    requires IterationOrder(order, labels)
    requires x in labels && forall y :: y in labels && y != x ==> Count(labels, y) < Count(labels, x)
    ensures SummarizeLabels(labels, order).0 == x
  {
    var r := SummarizeLabels(labels, order).0;
    assert r in labels && Count(labels, x) <= Count(labels, r);
  }

  /** The canonical labels of the detections of one frame. */
  function FrameLabels(detections: seq<string>): (r: seq<string>)
    ensures |r| == |detections|
    ensures forall i :: 0 <= i < |r| ==> r[i] == MapLabel(detections[i])
  {
    MapSeqAt(MapLabel, detections);
    MapSeq(MapLabel, detections)
  }

  /** `predict_frame(path)`: `detections` is `None` when the image cannot be
      read and otherwise the detector's class names for every box of every
      result; `order` is the iteration order of the set of their labels. */
  function PredictFrame(frame: Path, detections: Option<seq<string>>, order: seq<string>): (r: (string, string, bool))
    requires detections.Some? ==> IterationOrder(order, FrameLabels(detections.value))
    ensures r.0 == Name(frame)
    ensures detections.None? ==> r == (Name(frame), Other, false)
    ensures r.1 == Other || r.1 in LabelMap.Values
    ensures detections.Some? && r.1 != Other ==> exists i :: 0 <= i < |detections.value| && MapLabel(detections.value[i]) == r.1
  {
    match detections
    case None => (Name(frame), Other, false)
    case Some(raw) =>
      var labels := FrameLabels(raw);
      var (animal, multiple) := SummarizeLabels(labels, order);
      assert labels != [] ==> exists i :: 0 <= i < |labels| && labels[i] == animal;
      (Name(frame), animal, multiple)
  }

  /** The patterns `find_frames` lists, in order. */
  const FramePatterns: seq<string> := ["*.jpg", "*.jpeg", "*.png"]

  /** `find_frames(frames_dir)`: the sorted `.jpg` files, then the `.jpeg`
      files, then the `.png` files of the directory. */
  function FindFrames(fs: FileSystem, dir: Path): (r: seq<Path>)
    ensures forall i :: 0 <= i < |r| ==> r[i] in fs.entries && IsChildOf(r[i], dir)
  {
    assert forall i :: 0 <= i < |FramePatterns| ==> ExtractFrames.IsPattern(FramePatterns[i]);
    ExtractFrames.FindVideos(fs, dir, FramePatterns)
  }

  /** Every image of the directory with one of the three suffixes is
      listed. */
  lemma FindFramesComplete(fs: FileSystem, dir: Path, n: string)
    requires Child(dir, n) in fs.entries
    requires EndsWith(n, ".jpg") || EndsWith(n, ".jpeg") || EndsWith(n, ".png")
    ensures Child(dir, n) in FindFrames(fs, dir)
  {
    assert forall i :: 0 <= i < |FramePatterns| ==> ExtractFrames.IsPattern(FramePatterns[i]);
    var j := if EndsWith(n, ".jpg") then 0 else if EndsWith(n, ".jpeg") then 1 else 2;
    assert ExtractFrames.PatternSuffix(FramePatterns[j]) == FramePatterns[j][1..];
    ExtractFrames.FindVideosComplete(fs, dir, FramePatterns, j, n);
  }

  /** The header of `animal_predictions.csv`. */
  const Columns: seq<string> := ["filename", "animal", "multiple_animals"]

  /** A prediction as `csv.writer` writes it: the flag as `True` or
      `False`. */
  function CsvRecord(p: (string, string, bool)): (rec: seq<string>)
    ensures |rec| == |Columns| && rec[0] == p.0 && rec[1] == p.1
    ensures rec[2] == "True" <==> p.2
  {
    [p.0, p.1, if p.2 then "True" else "False"]
  }

  /** What `main` does before and after classifying: the output location
      (by default `detection_csvs` beside the frames directory) and the
      frames, or the error when there are none. */
  datatype Outcome = NoFrames(framesDir: Path) | Classify(outputCsv: Path, frames: seq<Path>)

  function Main(fs: FileSystem, framesArg: string, outputArg: string): (r: Outcome)
    ensures r.NoFrames? <==> FindFrames(fs, FromStr(framesArg)) == []
    ensures r.Classify? ==> r.frames == FindFrames(fs, FromStr(framesArg))
    ensures r.Classify? ==> Name(r.outputCsv) == "animal_predictions.csv"
    ensures r.Classify? ==> (Parent(r.outputCsv) ==
      if outputArg != "" then FromStr(outputArg) else Child(Parent(FromStr(framesArg)), "detection_csvs"))
  {
    var framesDir := FromStr(framesArg);
    var outputDir := if outputArg != "" then FromStr(outputArg) else Child(Parent(framesDir), "detection_csvs");
    var frames := FindFrames(fs, framesDir);
    ParentOfChild(outputDir, "animal_predictions.csv");
    if frames == [] then NoFrames(framesDir) else Classify(Child(outputDir, "animal_predictions.csv"), frames)
  }

  /** The table written: the header, then one record per prediction in the
      order the predictions completed. */
  function WriteRows(predictions: seq<(string, string, bool)>): (table: seq<seq<string>>)
    ensures |table| == |predictions| + 1 && table[0] == Columns
    ensures forall i :: 0 <= i < |predictions| ==> table[i + 1] == CsvRecord(predictions[i])
  {
    [Columns] + seq(|predictions|, i requires 0 <= i < |predictions| => CsvRecord(predictions[i]))
  }
}

=== FILE: cleanup.dfy ===
/** The output-cleanup views (the cleanup tab and the cleanup dialog): both
    look at `clips/.pipeline_output`, count the regular files below it, add
    up their sizes and show the total in the largest binary unit that keeps
    the number at least 1. Which listed paths are regular files, and their
    sizes, are given as a map from path to `st_size`. */
module Cleanup {
  import opened Options
  import opened Strings
  import opened Paths
  import Layout

  /** `_get_output_dir` of the tab, which is handed the clips directory as
      a string. */
  function TabOutputDir(clipsDir: string): (r: Path)
    ensures r == Layout.OutputDir(FromStr(clipsDir))
    ensures Parent(r) == FromStr(clipsDir) && Name(r) == ".pipeline_output"
  {
    ParentOfChild(FromStr(clipsDir), ".pipeline_output");
    Child(FromStr(clipsDir), ".pipeline_output")
  }

  /** `_get_output_dir` of the dialog, which is handed a path. */
  function ModalOutputDir(clips: Path): (r: Path)
    ensures r == Layout.OutputDir(clips)
    ensures Parent(r) == clips && Name(r) == ".pipeline_output"
  {
    ParentOfChild(clips, ".pipeline_output");
    Child(clips, ".pipeline_output")
  }

  /** How many regular files, and how many bytes in them. */
  datatype Totals = Totals(count: nat, bytes: nat)

  function Add(a: Totals, b: Totals): Totals {
    Totals(a.count + b.count, a.bytes + b.bytes)
  }

  /** The loop over `rglob("*")`: each regular file adds one to the count
      and its size to the bytes; directories add nothing. */
  function Tally(items: seq<Path>, files: map<Path, nat>): (t: Totals)
    ensures t.count <= |items|
    ensures t.count == 0 ==> t.bytes == 0
  {
    if |items| == 0 then Totals(0, 0)
    else
      var rest := Tally(items[1..], files);
      if items[0] in files then Add(Totals(1, files[items[0]]), rest) else rest
  }

  /** Every regular file listed is counted in full, and a listing without
      regular files counts nothing. */
  lemma {:induction false} TallyCovers(items: seq<Path>, files: map<Path, nat>)
    ensures forall p :: p in items && p in files ==> files[p] <= Tally(items, files).bytes
    ensures (forall p :: p in items ==> p !in files) ==> Tally(items, files) == Totals(0, 0)
  {
    if |items| > 0 {
      TallyCovers(items[1..], files);
      assert items == [items[0]] + items[1..];
    }
  }

  /** Counting a listing in two parts and adding gives the count of the
      whole listing. */
  lemma {:induction false} TallyAppend(a: seq<Path>, b: seq<Path>, files: map<Path, nat>)
    ensures Tally(a + b, files) == Add(Tally(a, files), Tally(b, files))
  {
    if |a| > 0 {
      var ab := a + b;
      assert ab[0] == a[0] && ab[1..] == a[1..] + b;
      TallyAppend(a[1..], b, files);
      var head := if a[0] in files then Totals(1, files[a[0]]) else Totals(0, 0);
      assert Tally(ab, files) == Add(head, Tally(ab[1..], files));
      assert Tally(a, files) == Add(head, Tally(a[1..], files));
    } else {
      assert a + b == b;
    }
  }

  /** The count is the number of regular files listed. */
  lemma {:induction false} TallyCountsFiles(items: seq<Path>, files: map<Path, nat>)
    ensures Tally(items, files).count == |RegularFiles(items, files)|
  {
    if |items| > 0 {
      TallyCountsFiles(items[1..], files);
    }
  }

  /** The listed paths that are regular files. */
  function RegularFiles(items: seq<Path>, files: map<Path, nat>): (r: seq<Path>)
    ensures forall p :: p in r <==> p in items && p in files
  {
    if |items| == 0 then []
    else
      assert items == [items[0]] + items[1..];
      (if items[0] in files then [items[0]] else []) + RegularFiles(items[1..], files)
  }

  /** The sizes of the given regular files added up. */
  function SumSizes(ps: seq<Path>, files: map<Path, nat>): nat
    requires forall p :: p in ps ==> p in files
  {
    if |ps| == 0 then 0 else files[ps[0]] + SumSizes(ps[1..], files)
  }

  /** The byte total is the sum of the sizes of the listed regular files. */
  lemma {:induction false} TallySums(items: seq<Path>, files: map<Path, nat>)
    ensures Tally(items, files).bytes == SumSizes(RegularFiles(items, files), files)
  {
    if |items| > 0 {
      TallySums(items[1..], files);
      var rest := RegularFiles(items[1..], files);
      if items[0] in files {
        assert RegularFiles(items, files) == [items[0]] + rest;
        assert ([items[0]] + rest)[1..] == rest;
      } else {
        assert RegularFiles(items, files) == rest;
      }
    }
  }

  /** The units of the size line, each 1024 times the one before. */
  datatype Unit = Bytes | KB | MB | GB

  function Scale(u: Unit): nat {
    match u
    case Bytes => 1
    case KB => 1024
    case MB => 1024 * 1024
    case GB => 1024 * 1024 * 1024
  }

  /** The unit the size line uses for `total` bytes: the largest one that
      keeps the number at least 1, so the next unit up would show less. */
  function UnitFor(total: nat): (u: Unit)
    ensures total >= Scale(u) || u == Bytes
    ensures u != GB ==> total < 1024 * Scale(u)
  {
    if total < 1024 then Bytes
    else if total < 1024 * 1024 then KB
    else if total < 1024 * 1024 * 1024 then MB
    else GB
  }

  /** The size as shown: below 1024 bytes the exact count and " B";
      otherwise the quotient in the chosen unit, rounded to one decimal (two
      for GB) when rendered. */
  datatype SizeText = Exact(text: string) | Scaled(value: real, unit: Unit, decimals: nat)

  function SizeString(total: nat): (s: SizeText)
    ensures s.Exact? <==> total < 1024
    ensures s.Exact? ==>
      && |s.text| >= 3 && s.text[|s.text| - 2..] == " B"
      && ParseInt(s.text[..|s.text| - 2]) == Some(total)
    ensures s.Scaled? ==> s.unit == UnitFor(total) && s.value * (Scale(s.unit) as real) == total as real
    ensures s.Scaled? ==> 1.0 <= s.value && (s.unit != GB ==> s.value < 1024.0)
    ensures s.Scaled? ==> s.decimals == (if s.unit == GB then 2 else 1)
  {
    var u := UnitFor(total);
    if u == Bytes then
      var digits := NatToString(total);
      NatToStringRoundTrip(total);
      assert (digits + " B")[..|digits|] == digits;
      assert ParseInt(digits) == Some(total) by {
        assert IsDigits(digits);
      }
      Exact(digits + " B")
    else
      var value := total as real / Scale(u) as real;
      Scaled(value, u, if u == GB then 2 else 1)
  }

  /** What the info line shows. */
  datatype Info = Missing(dir: string) | Contents(dir: string, totals: Totals, size: SizeText)

  /** `_refresh_info` for output directory `out`. */
  function RefreshInfo(fs: FileSystem, files: map<Path, nat>, out: Path): (r: Info)
    ensures r.Missing? <==> !Exists(fs, out)
    ensures r.Missing? ==> r.dir == ToStr(out)
    ensures r.Contents? ==> r.totals.count == |RegularFiles(Below(fs.entries, out), files)|
    ensures r.Contents? ==> forall p :: p in fs.entries && IsBelow(p, out) && p in files ==> files[p] <= r.totals.bytes
    ensures r.Contents? ==> r.totals.bytes == SumSizes(RegularFiles(Below(fs.entries, out), files), files)
    ensures r.Contents? ==> r.size == SizeString(r.totals.bytes)
  {
    if !Exists(fs, out) then Missing(ToStr(out))
    else
      var items := Below(fs.entries, out);
      var t := Tally(items, files);
      TallyCountsFiles(items, files);
      TallyCovers(items, files);
      TallySums(items, files);
      Contents(ToStr(out), t, SizeString(t.bytes))
  }
}

=== FILE: config.dfy ===
/** The GUI's configuration defaults: the default settings, the allowed
    ranges, and the worker counts offered for the parallel steps. The CPU
    count is an input: `os.cpu_count()`, which may report nothing. */
module GuiConfig {
  import opened Options
  import opened Order
  import opened Paths

  /** `x or default` for what `os.cpu_count()` reports: nothing and 0 are
      both falsy. */
  function CpuOr(cpu: Option<nat>, default: nat): (n: nat)
    ensures cpu.Some? && cpu.value > 0 ==> n == cpu.value
    ensures (cpu.None? || cpu.value == 0) ==> n == default
  {
    if cpu.Some? && cpu.value != 0 then cpu.value else default
  }

  /** `DEFAULT_CONFIG`; `home` is `Path.home()`. */
  datatype Config = Config(
    clipsDir: Path,
    framesPerClip: int,
    frameWorkers: int,
    classifyWorkers: int,
    extensions: string,
    force: bool,
    playRate: real,
    clipPauseSeconds: real)

  function DefaultConfig(home: Path, cpu: Option<nat>): (c: Config)
    ensures 1 <= c.frameWorkers <= 4 && c.frameWorkers == c.classifyWorkers
    ensures cpu.Some? && 0 < cpu.value < 4 ==> c.frameWorkers == cpu.value
    ensures cpu.Some? && cpu.value >= 4 ==> c.frameWorkers == 4
    ensures cpu.None? || cpu.value == 0 ==> c.frameWorkers == 1
    ensures Parent(c.clipsDir) == home && Name(c.clipsDir) == "Desktop"
    ensures InRange(c.framesPerClip, FramesPerClipRange) && RealInRange(c.playRate, PlayRateRange)
    ensures RealInRange(c.clipPauseSeconds, (PauseDurationRange.0 as real, PauseDurationRange.1 as real))
  {
    var workers := if CpuOr(cpu, 1) < 4 then CpuOr(cpu, 1) else 4;
    ParentOfChild(home, "Desktop");
    Config(Child(home, "Desktop"), 4, workers, workers, ".mp4,.MP4,.mov,.MOV", false, 4.0, 2.0)
  }

  const FramesPerClipRange: (int, int) := (1, 30)
  const PlayRateRange: (real, real) := (0.5, 8.0)
  const PauseDurationRange: (int, int) := (0, 10)

  predicate InRange(x: int, range: (int, int)) {
    range.0 <= x <= range.1
  }

  predicate RealInRange(x: real, range: (real, real)) {
    range.0 <= x <= range.1
  }

  /** `2 ** k` */
  function Pow2(k: nat): (p: nat)
    ensures p >= 1
  {
    if k == 0 then 1 else 2 * Pow2(k - 1)
  }

  lemma {:induction false} Pow2Monotone(a: nat, b: nat)
    requires a < b
    ensures Pow2(a) < Pow2(b)
  {
    if b > a + 1 {
      Pow2Monotone(a, b - 1);
    }
  }

  /** The power-of-two options below the CPU count: 8, 16, ..., the `j`
      powers from `2 ** 3` on. */
  function Powers(j: nat): (r: seq<int>)
    ensures |r| == j && forall i :: 0 <= i < j ==> r[i] == Pow2(i + 3)
  {
    if j == 0 then [] else Powers(j - 1) + [Pow2(j + 2)]
  }

  /** `j` powers from 8 on are exactly those up to `n`. */
  predicate PowersUpTo(n: nat, j: nat) {
    Pow2(j + 3) > n && (j == 0 || Pow2(j + 2) <= n)
  }

  /** The option above `n`: `min(32, n * 2)`. */
  function Above(n: nat): int {
    if 32 < 2 * n then 32 else 2 * n
  }

  /** The list `get_worker_options` builds before `sorted(set(...))`. */
  function OptionList(n: nat, j: nat): seq<int> {
    [1, 2, 4] + Powers(j)
      + (if n in [1, 2, 4] + Powers(j) then [] else [n])
      + (if n < 32 then [Above(n)] else [])
  }

  /** The worker-count options before sorting: 1, 2, 4, the powers of two
      from 8 up to the CPU count, the CPU count when it is not yet there,
      and one option above it when the CPU count is below 32. */
  method WorkerOptionList(cpu: Option<nat>) returns (options: seq<int>, j: nat)
    ensures PowersUpTo(CpuOr(cpu, 4), j) && options == OptionList(CpuOr(cpu, 4), j)
    ensures options[..3] == [1, 2, 4] && CpuOr(cpu, 4) in options
    ensures CpuOr(cpu, 4) < 32 ==> options[|options| - 1] == Above(CpuOr(cpu, 4))
  {
    var n := CpuOr(cpu, 4);
    options := [1, 2, 4];
    var nextPower: int := 8;
    j := 0;
    while nextPower <= n
      invariant nextPower == Pow2(j + 3)
      invariant j == 0 || Pow2(j + 2) <= n
      invariant options == [1, 2, 4] + Powers(j)
      decreases n - nextPower
    {
      options := options + [nextPower];
      nextPower := nextPower * 2;
      j := j + 1;
    }
    if n !in options {
      options := options + [n];
    }
    if n < 32 {
      options := options + [if 32 < n * 2 then 32 else n * 2];
    }
  }

  /** Every option in the list is one that may be offered. */
  lemma ListSound(n: nat, j: nat)
    requires PowersUpTo(n, j)
    ensures forall x :: x in OptionList(n, j) ==> IsOption(n, x)
  {
    forall x | x in Powers(j) ensures IsOption(n, x) {
      var i :| 0 <= i < j && Powers(j)[i] == x;
      if i + 3 < j + 2 {
        Pow2Monotone(i + 3, j + 2);
      }
    }
  }

  /** The list holds 1, 2, 4, `n`, every power of two from 8 up to `n`, and
      the option above `n` when `n` is below 32. */
  lemma ListComplete(n: nat, j: nat)
    requires PowersUpTo(n, j)
    ensures var l := OptionList(n, j);
      && 1 in l && 2 in l && 4 in l && n in l
      && (forall k: nat :: 3 <= k && Pow2(k) <= n ==> Pow2(k) in l)
      && (n < 32 ==> Above(n) in l)
  {
    var l := OptionList(n, j);
    forall k: nat | 3 <= k && Pow2(k) <= n ensures Pow2(k) in l {
      assert k - 3 < j by {
        if k > j + 3 {
          Pow2Monotone(j + 3, k);
        }
      }
      assert Powers(j)[k - 3] in l;
    }
  }

  /** `get_worker_options()`: the options, strictly ascending. */
  method WorkerOptions(cpu: Option<nat>) returns (r: seq<int>)
    ensures forall i, j :: 0 <= i < j < |r| ==> r[i] < r[j]
    ensures 1 in r && 2 in r && 4 in r && CpuOr(cpu, 4) in r
    ensures forall k: nat :: 3 <= k && Pow2(k) <= CpuOr(cpu, 4) ==> Pow2(k) in r
    ensures CpuOr(cpu, 4) < 32 ==> Above(CpuOr(cpu, 4)) in r
    ensures forall x :: x in r ==> IsOption(CpuOr(cpu, 4), x)
  {
    var options, j := WorkerOptionList(cpu);
    var n := CpuOr(cpu, 4);
    ListSound(n, j);
    ListComplete(n, j);
    IntLeIsTotalOrder();
    r := SortedSet(options, IntLe);
    forall i, k | 0 <= i < k < |r| ensures r[i] < r[k] {
      assert IntLe(r[i], r[k]) && r[i] != r[k];
    }
  }

  /** What may be offered for CPU count `n`: 1, 2, 4, `n` itself, a power of
      two from 8 up to `n`, or the option above `n`. */
  ghost predicate IsOption(n: nat, x: int) {
    || x == 1 || x == 2 || x == 4 || x == n
    || (exists k: nat :: 3 <= k && x == Pow2(k) && x <= n)
    || (n < 32 && x == Above(n))
  }
}

=== FILE: extract_frames.dfy ===
/** Frame extraction: the evenly spaced frame positions of a clip, the names
    the saved frames get, the glob patterns read from `--exts`, and the
    listing of the clips to process. The decoder is a parameter saying which
    positions can be read. */
module ExtractFrames {
  import opened Strings
  import opened Order
  import opened Paths

  /** What separates a clip's stem from the frame number in a frame name. */
  const FrameMarker: string := "_frame_"

  /** The patterns used when `--exts` yields none. */
  const FallbackPatterns: seq<string> := ["*.mp4", "*.MP4"]

  function Min(a: int, b: int): int {
    if a <= b then a else b
  }

  lemma MulMonotone(i: int, j: int, k: int)
    requires 0 <= i <= j && 0 <= k
    ensures i * k <= j * k
  {
    assert j * k - i * k == (j - i) * k;
  }

  /** `max(1, total_frames // frames_per_clip)`: at least one, and when
      there are enough frames the floor of the quotient. */
  function Step(total: int, fpc: int): (s: int)
    requires total > 0 && fpc > 0
    ensures s >= 1
    ensures fpc <= total ==> s * fpc <= total < (s + 1) * fpc
  {
    var q := total / fpc;
    if q < 1 then 1 else q
  }

  /** `[min(total_frames - 1, i * step) for i in range(frames_per_clip)]`,
      empty when either count is not positive. */
  function Positions(total: int, fpc: int): (ps: seq<int>)
    ensures total <= 0 || fpc <= 0 ==> ps == []
    ensures total > 0 && fpc > 0 ==> |ps| == fpc && ps[0] == 0
    ensures forall i :: 0 <= i < |ps| ==> 0 <= ps[i] < total
    ensures forall i, j :: 0 <= i <= j < |ps| ==> ps[i] <= ps[j]
  {
    if total <= 0 || fpc <= 0 then []
    else
      var step := Step(total, fpc);
      var ps := seq(fpc, i requires 0 <= i < fpc => Min(total - 1, i * step));
      assert forall i, j :: 0 <= i <= j < fpc ==> i * step <= j * step by {
        forall i, j | 0 <= i <= j < fpc ensures i * step <= j * step { MulMonotone(i, j, step); }
      }
      ps
  }

  /** With at least as many frames as samples nothing is clamped: the
      positions are the multiples of the floor quotient, strictly
      increasing. */
  lemma EvenlySpaced(total: int, fpc: int)
    requires 0 < fpc <= total
    ensures var ps := Positions(total, fpc);
      forall i :: 0 <= i < |ps| ==> ps[i] == i * (total / fpc)
    ensures var ps := Positions(total, fpc);
      forall i, j :: 0 <= i < j < |ps| ==> ps[i] < ps[j]
  {
    var step := Step(total, fpc);
    var ps := Positions(total, fpc);
    assert step == total / fpc;
    forall i | 0 <= i < fpc ensures ps[i] == i * step {
      BelowLast(i, fpc, step, total);
    }
    forall i, j | 0 <= i < j < fpc ensures i * step < j * step {
      MulMonotone(i + 1, j, step);
    }
  }

  lemma BelowLast(i: int, n: int, step: int, total: int)
    requires 0 <= i < n && 0 < step && n * step <= total
    ensures i * step < total
  {
    MulMonotone(i, n - 1, step);
    assert (n - 1) * step == n * step - step;
  }

  /** With fewer frames than samples the step is one and the positions past
      the last frame all read the last frame. */
  lemma OverSampled(total: int, fpc: int)
    requires 0 < total < fpc
    ensures var ps := Positions(total, fpc);
      forall i :: 0 <= i < |ps| ==> ps[i] == Min(total - 1, i)
  {
  }

  /** `f"{stem}_frame_{idx}.jpg"` */
  function FrameFileName(stem: string, idx: nat): string {
    stem + FrameMarker + NatToString(idx) + ".jpg"
  }

  /** Different frame numbers of one clip give different names. */
  lemma FrameFileNameInjective(stem: string, a: nat, b: nat)
    requires FrameFileName(stem, a) == FrameFileName(stem, b)
    ensures a == b
  {
    var na, nb := FrameFileName(stem, a), FrameFileName(stem, b);
    var da, db := NatToString(a), NatToString(b);
    assert |da| == |db|;
    assert da == na[|stem| + 7..|stem| + 7 + |da|];
    assert db == nb[|stem| + 7..|stem| + 7 + |db|];
    NatToStringRoundTrip(a);
    NatToStringRoundTrip(b);
  }

  /** `extract_even_frames(video, frames_per_clip, output_dir)`: the paths
      written, and the 1-based numbers they carry. A position that cannot be
      read leaves a gap in the numbering; nothing is written when the clip
      does not open. */
  method ExtractEvenFrames(isOpen: bool, total: int, fpc: int, readable: int -> bool,
                           stem: string, outDir: Path)
      returns (saved: seq<Path>, indices: seq<nat>)
    ensures !isOpen ==> saved == []
    ensures |saved| == |indices|
    ensures forall i :: 0 <= i < |saved| ==> saved[i] == Child(outDir, FrameFileName(stem, indices[i]))
    ensures forall i :: 0 <= i < |indices| ==>
      1 <= indices[i] <= |Positions(total, fpc)| && readable(Positions(total, fpc)[indices[i] - 1])
    ensures forall i, j :: 0 <= i < j < |indices| ==> indices[i] < indices[j]
    ensures isOpen ==> forall k :: 1 <= k <= |Positions(total, fpc)| && readable(Positions(total, fpc)[k - 1]) ==>
      k in indices
  {
    saved, indices := [], [];
    if !isOpen {
      return;
    }
    indices := ReadableNumbers(Positions(total, fpc), readable);
    saved := seq(|indices|, i requires 0 <= i < |indices| => Child(outDir, FrameFileName(stem, indices[i])));
  }

  /** The loop over `enumerate(positions, start=1)`: the numbers of the
      positions whose read succeeds, in order. */
  method ReadableNumbers(positions: seq<int>, readable: int -> bool) returns (indices: seq<nat>)
    ensures forall i :: 0 <= i < |indices| ==> 1 <= indices[i] <= |positions| && readable(positions[indices[i] - 1])
    ensures forall i, j :: 0 <= i < j < |indices| ==> indices[i] < indices[j]
    ensures forall k :: 1 <= k <= |positions| && readable(positions[k - 1]) ==> k in indices
  {
    indices := [];
    var idx := 1;
    while idx <= |positions|
      invariant 1 <= idx <= |positions| + 1
      invariant forall i :: 0 <= i < |indices| ==> 1 <= indices[i] < idx && readable(positions[indices[i] - 1])
      invariant forall i, j :: 0 <= i < j < |indices| ==> indices[i] < indices[j]
      invariant forall k :: 1 <= k < idx && readable(positions[k - 1]) ==> k in indices
    {
      if readable(positions[idx - 1]) {
        indices := indices + [idx];
      }
      idx := idx + 1;
    }
  }

  /** A glob pattern `*` + suffix, the only form `main` produces. */
  predicate IsPattern(p: string) {
    |p| > 0 && p[0] == '*'
  }

  /** What a name must end with to match the pattern. */
  function PatternSuffix(p: string): string
    requires IsPattern(p)
  {
    p[1..]
  }

  /** One `--exts` entry, already stripped, as a glob pattern. */
  function ToPattern(e: string): (p: string)
    requires e != ""
    ensures IsPattern(p)
    ensures e[0] == '*' ==> p == e
    ensures e[0] != '*' ==> PatternSuffix(p) == e
    ensures ',' !in e ==> ',' !in p
  {
    if StartsWith(e, "*") then e else "*" + e
  }

  /** The patterns of the non-empty (already stripped) entries, in order. */
  function PatternsOf(es: seq<string>): (r: seq<string>)
    ensures |r| <= |es|
    ensures forall i :: 0 <= i < |r| ==> IsPattern(r[i])
    ensures (forall j :: 0 <= j < |es| ==> ',' !in es[j]) ==> forall i :: 0 <= i < |r| ==> ',' !in r[i]
  {
    if |es| == 0 then []
    else
      var rest := PatternsOf(es[1..]);
      assert (forall j :: 0 <= j < |es| ==> ',' !in es[j]) ==> forall j :: 0 <= j < |es[1..]| ==> ',' !in es[1..][j];
      if es[0] != "" then [ToPattern(es[0])] + rest else rest
  }

  /** Every non-empty entry yields its pattern, and only empty entries
      yield none. */
  lemma {:induction false} PatternsOfEntries(es: seq<string>)
    ensures forall j :: 0 <= j < |es| && es[j] != "" ==> ToPattern(es[j]) in PatternsOf(es)
    ensures (forall j :: 0 <= j < |es| ==> es[j] == "") ==> PatternsOf(es) == []
  {
    if |es| > 0 {
      PatternsOfEntries(es[1..]);
      assert forall j :: 1 <= j < |es| ==> es[j] == es[1..][j - 1];
    }
  }

  /** `[to_pattern(e) for e in entries]` over non-empty entries. */
  function MapPatterns(ne: seq<string>): (r: seq<string>)
    requires forall i :: 0 <= i < |ne| ==> ne[i] != ""
    ensures |r| == |ne| && forall i :: 0 <= i < |ne| ==> r[i] == ToPattern(ne[i])
  {
    seq(|ne|, i requires 0 <= i < |ne| => ToPattern(ne[i]))
  }

  /** The patterns are those of the non-empty entries, one per entry, in
      entry order: nothing is dropped, added, merged or reordered, so a
      repeated entry gives a repeated pattern. */
  lemma {:induction false} PatternsOfIsMap(es: seq<string>)
    ensures forall i :: 0 <= i < |NonEmpty(es)| ==> NonEmpty(es)[i] != ""
    ensures PatternsOf(es) == MapPatterns(NonEmpty(es))
  {
    var ne := NonEmpty(es);
    assert forall i :: 0 <= i < |ne| ==> ne[i] in ne;
    if |es| > 0 {
      PatternsOfIsMap(es[1..]);
      var rest := NonEmpty(es[1..]);
      if es[0] != "" {
        assert ne == [es[0]] + rest;
        MapPatternsCons(es[0], rest);
      } else {
        assert ne == rest;
      }
    }
  }

  lemma MapPatternsCons(x: string, rest: seq<string>)
    requires x != "" && forall i :: 0 <= i < |rest| ==> rest[i] != ""
    ensures forall i :: 0 <= i < |[x] + rest| ==> ([x] + rest)[i] != ""
    ensures MapPatterns([x] + rest) == [ToPattern(x)] + MapPatterns(rest)
  {
    var ne := [x] + rest;
    assert forall i :: 1 <= i < |ne| ==> ne[i] == rest[i - 1];
  }

  /** The patterns `main` builds from `--exts`: never empty, each starting
      with `*`, falling back to `*.mp4` and `*.MP4`. */
  function ParsePatterns(exts: string): (r: seq<string>)
    ensures |r| > 0
    ensures forall i :: 0 <= i < |r| ==> IsPattern(r[i]) && ',' !in r[i]
    ensures (forall j :: 0 <= j < |Split(exts, ',')| ==> Strip(Split(exts, ',')[j]) == "") ==> r == FallbackPatterns
    ensures forall j :: 0 <= j < |Split(exts, ',')| && Strip(Split(exts, ',')[j]) != "" ==>
      ToPattern(Strip(Split(exts, ',')[j])) in r
    ensures var ne := NonEmpty(StripAll(Split(exts, ',')));
      && (forall i :: 0 <= i < |ne| ==> ne[i] != "")
      && (|ne| > 0 ==> r == MapPatterns(ne))
      && (|ne| == 0 ==> r == FallbackPatterns)
  {
    var parts := Split(exts, ',');
    var es := StripAll(parts);
    assert forall j :: 0 <= j < |es| ==> ',' !in es[j] by {
      forall j | 0 <= j < |es| ensures ',' !in es[j] { StripKeepsOut(parts[j], ','); }
    }
    var ps := PatternsOf(es);
    PatternsOfEntries(es);
    PatternsOfIsMap(es);
    if |ps| == 0 then FallbackPatterns else ps
  }

  /** `sorted(input_dir.glob(pattern))` for a pattern `*` + suffix, as the
      names of the matching entries. */
  function MatchSorted(fs: FileSystem, dir: Path, pattern: string): (r: seq<string>)
    requires IsPattern(pattern)
    ensures SortedBy(r, LexLe)
    ensures forall n :: n in r <==> Child(dir, n) in fs.entries && EndsWith(n, PatternSuffix(pattern))
  {
    var names := Glob(fs, dir, PatternSuffix(pattern));
    LexLeIsTotalOrder();
    var r := Sort(names, LexLe);
    assert forall n :: n in r <==> n in multiset(names);
    r
  }

  /** The paths of the named entries of `dir`. */
  function ChildrenOf(dir: Path, names: seq<string>): (r: seq<Path>)
    ensures |r| == |names|
    ensures forall i :: 0 <= i < |r| ==> r[i] == Child(dir, names[i]) && IsChildOf(r[i], dir)
    ensures forall n :: n in names ==> Child(dir, n) in r
  {
    if |names| == 0 then []
    else
      assert (dir.parts + [names[0]])[..|dir.parts|] == dir.parts;
      [Child(dir, names[0])] + ChildrenOf(dir, names[1..])
  }

  /** `find_videos(input_dir, patterns)`: the sorted matches of each pattern,
      pattern after pattern. */
  function FindVideos(fs: FileSystem, dir: Path, patterns: seq<string>): (r: seq<Path>)
    requires forall i :: 0 <= i < |patterns| ==> IsPattern(patterns[i])
    ensures forall i :: 0 <= i < |r| ==> r[i] in fs.entries && IsChildOf(r[i], dir)
  {
    if |patterns| == 0 then []
    else
      var names := MatchSorted(fs, dir, patterns[0]);
      var here := ChildrenOf(dir, names);
      assert forall i :: 0 <= i < |here| ==> here[i] in fs.entries by {
        forall i | 0 <= i < |here| ensures here[i] in fs.entries {
          assert names[i] in names;
        }
      }
      assert forall i :: 0 <= i < |patterns[1..]| ==> IsPattern(patterns[1..][i]) by {
        forall i | 0 <= i < |patterns[1..]| ensures IsPattern(patterns[1..][i]) {
          assert patterns[1..][i] == patterns[i + 1];
        }
      }
      here + FindVideos(fs, dir, patterns[1..])
  }

  /** Pattern order is kept: the clips of two consecutive groups of patterns
      are those of the first group followed by those of the second. */
  lemma {:induction false} FindVideosAppend(fs: FileSystem, dir: Path, a: seq<string>, b: seq<string>)
    requires forall i :: 0 <= i < |a| ==> IsPattern(a[i])
    requires forall i :: 0 <= i < |b| ==> IsPattern(b[i])
    ensures forall i :: 0 <= i < |a + b| ==> IsPattern((a + b)[i])
    ensures FindVideos(fs, dir, a + b) == FindVideos(fs, dir, a) + FindVideos(fs, dir, b)
  {
    if |a| > 0 {
      assert (a + b)[1..] == a[1..] + b;
      FindVideosAppend(fs, dir, a[1..], b);
    } else {
      assert a + b == b;
    }
  }

  /** Every entry of `dir` matching some pattern is listed. */
  lemma FindVideosComplete(fs: FileSystem, dir: Path, patterns: seq<string>, j: nat, n: string)
    requires forall i :: 0 <= i < |patterns| ==> IsPattern(patterns[i])
    requires j < |patterns| && Child(dir, n) in fs.entries && EndsWith(n, PatternSuffix(patterns[j]))
    ensures Child(dir, n) in FindVideos(fs, dir, patterns)
  {
    ListedAt(fs, dir, patterns, j, patterns[j], n);
  }

  lemma {:induction false} ListedAt(fs: FileSystem, dir: Path, patterns: seq<string>, j: nat, p: string, n: string)
    requires forall i :: 0 <= i < |patterns| ==> IsPattern(patterns[i])
    requires j < |patterns| && patterns[j] == p && IsPattern(p)
    requires Child(dir, n) in fs.entries && EndsWith(n, PatternSuffix(p))
    ensures Child(dir, n) in FindVideos(fs, dir, patterns)
  {
    if j == 0 {
      FindVideosUnfold(fs, dir, patterns);
      GroupListed(fs, dir, p, n);
    } else {
      var tail := patterns[1..];
      assert tail[j - 1] == patterns[j];
      ListedAt(fs, dir, tail, j - 1, p, n);
      TailListed(fs, dir, patterns, Child(dir, n));
    }
  }

  /** What the later patterns list is listed. */
  lemma TailListed(fs: FileSystem, dir: Path, patterns: seq<string>, x: Path)
    requires |patterns| > 0 && forall i :: 0 <= i < |patterns| ==> IsPattern(patterns[i])
    requires x in FindVideos(fs, dir, patterns[1..])
    ensures x in FindVideos(fs, dir, patterns)
  {
    FindVideosUnfold(fs, dir, patterns);
  }

  /** An entry matching a pattern is in that pattern's group. */
  lemma GroupListed(fs: FileSystem, dir: Path, p: string, n: string)
    requires IsPattern(p) && Child(dir, n) in fs.entries && EndsWith(n, PatternSuffix(p))
    ensures Child(dir, n) in ChildrenOf(dir, MatchSorted(fs, dir, p))
  {
    assert n in MatchSorted(fs, dir, p);
  }

  /** The clips of the first pattern come first. */
  lemma FindVideosUnfold(fs: FileSystem, dir: Path, patterns: seq<string>)
    requires |patterns| > 0 && forall i :: 0 <= i < |patterns| ==> IsPattern(patterns[i])
    ensures FindVideos(fs, dir, patterns)
      == ChildrenOf(dir, MatchSorted(fs, dir, patterns[0])) + FindVideos(fs, dir, patterns[1..])
  {
  }

  /** What `main` settles before extracting: the output directory (created
      whether or not clips are found), the patterns, and the clips. The run
      stops with an error when `videos` is empty. */
  datatype Plan = Plan(outputDir: Path, patterns: seq<string>, videos: seq<Path>)

  /** `main` up to the worker pool. `outputArg` is `--output_dir`, where an
      empty string counts as not given. */
  function PlanRun(fs: FileSystem, inputDir: string, outputArg: string, exts: string): (r: Plan)
    ensures outputArg == "" ==> r.outputDir == Child(Parent(FromStr(inputDir)), "frames")
    ensures outputArg != "" ==> r.outputDir == FromStr(outputArg)
    ensures r.patterns == ParsePatterns(exts)
    ensures forall i :: 0 <= i < |r.videos| ==> r.videos[i] in fs.entries && IsChildOf(r.videos[i], FromStr(inputDir))
  {
    var input := FromStr(inputDir);
    var defaultOut := Child(Parent(input), "frames");
    var outputDir := if outputArg != "" then FromStr(outputArg) else defaultOut;
    var patterns := ParsePatterns(exts);
    Plan(outputDir, patterns, FindVideos(fs, input, patterns))
  }

  /** The run stops for want of clips exactly when no entry of the input
      directory matches any pattern. */
  lemma NoVideosIff(fs: FileSystem, inputDir: string, outputArg: string, exts: string)
    ensures var r := PlanRun(fs, inputDir, outputArg, exts);
      r.videos == [] <==> forall j, n :: 0 <= j < |r.patterns| && Child(FromStr(inputDir), n) in fs.entries ==>
        !EndsWith(n, PatternSuffix(r.patterns[j]))
  {
    var r := PlanRun(fs, inputDir, outputArg, exts);
    var input := FromStr(inputDir);
    if r.videos != [] {
      VideoMatchesSomePattern(fs, input, r.patterns, r.videos[0]);
    }
    forall j, n | 0 <= j < |r.patterns| && Child(input, n) in fs.entries && EndsWith(n, PatternSuffix(r.patterns[j]))
      ensures r.videos != []
    {
      FindVideosComplete(fs, input, r.patterns, j, n);
    }
  }

  /** Every listed clip matches one of the patterns. */
  lemma VideoMatchesSomePattern(fs: FileSystem, dir: Path, patterns: seq<string>, p: Path)
    requires forall i :: 0 <= i < |patterns| ==> IsPattern(patterns[i])
    requires p in FindVideos(fs, dir, patterns)
    ensures exists j, n :: 0 <= j < |patterns| && p == Child(dir, n) && Child(dir, n) in fs.entries && EndsWith(n, PatternSuffix(patterns[j]))
  {
    var j, n := MatchingPattern(fs, dir, patterns, p);
  }

  lemma {:induction false} MatchingPattern(fs: FileSystem, dir: Path, patterns: seq<string>, p: Path) returns (j: nat, n: string)
    requires forall i :: 0 <= i < |patterns| ==> IsPattern(patterns[i])
    requires p in FindVideos(fs, dir, patterns)
    ensures j < |patterns| && p == Child(dir, n) && Child(dir, n) in fs.entries && EndsWith(n, PatternSuffix(patterns[j]))
  {
    FindVideosUnfold(fs, dir, patterns);
    if p in ChildrenOf(dir, MatchSorted(fs, dir, patterns[0])) {
      j := 0;
      n := InGroup(fs, dir, patterns[0], p);
    } else {
      var tail := patterns[1..];
      var j', n' := MatchingPattern(fs, dir, tail, p);
      j, n := j' + 1, n';
      assert tail[j'] == patterns[j];
    }
  }

  /** A clip of one pattern's group matches that pattern. */
  lemma InGroup(fs: FileSystem, dir: Path, pattern: string, p: Path) returns (n: string)
    requires IsPattern(pattern) && p in ChildrenOf(dir, MatchSorted(fs, dir, pattern))
    ensures p == Child(dir, n) && Child(dir, n) in fs.entries && EndsWith(n, PatternSuffix(pattern))
  {
    var names := MatchSorted(fs, dir, pattern);
    var here := ChildrenOf(dir, names);
    var i :| 0 <= i < |here| && here[i] == p;
    n := names[i];
    assert n in names;
  }
}

=== FILE: options.dfy ===
/** Python's `Optional[T]`: a value or `None`. */
module Options {

  datatype Option<+T> = None | Some(value: T) {

    /** The carried value, or `default` when there is none (Python's `x or default`
        for values that are never falsy, and `dict.get(key, default)`). */
    function GetOr(default: T): T {
      match this
      case Some(v) => v
      case None => default
    }
  }
}

=== FILE: order.dfy ===
/** Ordering helpers behind Python's `sorted(...)` and `set(...)`: a total order,
    insertion sort, first-seen de-duplication, and the lexicographic order Python
    uses on `str`. */
module Order {

  ghost predicate IsTotalOrder<T(!new)>(le: (T, T) -> bool) {
    && (forall x, y :: le(x, y) || le(y, x))
    && (forall x, y, z :: le(x, y) && le(y, z) ==> le(x, z))
    && (forall x, y :: le(x, y) && le(y, x) ==> x == y)
  }

  predicate SortedBy<T>(s: seq<T>, le: (T, T) -> bool) {
    forall i, j :: 0 <= i < j < |s| ==> le(s[i], s[j])
  }

  /** No element occurs twice. */
  predicate Distinct<T(==)>(s: seq<T>) {
    forall i, j :: 0 <= i < j < |s| ==> s[i] != s[j]
  }

  /** Inserts `x` into a sorted sequence, after the elements it does not precede. */
  function Insert<T(!new)>(x: T, s: seq<T>, le: (T, T) -> bool): (r: seq<T>)
    requires IsTotalOrder(le) && SortedBy(s, le)
    ensures SortedBy(r, le)
    ensures forall j :: 0 <= j < |r| ==> r[j] == x || r[j] in s
    ensures multiset(r) == multiset(s) + multiset{x}
  {
    if |s| == 0 then [x]
    else if le(x, s[0]) then
      forall j | 0 <= j < |s| ensures le(x, s[j]) {
        if j > 0 { assert le(s[0], s[j]); }
      }
      SortedCons(x, s, le);
      [x] + s
    else
      var t := Insert(x, s[1..], le);
      assert le(s[0], x);
      BelowAll(s[0], x, s[1..], t, le);
      SortedCons(s[0], t, le);
      assert s == [s[0]] + s[1..];
      [s[0]] + t
  }

  /** A head below every element keeps a sorted sequence sorted. */
  lemma SortedCons<T>(h: T, t: seq<T>, le: (T, T) -> bool)
    requires SortedBy(t, le) && forall j :: 0 <= j < |t| ==> le(h, t[j])
    ensures SortedBy([h] + t, le)
  {
    forall i, j | 0 <= i < j < |[h] + t| ensures le(([h] + t)[i], ([h] + t)[j]) {
      if i > 0 { assert ([h] + t)[i] == t[i - 1]; }
    }
  }

  /** What lies below `x` and every element of `s` lies below everything
      drawn from them. */
  lemma BelowAll<T>(y: T, x: T, s: seq<T>, t: seq<T>, le: (T, T) -> bool)
    requires le(y, x) && forall j :: 0 <= j < |s| ==> le(y, s[j])
    requires forall j :: 0 <= j < |t| ==> t[j] == x || t[j] in s
    ensures forall j :: 0 <= j < |t| ==> le(y, t[j])
  {
    forall j | 0 <= j < |t| ensures le(y, t[j]) {
      if t[j] != x {
        var k :| 0 <= k < |s| && s[k] == t[j];
      }
    }
  }

  /** `sorted(s)` under the order `le`: a sorted permutation of `s`. */
  function Sort<T(!new)>(s: seq<T>, le: (T, T) -> bool): (r: seq<T>)
    requires IsTotalOrder(le)
    ensures SortedBy(r, le)
    ensures multiset(r) == multiset(s)
  {
    if |s| == 0 then []
    else
      assert s == [s[0]] + s[1..];
      Insert(s[0], Sort(s[1..], le), le)
  }

  /** The head of a sorted sequence precedes every element of it. */
  lemma SortedHead<T(!new)>(a: seq<T>, le: (T, T) -> bool, y: T)
    requires IsTotalOrder(le) && SortedBy(a, le) && y in a
    ensures le(a[0], y)
  {
    var j :| 0 <= j < |a| && a[j] == y;
    if j == 0 { assert le(y, y) || le(y, y); }
  }

  lemma SortedSuffix<T>(a: seq<T>, le: (T, T) -> bool)
    requires SortedBy(a, le) && |a| > 0
    ensures SortedBy(a[1..], le)
  {
    forall i, j | 0 <= i < j < |a| - 1 ensures le(a[1..][i], a[1..][j]) {
      assert a[1..][i] == a[i + 1] && a[1..][j] == a[j + 1];
    }
  }

  lemma MultisetTail<T>(a: seq<T>)
    requires |a| > 0
    ensures multiset(a[1..]) == multiset(a) - multiset{a[0]}
  {
    assert a == [a[0]] + a[1..];
  }

  /** Two sorted arrangements of the same elements are the same sequence; so
      `sorted(...)` of a Python set does not depend on the set's iteration order. */
  lemma {:induction false} SortedUnique<T(!new)>(a: seq<T>, b: seq<T>, le: (T, T) -> bool)
    requires IsTotalOrder(le) && SortedBy(a, le) && SortedBy(b, le)
    requires multiset(a) == multiset(b)
    ensures a == b
  {
    assert |a| == |multiset(a)| == |multiset(b)| == |b|;
    if |a| > 0 {
      SameHead(a, b, le);
      MultisetTail(a);
      MultisetTail(b);
      SortedSuffix(a, le);
      SortedSuffix(b, le);
      SortedUnique(a[1..], b[1..], le);
      SameHeadSameTail(a, b);
    }
  }

  lemma SameHeadSameTail<T>(a: seq<T>, b: seq<T>)
    requires |a| > 0 && |b| > 0 && a[0] == b[0] && a[1..] == b[1..]
    ensures a == b
  {
    assert a == [a[0]] + a[1..] && b == [b[0]] + b[1..];
  }

  /** Two sorted arrangements of the same elements start alike. */
  lemma SameHead<T(!new)>(a: seq<T>, b: seq<T>, le: (T, T) -> bool)
    requires IsTotalOrder(le) && SortedBy(a, le) && SortedBy(b, le)
    requires multiset(a) == multiset(b) && |a| > 0 && |b| > 0
    ensures a[0] == b[0]
  {
    assert a[0] in multiset(b) && b[0] in multiset(a);
    SortedHead(b, le, a[0]);
    SortedHead(a, le, b[0]);
  }

  /** A sequence with a new head is distinct when its tail is and the head
      does not occur in it. */
  lemma DistinctCons<T>(x: T, s: seq<T>)
    requires Distinct(s) && x !in s
    ensures Distinct([x] + s)
  {
  }

  /** The tail of a distinct sequence is distinct and lacks the head. */
  lemma DistinctTail<T>(s: seq<T>)
    requires Distinct(s) && |s| > 0
    ensures Distinct(s[1..]) && s[0] !in s[1..]
  {
  }

  /** Keeps the first occurrence of every element, in order: the
      `if x not in out: out.append(x)` loop. */
  function Dedup<T(==,!new)>(s: seq<T>): (r: seq<T>)
    ensures Distinct(r)
    ensures forall x :: x in r <==> x in s
    ensures |r| <= |s|
  {
    if |s| == 0 then []
    else
      var d := Dedup(s[..|s| - 1]);
      assert s == s[..|s| - 1] + [s[|s| - 1]];
      if s[|s| - 1] in d then d else d + [s[|s| - 1]]
  }

  /** `s.index(x)`: the position of the first occurrence of `x`. */
  function IndexOf<T(==)>(s: seq<T>, x: T): (k: nat)
    requires x in s
    ensures k < |s| && s[k] == x && x !in s[..k]
  {
    if s[0] == x then 0
    else
      var k := IndexOf(s[1..], x);
      assert s[..k + 1] == [s[0]] + s[1..][..k];
      k + 1
  }

  /** The first occurrence of an element of `s` is the same in `s + t`. */
  lemma IndexOfAppend<T>(s: seq<T>, t: seq<T>, x: T)
    requires x in s
    ensures IndexOf(s + t, x) == IndexOf(s, x)
  {
    var k := IndexOf(s, x);
    assert (s + t)[..k] == s[..k];
    IndexOfAt(s + t, x, k);
  }

  /** An element met only at the end is first met there. */
  lemma IndexOfLast<T>(s: seq<T>, x: T)
    requires x !in s
    ensures IndexOf(s + [x], x) == |s|
  {
    assert (s + [x])[..|s|] == s;
    IndexOfAt(s + [x], x, |s|);
  }

  /** A position holding `x` with no `x` before it is the first occurrence. */
  lemma {:induction false} IndexOfAt<T>(s: seq<T>, x: T, k: nat)
    requires k < |s| && s[k] == x && x !in s[..k]
    ensures IndexOf(s, x) == k
  {
    if k > 0 {
      assert s[0] == s[..k][0];
      assert s[1..][..k - 1] == s[1..k];
      assert forall y :: y in s[1..k] ==> y in s[..k];
      IndexOfAt(s[1..], x, k - 1);
    }
  }

  /** `Dedup` keeps elements in the order of their first occurrences. */
  lemma {:induction false} DedupFirstSeen<T(!new)>(s: seq<T>)
    ensures forall i, j :: 0 <= i < j < |Dedup(s)| ==> IndexOf(s, Dedup(s)[i]) < IndexOf(s, Dedup(s)[j])
  {
    if |s| > 0 {
      var init := s[..|s| - 1];
      var last := s[|s| - 1];
      var d := Dedup(init);
      DedupFirstSeen(init);
      assert s == init + [last];
      forall x | x in init ensures IndexOf(s, x) == IndexOf(init, x) {
        IndexOfAppend(init, [last], x);
      }
      if last !in d {
        IndexOfLast(init, last);
        assert Dedup(s) == d + [last];
        forall i | 0 <= i < |d| ensures IndexOf(s, d[i]) < IndexOf(s, last) {
          assert d[i] in d;
        }
      }
    }
  }

  /** The sequence holds two different elements exactly when it has more
      than one distinct element: `len(set(s)) > 1`. */
  lemma DedupMoreThanOne<T(!new)>(s: seq<T>)
    ensures |Dedup(s)| > 1 <==> exists i, j :: 0 <= i < |s| && 0 <= j < |s| && s[i] != s[j]
  {
    var d := Dedup(s);
    if |d| > 1 {
      assert d[0] in s && d[1] in s;
      var i :| 0 <= i < |s| && s[i] == d[0];
      var j :| 0 <= j < |s| && s[j] == d[1];
      assert s[i] != s[j];
    }
    if exists i, j :: 0 <= i < |s| && 0 <= j < |s| && s[i] != s[j] {
      var i, j :| 0 <= i < |s| && 0 <= j < |s| && s[i] != s[j];
      assert s[i] in d && s[j] in d;
      var k :| 0 <= k < |d| && d[k] == s[i];
      var l :| 0 <= l < |d| && d[l] == s[j];
      assert k != l;
    }
  }

  /** Two distinct sequences with the same elements are permutations of
      each other. */
  lemma DistinctSameMembers<T(!new)>(a: seq<T>, b: seq<T>)
    requires Distinct(a) && Distinct(b)
    requires forall x :: x in a <==> x in b
    ensures multiset(a) == multiset(b)
  {
    DistinctMultiplicity(a);
    DistinctMultiplicity(b);
    forall x ensures multiset(a)[x] == multiset(b)[x] {
      assert x in a <==> x in multiset(a);
      assert x in b <==> x in multiset(b);
    }
  }

  /** `[f(x) for x in s]` */
  function MapSeq<A, B>(f: A -> B, s: seq<A>): (r: seq<B>)
    ensures |r| == |s|
  {
    if |s| == 0 then [] else [f(s[0])] + MapSeq(f, s[1..])
  }

  lemma {:induction false} MapSeqAt<A, B>(f: A -> B, s: seq<A>)
    ensures forall i :: 0 <= i < |s| ==> MapSeq(f, s)[i] == f(s[i])
  {
    if |s| > 0 {
      MapSeqAt(f, s[1..]);
    }
  }

  /** Removing the element at `k` removes one occurrence of it. */
  lemma RemoveAtMultiset<T>(b: seq<T>, k: nat)
    requires k < |b|
    ensures b == b[..k] + ([b[k]] + b[k + 1..])
    ensures multiset(b[..k] + b[k + 1..]) == multiset(b) - multiset{b[k]}
  {
    assert b == b[..k] + [b[k]] + b[k + 1..];
  }

  lemma {:induction false} MapConcat<A, B>(f: A -> B, a: seq<A>, b: seq<A>)
    ensures MapSeq(f, a + b) == MapSeq(f, a) + MapSeq(f, b)
  {
    if |a| > 0 {
      MapConcat(f, a[1..], b);
      assert (a + b)[1..] == a[1..] + b;
    } else {
      assert a + b == b;
    }
  }

  /** Mapping, then removing the image of position `k`, is mapping the
      sequence without position `k`. */
  lemma MapRemove<A, B>(f: A -> B, b: seq<A>, k: nat)
    requires k < |b|
    ensures multiset(MapSeq(f, b)) == multiset{f(b[k])} + multiset(MapSeq(f, b[..k] + b[k + 1..]))
  {
    var b1, b2 := b[..k], b[k + 1..];
    RemoveAtMultiset(b, k);
    MapConcat(f, b1, [b[k]] + b2);
    MapConcat(f, [b[k]], b2);
    MapConcat(f, b1, b2);
    assert MapSeq(f, [b[k]]) == [f(b[k])];
  }

  /** Mapping permutations gives permutations. */
  lemma {:induction false} MapPermutation<A, B>(f: A -> B, a: seq<A>, b: seq<A>)
    requires multiset(a) == multiset(b)
    ensures multiset(MapSeq(f, a)) == multiset(MapSeq(f, b))
    decreases |a|
  {
    if |a| == 0 {
      assert |b| == |multiset(b)| == 0;
    } else {
      var x := a[0];
      assert x in multiset(b);
      var k :| 0 <= k < |b| && b[k] == x;
      RemoveAtMultiset(b, k);
      RemoveAtMultiset(a, 0);
      assert a[..0] + a[1..] == a[1..];
      MapPermutation(f, a[1..], b[..k] + b[k + 1..]);
      MapRemove(f, b, k);
      MapRemove(f, a, 0);
    }
  }

  /** A sequence holding every element at most once is distinct. */
  lemma {:induction false} MultiplicityDistinct<T(!new)>(s: seq<T>)
    requires forall x :: multiset(s)[x] <= 1
    ensures Distinct(s)
  {
    if |s| > 0 {
      assert s == [s[0]] + s[1..];
      assert multiset(s)[s[0]] == 1 + multiset(s[1..])[s[0]];
      assert forall x :: multiset(s[1..])[x] <= multiset(s)[x];
      MultiplicityDistinct(s[1..]);
      assert s[0] !in s[1..];
    }
  }

  /** A distinct sequence holds every element at most once. */
  lemma {:induction false} DistinctMultiplicity<T(!new)>(s: seq<T>)
    requires Distinct(s)
    ensures forall x :: multiset(s)[x] <= 1
  {
    if |s| > 0 {
      DistinctMultiplicity(s[1..]);
      assert s == [s[0]] + s[1..];
      assert s[0] !in s[1..];
    }
  }

  /** `sorted(set(s))`: the distinct elements of `s`, strictly increasing. */
  function SortedSet<T(==,!new)>(s: seq<T>, le: (T, T) -> bool): (r: seq<T>)
    requires IsTotalOrder(le)
    ensures SortedBy(r, le) && Distinct(r)
    ensures forall x :: x in r <==> x in s
  {
    var d := Dedup(s);
    var r := Sort(d, le);
    DistinctMultiplicity(d);
    MultiplicityDistinct(r);
    assert forall x :: x in r <==> x in multiset(d);
    r
  }

  /** Python's `<=` on `str`: lexicographic by code point. */
  predicate LexLe(a: string, b: string) {
    |a| == 0 || (|b| > 0 && (a[0] < b[0] || (a[0] == b[0] && LexLe(a[1..], b[1..]))))
  }

  lemma {:induction false} LexTotal(a: string, b: string)
    ensures LexLe(a, b) || LexLe(b, a)
  {
    if |a| > 0 && |b| > 0 && a[0] == b[0] { LexTotal(a[1..], b[1..]); }
  }

  lemma {:induction false} LexTrans(a: string, b: string, c: string)
    requires LexLe(a, b) && LexLe(b, c)
    ensures LexLe(a, c)
  {
    if |a| > 0 && a[0] == b[0] && b[0] == c[0] { LexTrans(a[1..], b[1..], c[1..]); }
  }

  lemma {:induction false} LexAntisym(a: string, b: string)
    requires LexLe(a, b) && LexLe(b, a)
    ensures a == b
  {
    if |a| > 0 {
      LexAntisym(a[1..], b[1..]);
      assert a == [a[0]] + a[1..] && b == [b[0]] + b[1..];
    }
  }

  /** The string order is a total order, so `sorted` over strings is well defined. */
  lemma LexLeIsTotalOrder()
    ensures IsTotalOrder(LexLe)
  {
    forall x, y ensures LexLe(x, y) || LexLe(y, x) { LexTotal(x, y); }
    forall x, y, z | LexLe(x, y) && LexLe(y, z) ensures LexLe(x, z) { LexTrans(x, y, z); }
    forall x, y | LexLe(x, y) && LexLe(y, x) ensures x == y { LexAntisym(x, y); }
  }

  /** Python's `<=` on `int`. */
  predicate IntLe(a: int, b: int) {
    a <= b
  }

  lemma IntLeIsTotalOrder()
    ensures IsTotalOrder(IntLe)
  {
  }
}

=== FILE: paths.dfy ===
/** POSIX `pathlib` paths as the application uses them: construction from a
    string (which drops empty and "." components), rendering back with `str`,
    `/`, `.parent`, `.name`, `.stem`, `.suffix`, and an abstract file system
    that answers `.exists()`, `glob("*<suffix>")` and `rglob("*")`. */
module Paths {
  import opened Options
  import opened Strings

  datatype Path = Path(absolute: bool, parts: seq<string>)

  /** A component pathlib keeps as it is. */
  predicate IsComponent(c: string) {
    c != "" && c != "." && '/' !in c
  }

  /** The shape of every path `Path(s)` can produce. */
  predicate WellFormed(p: Path) {
    forall i :: 0 <= i < |p.parts| ==> IsComponent(p.parts[i])
  }

  /** Drops the empty and "." pieces of a split path string. */
  function Components(pieces: seq<string>): (r: seq<string>)
    ensures forall i :: 0 <= i < |r| ==> r[i] in pieces && r[i] != "" && r[i] != "."
  {
    if |pieces| == 0 then []
    else (if pieces[0] == "" || pieces[0] == "." then [] else [pieces[0]]) + Components(pieces[1..])
  }

  /** `Path(s)` */
  function FromStr(s: string): (p: Path)
    ensures WellFormed(p)
    ensures p.absolute <==> |s| > 0 && s[0] == '/'
  {
    var pieces := Split(s, '/');
    var r := Components(pieces);
    assert forall i :: 0 <= i < |r| ==> '/' !in r[i] by {
      forall i | 0 <= i < |r| ensures '/' !in r[i] {
        var k :| 0 <= k < |pieces| && pieces[k] == r[i];
      }
    }
    Path(|s| > 0 && s[0] == '/', r)
  }

  /** A single component parses to the relative path holding just it. */
  lemma FromComponent(name: string)
    requires IsComponent(name)
    ensures FromStr(name) == Path(false, [name])
  {
    SplitNoSep(name, '/');
    ComponentsKeepsComponents([name]);
    assert name[0] in name;
  }

  /** `str(p)` */
  function ToStr(p: Path): string {
    if p.absolute then "/" + Join(p.parts, '/')
    else if |p.parts| == 0 then "."
    else Join(p.parts, '/')
  }

  lemma {:induction false} ComponentsKeepsComponents(x: seq<string>)
    requires forall i :: 0 <= i < |x| ==> IsComponent(x[i])
    ensures Components(x) == x
  {
    if |x| > 0 {
      ComponentsKeepsComponents(x[1..]);
      assert x == [x[0]] + x[1..];
    }
  }

  lemma JoinStartsWithFirst(parts: seq<string>, sep: char)
    requires |parts| >= 1
    ensures StartsWith(Join(parts, sep), parts[0])
  {
    JoinCons(parts[0], parts[1..], sep);
    assert parts == [parts[0]] + parts[1..];
  }

  /** Rendering a path and parsing it back gives the same path:
      `Path(str(p)) == p`. */
  lemma StrRoundTrip(p: Path)
    requires WellFormed(p)
    ensures FromStr(ToStr(p)) == p
  {
    ComponentsKeepsComponents(p.parts);
    forall i | 0 <= i < |p.parts| ensures '/' !in p.parts[i] { assert IsComponent(p.parts[i]); }
    if p.absolute {
      AbsoluteRoundTrip(p);
    } else if |p.parts| == 0 {
      SplitNoSep(".", '/');
    } else {
      RelativeRoundTrip(p);
    }
  }

  lemma AbsoluteRoundTrip(p: Path)
    requires p.absolute && Components(p.parts) == p.parts
    requires forall i :: 0 <= i < |p.parts| ==> '/' !in p.parts[i]
    ensures FromStr(ToStr(p)) == p
  {
    var s := ToStr(p);
    var j := Join(p.parts, '/');
    assert s == "/" + j && s[1..] == j;
    SplitLeadingSep(s, '/');
    if |p.parts| == 0 {
      assert Split(j, '/') == [""];
      assert Components(["", ""]) == [];
    } else {
      SplitJoin(p.parts, '/');
      assert Components([""] + p.parts) == Components(p.parts) by {
        assert ([""] + p.parts)[1..] == p.parts;
      }
    }
  }

  lemma RelativeRoundTrip(p: Path)
    requires !p.absolute && |p.parts| > 0 && Components(p.parts) == p.parts
    requires IsComponent(p.parts[0])
    requires forall i :: 0 <= i < |p.parts| ==> '/' !in p.parts[i]
    ensures FromStr(ToStr(p)) == p
  {
    var s := ToStr(p);
    SplitJoin(p.parts, '/');
    JoinStartsWithFirst(p.parts, '/');
    assert s[0] == p.parts[0][0];
  }

  /** `str(p)` is never empty, so a rendered path is always truthy. */
  lemma ToStrNonEmpty(p: Path)
    requires WellFormed(p)
    ensures ToStr(p) != ""
  {
    if !p.absolute && |p.parts| > 0 {
      JoinStartsWithFirst(p.parts, '/');
      assert IsComponent(p.parts[0]);
    }
  }

  /** A single component, as a path, followed by another. */
  lemma ChildOfComponent(name: string, next: string)
    requires IsComponent(name)
    ensures Child(FromStr(name), next) == Path(false, [name, next])
  {
    FromComponent(name);
  }

  /** `p / name` for a single component `name`. */
  function Child(p: Path, name: string): (r: Path)
    ensures WellFormed(p) && IsComponent(name) ==> WellFormed(r)
  {
    Path(p.absolute, p.parts + [name])
  }

  /** `p / s` for an arbitrary string `s`: an absolute `s` replaces `p`. */
  function Slash(p: Path, s: string): (r: Path)
    ensures WellFormed(p) ==> WellFormed(r)
  {
    var q := FromStr(s);
    if q.absolute then q else Path(p.absolute, p.parts + q.parts)
  }

  /** Appending a plain component with `/` is `Child`. */
  lemma SlashComponent(p: Path, name: string)
    requires IsComponent(name)
    ensures Slash(p, name) == Child(p, name)
  {
    SplitNoSep(name, '/');
    ComponentsKeepsComponents([name]);
    assert name[0] != '/' by { assert name[0] in name; }
    assert FromStr(name) == Path(false, [name]);
  }

  /** `p.parent` (lexical: the root and "." are their own parents). */
  function Parent(p: Path): Path {
    if |p.parts| == 0 then p else Path(p.absolute, p.parts[..|p.parts| - 1])
  }

  lemma ParentOfChild(p: Path, name: string)
    ensures Parent(Child(p, name)) == p
  {
    assert (p.parts + [name])[..|p.parts|] == p.parts;
  }

  /** `p.name` */
  function Name(p: Path): string {
    if |p.parts| == 0 then "" else p.parts[|p.parts| - 1]
  }

  /** Index of the dot that starts `p.suffix`, following Python 3.12: the last
      dot of the name, unless it is the first or the last character. */
  function SuffixDot(name: string): (r: Option<nat>)
    ensures r.Some? ==> 0 < r.value < |name| - 1 && name[r.value] == '.' && '.' !in name[r.value + 1..]
  {
    match LastIndexOf(name, '.')
    case Some(i) => if 0 < i < |name| - 1 then Some(i) else None
    case None => None
  }

  /** `p.suffix` */
  function Suffix(p: Path): string {
    var n := Name(p);
    match SuffixDot(n)
    case Some(i) => n[i..]
    case None => ""
  }

  /** `p.stem`: the name without its suffix. */
  function Stem(p: Path): (r: string)
    ensures r + Suffix(p) == Name(p)
  {
    var n := Name(p);
    match SuffixDot(n)
    case Some(i) => assert n[..i] + n[i..] == n; n[..i]
    case None => n
  }

  /** The file system as the ordered listing of existing paths (the order
      `os.scandir` reports them in). */
  datatype FileSystem = FileSystem(entries: seq<Path>)

  /** `p.exists()` */
  predicate Exists(fs: FileSystem, p: Path) {
    p in fs.entries
  }

  /** The path made of the first `k` components of `p`: an ancestor of `p`,
      or `p` itself when `k` is all of them. */
  function Prefix(p: Path, k: nat): Path
    requires k <= |p.parts|
  {
    Path(p.absolute, p.parts[..k])
  }

  predicate IsAncestorOrSelf(q: Path, p: Path) {
    q.absolute == p.absolute && |q.parts| <= |p.parts| && q.parts == p.parts[..|q.parts|]
  }

  /** `p.mkdir(parents=True, exist_ok=True)`: `p` and every missing ancestor
      are created, outermost first, after the existing entries, which stay as
      they are. */
  function MakeDirs(fs: FileSystem, p: Path): (r: FileSystem)
    ensures Exists(r, p)
    ensures forall k :: 0 <= k <= |p.parts| ==> Exists(r, Prefix(p, k))
    ensures |r.entries| >= |fs.entries| && r.entries[..|fs.entries|] == fs.entries
    ensures forall q :: Exists(fs, q) ==> Exists(r, q)
    ensures forall i :: |fs.entries| <= i < |r.entries| ==> IsAncestorOrSelf(r.entries[i], p)
    decreases |p.parts|
  {
    var base := if |p.parts| == 0 then fs else MakeDirs(fs, Parent(p));
    ParentPrefixes(p);
    forall i | |fs.entries| <= i < |base.entries| ensures IsAncestorOrSelf(base.entries[i], p) {
      if |p.parts| > 0 { AncestorOfParent(base.entries[i], p); }
    }
    if Exists(base, p) then base else FileSystem(base.entries + [p])
  }

  /** The proper prefixes of `p` are those of its parent, and the whole of
      `p` is its own last prefix. */
  lemma ParentPrefixes(p: Path)
    ensures forall k :: 0 <= k < |p.parts| ==> Prefix(Parent(p), k) == Prefix(p, k)
    ensures Prefix(p, |p.parts|) == p
  {
    assert p.parts[..|p.parts|] == p.parts;
  }

  lemma AncestorOfParent(q: Path, p: Path)
    requires |p.parts| > 0 && IsAncestorOrSelf(q, Parent(p))
    ensures IsAncestorOrSelf(q, p)
  {
    assert p.parts[..|q.parts|] == p.parts[..|p.parts| - 1][..|q.parts|];
  }

  /** `p` lies directly inside `dir`. */
  predicate IsChildOf(p: Path, dir: Path) {
    p.absolute == dir.absolute && |p.parts| == |dir.parts| + 1 && p.parts[..|dir.parts|] == dir.parts
  }

  /** `p` lies somewhere below `dir`. */
  predicate IsBelow(p: Path, dir: Path) {
    p.absolute == dir.absolute && |p.parts| > |dir.parts| && p.parts[..|dir.parts|] == dir.parts
  }

  /** Names of the listed paths directly inside `dir` ending in `suffix`,
      in listing order: `[q.name for q in dir.glob("*" + suffix)]`. */
  function GlobIn(entries: seq<Path>, dir: Path, suffix: string): (r: seq<string>)
    ensures forall n :: n in r <==> Child(dir, n) in entries && EndsWith(n, suffix)
  {
    if |entries| == 0 then []
    else
      var p := entries[0];
      var rest := GlobIn(entries[1..], dir, suffix);
      assert entries == [p] + entries[1..];
      if IsChildOf(p, dir) && EndsWith(Name(p), suffix) then
        assert p == Child(dir, Name(p)) by {
          assert p.parts == p.parts[..|dir.parts|] + [p.parts[|dir.parts|]];
        }
        [Name(p)] + rest
      else
        assert forall n :: Child(dir, n) == p ==> !EndsWith(n, suffix) by {
          forall n | Child(dir, n) == p ensures !EndsWith(n, suffix) {
            assert (dir.parts + [n])[..|dir.parts|] == dir.parts;
          }
        }
        rest
  }

  /** `dir.glob("*" + suffix)` over the file system. */
  function Glob(fs: FileSystem, dir: Path, suffix: string): seq<string> {
    GlobIn(fs.entries, dir, suffix)
  }

  /** `list(dir.rglob("*"))`: every listed path below `dir`. */
  function Below(entries: seq<Path>, dir: Path): (r: seq<Path>)
    ensures forall p :: p in r <==> p in entries && IsBelow(p, dir)
  {
    if |entries| == 0 then []
    else
      assert entries == [entries[0]] + entries[1..];
      (if IsBelow(entries[0], dir) then [entries[0]] else []) + Below(entries[1..], dir)
  }
}

/** Where the application keeps pipeline outputs relative to a clips directory. */
module Layout {
  import opened Paths

  /** `clips / ".pipeline_output"` */
  function OutputDir(clips: Path): Path {
    Child(clips, ".pipeline_output")
  }

  /** `clips / ".pipeline_output" / "frames"` */
  function FramesDir(clips: Path): Path {
    Child(OutputDir(clips), "frames")
  }

  /** `clips / ".pipeline_output" / "detection_csvs"` */
  function DetectionDir(clips: Path): Path {
    Child(OutputDir(clips), "detection_csvs")
  }

  /** `clips / ".pipeline_output" / "detection_csvs" / "animals_in_videos.csv"` */
  function SummaryCsv(clips: Path): Path {
    Child(DetectionDir(clips), "animals_in_videos.csv")
  }

  /** The summary CSV sits three levels below the clips directory. */
  lemma SummaryCsvAncestors(clips: Path)
    ensures Name(SummaryCsv(clips)) == "animals_in_videos.csv"
    ensures Parent(Parent(Parent(SummaryCsv(clips)))) == clips
  {
    ParentOfChild(clips, ".pipeline_output");
    ParentOfChild(OutputDir(clips), "detection_csvs");
    ParentOfChild(DetectionDir(clips), "animals_in_videos.csv");
  }

  /** All layout paths are well formed below a well-formed clips directory. */
  lemma LayoutWellFormed(clips: Path)
    requires WellFormed(clips)
    ensures WellFormed(OutputDir(clips)) && WellFormed(FramesDir(clips))
    ensures WellFormed(DetectionDir(clips)) && WellFormed(SummaryCsv(clips))
  {
  }
}

=== FILE: pipeline_tab.dfy ===
/** The GUI's pipeline tab: the script location, the default output paths
    below the clips directory, the command line handed to the pipeline
    script, and the run / complete / cancel state of the tab. The child
    process itself is outside the model: starting it is the command line the
    tab hands over, and its end is the exit code the tab is told. Log lines
    are appended through Tk's `after(0, ...)`, so they land after the log is
    cleared in the same handler. */
module PipelineTab {
  import opened Options
  import opened Strings
  import opened Paths
  import Layout
  import RunPipeline
  import GuiConfig

  const Script: string := "run_pipeline.py"

  /** How the GUI process was started: `sys.frozen`, `sys._MEIPASS` (the
      unpacked bundle) and `sys.executable`. */
  datatype Runtime = Runtime(frozen: bool, bundleDir: string, python: string)

  /** The script as bundled into a frozen application. */
  function Bundled(rt: Runtime, name: string): Path {
    Child(FromStr(rt.bundleDir), name)
  }

  /** `get_script_path(name)`: the bundled copy when the application is
      frozen and that copy exists, the bare name otherwise. */
  function ScriptPath(rt: Runtime, fs: FileSystem, name: string): (r: string)
    ensures !rt.frozen || !Exists(fs, Bundled(rt, name)) ==> r == name
    ensures IsComponent(name) && rt.frozen && Exists(fs, Bundled(rt, name)) ==>
      FromStr(r) == Bundled(rt, name)
  {
    assert IsComponent(name) ==> FromStr(ToStr(Bundled(rt, name))) == Bundled(rt, name) by {
      if IsComponent(name) {
        StrRoundTrip(Bundled(rt, name));
      }
    }
    if rt.frozen && Exists(fs, Bundled(rt, name)) then ToStr(Bundled(rt, name)) else name
  }

  /** The path handed over always names an existing file or is the bare
      script name, left for the working directory to resolve. */
  lemma ScriptPathExistsOrBare(rt: Runtime, fs: FileSystem, name: string)
    requires IsComponent(name)
    ensures var r := ScriptPath(rt, fs, name); r == name || Exists(fs, FromStr(r))
  {
  }

  /** The form's fields: the string and integer variables and the force
      checkbox. */
  datatype Form = Form(
    clipsDir: string,
    framesDir: string,
    detectionDir: string,
    framesPerClip: int,
    frameWorkers: int,
    classifyWorkers: int,
    extensions: string,
    force: bool)

  /** The form as `__init__` fills it from the default configuration,
      before the default paths are derived. */
  function InitialForm(c: GuiConfig.Config): Form {
    Form(ToStr(c.clipsDir), "", "", c.framesPerClip, c.frameWorkers, c.classifyWorkers, c.extensions, c.force)
  }

  /** `_update_default_paths`: frames and CSV files go below
      `clips/.pipeline_output`, the directory the session manager and the
      cleanup views look in. */
  function DefaultPaths(clipsDir: string): (r: (string, string))
    ensures FromStr(r.0) == Layout.FramesDir(FromStr(clipsDir))
    ensures FromStr(r.1) == Layout.DetectionDir(FromStr(clipsDir))
    ensures r.0 != "" && r.1 != ""
  {
    var clips := FromStr(clipsDir);
    Layout.LayoutWellFormed(clips);
    StrRoundTrip(Layout.FramesDir(clips));
    StrRoundTrip(Layout.DetectionDir(clips));
    ToStrNonEmpty(Layout.FramesDir(clips));
    ToStrNonEmpty(Layout.DetectionDir(clips));
    (ToStr(Layout.FramesDir(clips)), ToStr(Layout.DetectionDir(clips)))
  }

  function WithDefaultPaths(f: Form): (g: Form)
    ensures g.clipsDir == f.clipsDir && g.force == f.force && g.extensions == f.extensions
    ensures g == f.(framesDir := g.framesDir, detectionDir := g.detectionDir)
    ensures FromStr(g.framesDir) == Layout.FramesDir(FromStr(f.clipsDir))
    ensures FromStr(g.detectionDir) == Layout.DetectionDir(FromStr(f.clipsDir))
  {
    var (frames, detection) := DefaultPaths(f.clipsDir);
    f.(framesDir := frames, detectionDir := detection)
  }

  /** Where the script's own arguments start: after the interpreter (when
      not frozen) and the script. */
  function ArgsStart(rt: Runtime): nat {
    if rt.frozen then 1 else 2
  }

  /** The interpreter, left out when frozen, and the script. */
  function Launcher(rt: Runtime, fs: FileSystem): (r: seq<string>)
    ensures |r| == ArgsStart(rt) && r[|r| - 1] == ScriptPath(rt, fs, Script)
    ensures !rt.frozen ==> r[0] == rt.python
  {
    (if rt.frozen then [] else [rt.python]) + [ScriptPath(rt, fs, Script)]
  }

  /** The values of the seven options, in the order of their flags. */
  function Values(f: Form): (r: seq<string>)
    ensures |r| == |RunPipeline.ValueFlags|
  {
    [f.clipsDir, f.framesDir, f.detectionDir, IntToString(f.framesPerClip),
     IntToString(f.frameWorkers), IntToString(f.classifyWorkers), f.extensions]
  }

  /** The flag/value pairs from the `k`-th option on: each flag followed by
      its value. */
  function PairsFrom(values: seq<string>, k: nat): (r: seq<string>)
    requires |values| == |RunPipeline.ValueFlags| && k <= |values|
    ensures |r| == 2 * (|values| - k)
    ensures forall i :: 0 <= i < |values| - k ==>
      r[2 * i] == RunPipeline.ValueFlags[k + i] && r[2 * i + 1] == values[k + i]
    decreases |values| - k
  {
    if k == |values| then []
    else
      var rest := PairsFrom(values, k + 1);
      assert forall i :: 1 <= i < |values| - k ==> ([RunPipeline.ValueFlags[k], values[k]] + rest)[2 * i] == rest[2 * (i - 1)];
      [RunPipeline.ValueFlags[k], values[k]] + rest
  }

  /** The options part of the command line: every flag followed by its
      value, then `--force` when the box is ticked. */
  function OptionArgs(f: Form): (r: seq<string>)
    ensures |r| == 14 + (if f.force then 1 else 0)
    ensures forall i :: 0 <= i < 7 ==> r[2 * i] == RunPipeline.ValueFlags[i] && r[2 * i + 1] == Values(f)[i]
    ensures f.force ==> r[|r| - 1] == "--force"
    ensures !f.force ==> r[|r| - 1] == f.extensions
  {
    var values := Values(f);
    assert values[6] == f.extensions;
    PairsFrom(values, 0) + (if f.force then ["--force"] else [])
  }

  /** The command line `_run_pipeline` builds; `fs` is the file system the
      script is looked up in. */
  function BuildCommand(rt: Runtime, fs: FileSystem, f: Form): (cmd: seq<string>)
    ensures |cmd| == ArgsStart(rt) + 14 + (if f.force then 1 else 0)
    ensures !rt.frozen ==> cmd[0] == rt.python
    ensures cmd[ArgsStart(rt) - 1] == ScriptPath(rt, fs, Script)
    ensures forall i :: 0 <= i < 7 ==>
      cmd[ArgsStart(rt) + 2 * i] == RunPipeline.ValueFlags[i] && cmd[ArgsStart(rt) + 2 * i + 1] == Values(f)[i]
    ensures f.force ==> cmd[|cmd| - 1] == "--force"
    ensures !f.force ==> cmd[|cmd| - 1] == f.extensions
  {
    var launcher, options := Launcher(rt, fs), OptionArgs(f);
    assert forall i :: 0 <= i < |options| ==> (launcher + options)[ArgsStart(rt) + i] == options[i];
    launcher + options
  }

  /** The options the pipeline script should see for the form. */
  function AsArgs(f: Form): RunPipeline.Args {
    RunPipeline.Args(f.clipsDir, f.framesDir, f.detectionDir, f.framesPerClip,
      f.frameWorkers, f.classifyWorkers, f.extensions, f.force)
  }

  /** The string fields argparse takes as values: none starts with '-'
      unless it is a negative number. */
  predicate Passable(f: Form) {
    && RunPipeline.IsValueToken(f.clipsDir)
    && RunPipeline.IsValueToken(f.framesDir)
    && RunPipeline.IsValueToken(f.detectionDir)
    && RunPipeline.IsValueToken(f.extensions)
  }

  /** A rendered number is always taken as a value, and reads back as
      itself. */
  lemma NumberIsValueToken(i: int)
    ensures RunPipeline.IsValueToken(IntToString(i))
    ensures ParseInt(IntToString(i)) == Some(i)
  {
    IntToStringRoundTrip(i);
    if i < 0 {
      assert IntToString(i)[1..] == NatToString(-i);
    }
  }

  /** The options after applying the pairs from the `k`-th on, left to
      right. */
  function SetFrom(a: RunPipeline.Args, values: seq<string>, k: nat): Option<RunPipeline.Args>
    requires |values| == |RunPipeline.ValueFlags| && k <= |values|
    decreases |values| - k
  {
    if k == |values| then Some(a)
    else
      match RunPipeline.SetOption(a, RunPipeline.ValueFlags[k], values[k])
      case None => None
      case Some(b) => SetFrom(b, values, k + 1)
  }

  /** Every value from the `k`-th on is taken as a value. */
  predicate TokensFrom(values: seq<string>, k: nat) {
    forall i :: k <= i < |values| ==> RunPipeline.IsValueToken(values[i])
  }

  lemma TokensFromStep(values: seq<string>, k: nat)
    requires k < |values|
    ensures TokensFrom(values, k) <==> RunPipeline.IsValueToken(values[k]) && TokensFrom(values, k + 1)
  {
  }

  /** argparse reads the flag/value pairs one pair at a time, and gives up at
      the first value that is not a value token. */
  lemma {:induction false} ParsePairs(values: seq<string>, k: nat, tail: seq<string>, a: RunPipeline.Args)
    requires |values| == |RunPipeline.ValueFlags| && k <= |values|
    ensures TokensFrom(values, k) ==>
      RunPipeline.ParseFrom(PairsFrom(values, k) + tail, a)
        == (match SetFrom(a, values, k) case None => None case Some(b) => RunPipeline.ParseFrom(tail, b))
    ensures !TokensFrom(values, k) ==> RunPipeline.ParseFrom(PairsFrom(values, k) + tail, a).None?
    decreases |values| - k
  {
    var argv := PairsFrom(values, k) + tail;
    if k == |values| {
      assert argv == tail;
    } else {
      var flag := RunPipeline.ValueFlags[k];
      var rest := PairsFrom(values, k + 1) + tail;
      assert argv == [flag, values[k]] + rest;
      RunPipeline.ParseStep(argv, a);
      assert argv[2..] == rest;
      match RunPipeline.SetOption(a, flag, values[k])
      case None =>
      case Some(b) =>
        assert SetFrom(a, values, k) == SetFrom(b, values, k + 1);
        TokensFromStep(values, k);
        ParsePairs(values, k + 1, tail, b);
    }
  }

  /** Setting the options from a form succeeds and puts each value in its
      field. */
  lemma SetFromForm(f: Form)
    ensures SetFrom(RunPipeline.Defaults, Values(f), 0) == Some(AsArgs(f).(force := false))
  {
    var a := RunPipeline.Defaults;
    SetPathOptions(f, a);
    SetOtherOptions(f, a.(clipsDir := f.clipsDir, framesDir := f.framesDir, detectionDir := f.detectionDir));
  }

  /** The three directory options come first and are taken as given. */
  lemma SetPathOptions(f: Form, a: RunPipeline.Args)
    ensures SetFrom(a, Values(f), 0)
      == SetFrom(a.(clipsDir := f.clipsDir, framesDir := f.framesDir, detectionDir := f.detectionDir), Values(f), 3)
  {
    var values := Values(f);
    var a1 := a.(clipsDir := f.clipsDir);
    var a2 := a1.(framesDir := f.framesDir);
    SetFromOne(a, values, 0, a1);
    SetFromOne(a1, values, 1, a2);
    SetFromOne(a2, values, 2, a2.(detectionDir := f.detectionDir));
  }

  /** The numbers read back as written, and the extensions follow. */
  lemma SetOtherOptions(f: Form, a: RunPipeline.Args)
    ensures SetFrom(a, Values(f), 3) == Some(a.(framesPerClip := f.framesPerClip,
      framesWorkers := f.frameWorkers, classifyWorkers := f.classifyWorkers, exts := f.extensions))
  {
    var values := Values(f);
    var a4 := a.(framesPerClip := f.framesPerClip);
    var a5 := a4.(framesWorkers := f.frameWorkers);
    var a6 := a5.(classifyWorkers := f.classifyWorkers);
    var a7 := a6.(exts := f.extensions);
    SetNumberOption(f, a, 3, a4);
    SetNumberOption(f, a4, 4, a5);
    SetNumberOption(f, a5, 5, a6);
    SetFromOne(a6, values, 6, a7);
    assert SetFrom(a7, values, 7) == Some(a7);
  }

  /** A number option of the form is set to the form's number. */
  lemma SetNumberOption(f: Form, a: RunPipeline.Args, k: nat, b: RunPipeline.Args)
    requires 3 <= k < 6
    requires k == 3 ==> b == a.(framesPerClip := f.framesPerClip)
    requires k == 4 ==> b == a.(framesWorkers := f.frameWorkers)
    requires k == 5 ==> b == a.(classifyWorkers := f.classifyWorkers)
    ensures SetFrom(a, Values(f), k) == SetFrom(b, Values(f), k + 1)
  {
    var n := if k == 3 then f.framesPerClip else if k == 4 then f.frameWorkers else f.classifyWorkers;
    NumberIsValueToken(n);
    assert Values(f)[k] == IntToString(n);
    SetFromOne(a, Values(f), k, b);
  }

  /** One option set, and the rest still to go. */
  lemma SetFromOne(a: RunPipeline.Args, values: seq<string>, k: nat, b: RunPipeline.Args)
    requires |values| == |RunPipeline.ValueFlags| && k < |values|
    requires RunPipeline.SetOption(a, RunPipeline.ValueFlags[k], values[k]) == Some(b)
    ensures SetFrom(a, values, k) == SetFrom(b, values, k + 1)
  {
  }

  /** The pipeline script reads back exactly the form's settings; it
      rejects the command line (a usage error) exactly when a string field
      starts with '-' and is not a negative number. */
  lemma CommandParses(rt: Runtime, fs: FileSystem, f: Form)
    ensures var argv := BuildCommand(rt, fs, f)[ArgsStart(rt)..];
      (Passable(f) ==> RunPipeline.ParseArgs(argv) == Some(AsArgs(f)))
      && (!Passable(f) ==> RunPipeline.ParseArgs(argv).None?)
  {
    var argv := BuildCommand(rt, fs, f)[ArgsStart(rt)..];
    var values := Values(f);
    var tail := if f.force then ["--force"] else [];
    assert argv == PairsFrom(values, 0) + tail;
    ParsePairs(values, 0, tail, RunPipeline.Defaults);
    FormTokens(f);
    if Passable(f) {
      SetFromForm(f);
      assert RunPipeline.ParseFrom(tail, AsArgs(f).(force := false)) == Some(AsArgs(f));
    }
  }

  /** Every value of the form is taken as a value exactly when the string
      fields are: the numbers always are. */
  lemma FormTokens(f: Form)
    ensures TokensFrom(Values(f), 0) <==> Passable(f)
  {
    var values := Values(f);
    assert values[0] == f.clipsDir && values[1] == f.framesDir && values[2] == f.detectionDir;
    assert values[6] == f.extensions;
    if Passable(f) {
      forall i | 0 <= i < |values| ensures RunPipeline.IsValueToken(values[i]) {
        if i == 3 {
          NumberIsValueToken(f.framesPerClip);
        } else if i == 4 {
          NumberIsValueToken(f.frameWorkers);
        } else if i == 5 {
          NumberIsValueToken(f.classifyWorkers);
        }
      }
    }
  }

  /** With the derived paths, the pipeline script writes its frames and its
      summary exactly where the application later looks for them: below
      `clips/.pipeline_output`. */
  lemma DefaultOutputsLandInLayout(rt: Runtime, fs: FileSystem, f: Form)
    requires Passable(WithDefaultPaths(f))
    ensures var parsed := RunPipeline.ParseArgs(BuildCommand(rt, fs, WithDefaultPaths(f))[ArgsStart(rt)..]);
      && parsed.Some?
      && RunPipeline.FramesDir(parsed.value) == Layout.FramesDir(FromStr(f.clipsDir))
      && RunPipeline.SummaryCsv(parsed.value) == Layout.SummaryCsv(FromStr(f.clipsDir))
  {
    var g := WithDefaultPaths(f);
    CommandParses(rt, fs, g);
    var _ := DefaultPaths(f.clipsDir);
    assert g.framesDir != "" && g.detectionDir != "";
  }

  /** The status line above the log. */
  datatype Status = Idle | Starting | Succeeded | FailedWith(code: int) | Cancelling

  /** What the tab writes to its log. */
  datatype LogLine =
    | ClipsMissing(clips: string)
    | DirsCreated(frames: string, detection: string)
    | MkdirFailed
    | Running(command: seq<string>)
    | CompletedNote
    | FailedNote(code: int)
    | CancelNote

  /** The tab: its form, `is_running`, whether a runner has been started,
      whether the Run and Cancel buttons are enabled, the status line and
      the log. */
  datatype Tab = Tab(
    form: Form,
    running: bool,
    hasRunner: bool,
    runEnabled: bool,
    cancelEnabled: bool,
    status: Status,
    log: seq<LogLine>)

  /** Run is enabled exactly while idle and Cancel exactly while running,
      and a run always has a runner. */
  predicate Consistent(t: Tab) {
    t.runEnabled == !t.running && t.cancelEnabled == t.running && (t.running ==> t.hasRunner)
  }

  /** `__init__`: the configured defaults with the derived output paths. */
  function NewTab(c: GuiConfig.Config): (t: Tab)
    ensures Consistent(t) && !t.running && !t.hasRunner
    ensures FromStr(t.form.framesDir) == Layout.FramesDir(FromStr(ToStr(c.clipsDir)))
    ensures FromStr(t.form.detectionDir) == Layout.DetectionDir(FromStr(ToStr(c.clipsDir)))
  {
    Tab(WithDefaultPaths(InitialForm(c)), false, false, true, false, Idle, [])
  }

  /** `_browse_clips`: a chosen directory replaces the clips directory and
      re-derives the output paths; cancelling the dialog (an empty answer)
      changes nothing. */
  function BrowseClips(t: Tab, chosen: string): (r: Tab)
    ensures chosen == "" ==> r == t
    ensures chosen != "" ==>
      && r.form.clipsDir == chosen
      && FromStr(r.form.framesDir) == Layout.FramesDir(FromStr(chosen))
      && FromStr(r.form.detectionDir) == Layout.DetectionDir(FromStr(chosen))
    ensures r.running == t.running && Consistent(t) ==> Consistent(r)
  {
    if chosen == "" then t else t.(form := WithDefaultPaths(t.form.(clipsDir := chosen)))
  }

  /** How the two `mkdir` calls end: both succeed, or the first or the
      second raises. */
  datatype MkdirOutcome = BothMade | FramesFailed | DetectionFailed

  /** The tab after pressing Run, the file system after the directories were
      made, and the command line handed to the runner, if any. */
  datatype Launch = Launch(tab: Tab, fs: FileSystem, command: Option<seq<string>>)

  /** `_run_pipeline` in the tab. */
  function PressRun(t: Tab, rt: Runtime, fs: FileSystem, mkdir: MkdirOutcome): (r: Launch)
    ensures t.running ==> r == Launch(t, fs, None)
    ensures r.command.Some? <==> !t.running && Exists(fs, FromStr(t.form.clipsDir)) && mkdir == BothMade
    ensures r.command.Some? ==>
      && r.tab.running && r.command.value == BuildCommand(rt, r.fs, t.form)
      && Exists(r.fs, FromStr(t.form.framesDir)) && Exists(r.fs, FromStr(t.form.detectionDir))
    ensures r.command.None? ==> r.tab.running == t.running
    ensures r.tab.form == t.form
    ensures forall p :: Exists(fs, p) ==> Exists(r.fs, p)
    ensures Consistent(t) ==> Consistent(r.tab)
  {
    if t.running then Launch(t, fs, None)
    else
      var clips := FromStr(t.form.clipsDir);
      if !Exists(fs, clips) then Launch(t.(log := t.log + [ClipsMissing(ToStr(clips))]), fs, None)
      else
        var frames, detection := FromStr(t.form.framesDir), FromStr(t.form.detectionDir);
        match mkdir
        case FramesFailed => Launch(t.(log := t.log + [MkdirFailed]), fs, None)
        case DetectionFailed => Launch(t.(log := t.log + [MkdirFailed]), MakeDirs(fs, frames), None)
        case BothMade =>
          var made := MakeDirs(MakeDirs(fs, frames), detection);
          var cmd := BuildCommand(rt, made, t.form);
          var log := [DirsCreated(ToStr(frames), ToStr(detection)), Running(cmd)];
          Launch(Tab(t.form, true, true, false, true, Starting, log), made, Some(cmd))
  }

  /** `_on_completion(code)`: the run is over, whatever the code. */
  function Complete(t: Tab, code: int): (r: Tab)
    ensures !r.running && r.runEnabled && !r.cancelEnabled
    ensures r.form == t.form && r.hasRunner == t.hasRunner
    ensures r.status == Succeeded <==> code == 0
    ensures code != 0 ==> r.status == FailedWith(code)
    ensures Consistent(r)
  {
    if code == 0 then
      t.(running := false, runEnabled := true, cancelEnabled := false, status := Succeeded,
         log := t.log + [CompletedNote])
    else
      t.(running := false, runEnabled := true, cancelEnabled := false, status := FailedWith(code),
         log := t.log + [FailedNote(code)])
  }

  /** `_cancel_pipeline`: acts only on a started runner that is running. */
  function Cancel(t: Tab): (r: Tab)
    ensures t.hasRunner && t.running ==> !r.running && r.status == Cancelling && r.runEnabled && !r.cancelEnabled
    ensures !(t.hasRunner && t.running) ==> r == t
    ensures r.form == t.form && r.hasRunner == t.hasRunner
    ensures Consistent(t) ==> Consistent(r)
  {
    if t.hasRunner && t.running then
      t.(running := false, runEnabled := true, cancelEnabled := false, status := Cancelling,
         log := t.log + [CancelNote])
    else t
  }

  /** What can happen to the tab: a directory chosen, Run pressed (with the
      way the directories are made), the runner finishing, Cancel pressed. */
  datatype Event = Browse(chosen: string) | Run(mkdir: MkdirOutcome) | Finished(code: int) | CancelPressed

  /** The tab, the file system and the command lines started, after a
      sequence of events. */
  function Replay(t: Tab, rt: Runtime, fs: FileSystem, events: seq<Event>): (r: (Tab, FileSystem, seq<seq<string>>))
    decreases |events|
  {
    if |events| == 0 then (t, fs, [])
    else
      match events[0]
      case Browse(chosen) => Replay(BrowseClips(t, chosen), rt, fs, events[1..])
      case Finished(code) => Replay(Complete(t, code), rt, fs, events[1..])
      case CancelPressed => Replay(Cancel(t), rt, fs, events[1..])
      case Run(mkdir) =>
        var l := PressRun(t, rt, fs, mkdir);
        var (t', fs', started) := Replay(l.tab, rt, l.fs, events[1..]);
        (t', fs', (if l.command.Some? then [l.command.value] else []) + started)
  }

  /** Every event keeps the buttons in step with `is_running`. */
  lemma {:induction false} ReplayConsistent(t: Tab, rt: Runtime, fs: FileSystem, events: seq<Event>)
    requires Consistent(t)
    ensures Consistent(Replay(t, rt, fs, events).0)
    decreases |events|
  {
    if |events| > 0 {
      match events[0]
      case Browse(chosen) => ReplayConsistent(BrowseClips(t, chosen), rt, fs, events[1..]);
      case Finished(code) => ReplayConsistent(Complete(t, code), rt, fs, events[1..]);
      case CancelPressed => ReplayConsistent(Cancel(t), rt, fs, events[1..]);
      case Run(mkdir) =>
        var l := PressRun(t, rt, fs, mkdir);
        ReplayConsistent(l.tab, rt, l.fs, events[1..]);
    }
  }

  /** Until the runner finishes or is cancelled, pressing Run (and choosing
      directories) starts at most one pipeline, and none while one runs. */
  lemma {:induction false} OneRunAtATime(t: Tab, rt: Runtime, fs: FileSystem, events: seq<Event>)
    requires forall i :: 0 <= i < |events| ==> events[i].Browse? || events[i].Run?
    ensures |Replay(t, rt, fs, events).2| <= (if t.running then 0 else 1)
    ensures t.running ==> Replay(t, rt, fs, events).0.running
    decreases |events|
  {
    if |events| > 0 {
      var tail := events[1..];
      assert forall i :: 0 <= i < |tail| ==> tail[i] == events[i + 1];
      match events[0]
      case Browse(chosen) => OneRunAtATime(BrowseClips(t, chosen), rt, fs, tail);
      case Run(mkdir) =>
        var l := PressRun(t, rt, fs, mkdir);
        OneRunAtATime(l.tab, rt, l.fs, tail);
    }
  }
}

=== FILE: pipeline_wizard.dfy ===
/** The first-run wizard: step 1 picks the clips directory and checks it
    for videos and earlier outputs, step 2 holds the settings, step 3 runs
    the pipeline with the same command line as the pipeline tab. The
    wizard ends by calling back with `skip_pipeline`. Message boxes are
    inputs (the user's answer) or flags (an error was shown). */
module PipelineWizard {
  import opened Options
  import opened Strings
  import opened Paths
  import Layout
  import SessionManager
  import PipelineTab

  const VideoExtensions: seq<string> := [".mp4", ".MP4", ".mov", ".MOV", ".avi", ".AVI"]

  /** `n` ends with one of the extensions. */
  predicate EndsWithAny(n: string, exts: seq<string>) {
    |exts| > 0 && (EndsWith(n, exts[0]) || EndsWithAny(n, exts[1..]))
  }

  /** The videos step 1 counts: `clips.glob("*" + ext)` for each extension
      in turn, unsorted. */
  function VideoFiles(fs: FileSystem, dir: Path, exts: seq<string>): (r: seq<string>)
    ensures forall n :: n in r <==> Child(dir, n) in fs.entries && EndsWithAny(n, exts)
  {
    if |exts| == 0 then [] else Glob(fs, dir, exts[0]) + VideoFiles(fs, dir, exts[1..])
  }

  /** A video step 1 would count: a file directly in `dir` with one of the
      video extensions. */
  ghost predicate HasVideo(fs: FileSystem, dir: Path) {
    exists n :: Child(dir, n) in fs.entries && EndsWithAny(n, VideoExtensions)
  }

  /** The status text of step 1. */
  datatype Step1Status = Prompt | NoSuchDirectory | NoVideos(dir: string) | Found(count: nat, outputsExist: bool)

  /** A button's label and whether it is enabled. */
  datatype Button = Button(text: string, enabled: bool)

  /** Which screen the wizard shows; `Closed` carries the `skip_pipeline`
      value the wizard called back with, or `None` when it was closed
      without calling back. */
  datatype Screen = Step(n: int) | Closed(skipPipeline: Option<bool>)

  /** The status line of step 3. */
  datatype RunStatus = Ready | Running | Cancelled | Succeeded | FailedWith(code: int)

  datatype Wizard = Wizard(
    screen: Screen,
    form: PipelineTab.Form,
    manager: SessionManager.Manager,
    status: Step1Status,
    continueButton: Button,
    runStatus: RunStatus,
    hasRunner: bool,
    cancelEnabled: bool,
    errorShown: bool)

  /** `_validate_step1`. */
  function Validate(w: Wizard, fs: FileSystem): (r: Wizard)
    ensures r.continueButton.enabled <==> Exists(fs, FromStr(w.form.clipsDir)) && HasVideo(fs, FromStr(w.form.clipsDir))
    ensures r.continueButton.enabled ==>
      (r.continueButton.text == "Skip to Review" <==> Exists(fs, Layout.SummaryCsv(FromStr(w.form.clipsDir))))
    ensures r.continueButton.enabled ==>
      (r.continueButton.text == "Skip to Review" <==> SessionManager.HasExistingOutputs(r.manager, fs))
    ensures !Exists(fs, FromStr(w.form.clipsDir)) ==> r.manager == w.manager && r.status == NoSuchDirectory
    ensures Exists(fs, FromStr(w.form.clipsDir)) ==> r.manager.directory == Some(FromStr(w.form.clipsDir))
    ensures r.screen == w.screen && r.form == w.form && r.hasRunner == w.hasRunner
  {
    var clips := FromStr(w.form.clipsDir);
    if !Exists(fs, clips) then
      w.(status := NoSuchDirectory, continueButton := w.continueButton.(enabled := false))
    else
      var m := SessionManager.SetClipsDirectory(w.manager, clips);
      SessionManager.OutputsAfterSetDirectory(w.manager, clips, fs);
      var videos := VideoFiles(fs, clips, VideoExtensions);
      if |videos| == 0 then
        assert !HasVideo(fs, clips) by {
          assert forall n :: n !in videos;
        }
        w.(manager := m, status := NoVideos(ToStr(clips)), continueButton := w.continueButton.(enabled := false))
      else
        assert videos[0] in videos;
        if SessionManager.HasExistingOutputs(m, fs) then
          w.(manager := m, status := Found(|videos|, true), continueButton := Button("Skip to Review", true))
        else
          w.(manager := m, status := Found(|videos|, false), continueButton := Button("Continue to Settings", true))
  }

  /** `_show_step1_directory`: the prompt and a disabled Continue, then a
      validation when the configured default directory exists. The check is
      on the default directory, while the validation reads the current
      field. */
  function ShowStep1(w: Wizard, fs: FileSystem, defaultClips: Path): (r: Wizard)
    ensures r.screen == Step(1) && r.form == w.form && r.hasRunner == w.hasRunner
    ensures !Exists(fs, defaultClips) ==> r.status == Prompt && r.continueButton == Button("Continue", false)
    ensures Exists(fs, defaultClips) ==>
      r == Validate(w.(screen := Step(1), status := Prompt, continueButton := Button("Continue", false)), fs)
  {
    var shown := w.(screen := Step(1), status := Prompt, continueButton := Button("Continue", false));
    if Exists(fs, defaultClips) then Validate(shown, fs) else shown
  }

  /** The wizard as `__init__` opens it, on step 1. */
  function Open(form: PipelineTab.Form, m: SessionManager.Manager, fs: FileSystem, defaultClips: Path): (r: Wizard)
    ensures r.screen == Step(1) && !r.hasRunner && r.form == form
  {
    ShowStep1(Wizard(Step(1), form, m, Prompt, Button("Continue", false), Ready, false, false, false), fs, defaultClips)
  }

  /** `_step1_continue`: the output paths are derived from the clips
      directory; with earlier outputs and the user's yes the wizard calls
      back to skip the pipeline, otherwise it moves on to the settings. */
  function Step1Continue(w: Wizard, fs: FileSystem, userSaysSkip: bool): (r: Wizard)
    ensures r.form == PipelineTab.WithDefaultPaths(w.form)
    ensures r.screen == Closed(Some(true)) <==> SessionManager.HasExistingOutputs(w.manager, fs) && userSaysSkip
    ensures r.screen != Closed(Some(true)) ==> r.screen == Step(2)
  {
    var w' := w.(form := PipelineTab.WithDefaultPaths(w.form));
    if SessionManager.HasExistingOutputs(w.manager, fs) && userSaysSkip then w'.(screen := Closed(Some(true)))
    else w'.(screen := Step(2))
  }

  /** `_show_step3_run` followed by `_run_pipeline`: a missing clips
      directory shows an error and starts nothing, as does a failing
      `mkdir`; otherwise the pipeline starts with the tab's command line. */
  function ShowStep3(w: Wizard, rt: PipelineTab.Runtime, fs: FileSystem, mkdir: PipelineTab.MkdirOutcome)
    : (r: (Wizard, FileSystem, Option<seq<string>>))
    ensures r.0.screen == Step(3) && r.0.form == w.form
    ensures r.2.Some? <==> Exists(fs, FromStr(w.form.clipsDir)) && mkdir == PipelineTab.BothMade
    ensures r.2.Some? ==> r.2.value == PipelineTab.BuildCommand(rt, r.1, w.form) && r.0.runStatus == Running && r.0.hasRunner
    ensures r.0.errorShown <==> w.errorShown || !Exists(fs, FromStr(w.form.clipsDir))
    ensures forall p :: Exists(fs, p) ==> Exists(r.1, p)
  {
    var shown := w.(screen := Step(3), runStatus := Ready, cancelEnabled := false);
    var clips := FromStr(w.form.clipsDir);
    if !Exists(fs, clips) then (shown.(errorShown := true), fs, None)
    else
      var frames, detection := FromStr(w.form.framesDir), FromStr(w.form.detectionDir);
      match mkdir
      case FramesFailed => (shown, fs, None)
      case DetectionFailed => (shown, MakeDirs(fs, frames), None)
      case BothMade =>
        var made := MakeDirs(MakeDirs(fs, frames), detection);
        var cmd := PipelineTab.BuildCommand(rt, made, w.form);
        (shown.(runStatus := Running, hasRunner := true, cancelEnabled := true), made, Some(cmd))
  }

  /** `_cancel_pipeline`: acts whenever a runner was started. */
  function Cancel(w: Wizard): (r: Wizard)
    ensures w.hasRunner ==> r.runStatus == Cancelled && !r.cancelEnabled
    ensures !w.hasRunner ==> r == w
    ensures r.screen == w.screen
  {
    if w.hasRunner then w.(runStatus := Cancelled, cancelEnabled := false) else w
  }

  /** `_on_pipeline_complete` and the `_transition_to_review` it schedules:
      success calls back with `skip_pipeline=False`; a failure shows an
      error and stays on step 3. */
  function Complete(w: Wizard, code: int): (r: Wizard)
    ensures !r.cancelEnabled
    ensures code == 0 ==> r.screen == Closed(Some(false)) && r.runStatus == Succeeded
    ensures code != 0 ==> r.screen == w.screen && r.runStatus == FailedWith(code) && r.errorShown
  {
    if code == 0 then w.(cancelEnabled := false, runStatus := Succeeded, screen := Closed(Some(false)))
    else w.(cancelEnabled := false, runStatus := FailedWith(code), errorShown := true)
  }

  /** What the user and the runner can do: type or browse a directory,
      press Continue (answering the skip question), Cancel on step 1, Back,
      Use Defaults or Run Analysis on step 2, Cancel on step 3, and the
      runner finishing. */
  datatype Event =
    | TypeClips(text: string)
    | BrowseClips(chosen: string)
    | ContinuePressed(userSaysSkip: bool)
    | CloseStep1
    | Back
    | UseDefaults(mkdir: PipelineTab.MkdirOutcome)
    | RunAnalysis(mkdir: PipelineTab.MkdirOutcome)
    | CancelRun
    | Finished(code: int)

  /** The wizard after one event; `fs` is the file system at that moment.
      Buttons only fire on the screen that shows them and while enabled,
      and a closed wizard no longer reacts. */
  function Handle(w: Wizard, e: Event, rt: PipelineTab.Runtime, fs: FileSystem, defaultClips: Path): (r: (Wizard, FileSystem))
    ensures w.screen.Closed? ==> r == (w, fs)
    ensures e.ContinuePressed? && !w.continueButton.enabled ==> r == (w, fs)
    ensures e == CancelRun && !(w.screen == Step(3) && w.cancelEnabled) ==> r == (w, fs)
    ensures e == CancelRun && w.screen == Step(3) && w.cancelEnabled && w.hasRunner ==>
      r.0.runStatus == Cancelled && !r.0.cancelEnabled
    ensures !(w.screen == Step(2) && (e.UseDefaults? || e.RunAnalysis?)) ==> r.1 == fs
    ensures forall p :: Exists(fs, p) ==> Exists(r.1, p)
  {
    match (w.screen, e)
    case (Step(1), TypeClips(text)) => (w.(form := w.form.(clipsDir := text)), fs)
    case (Step(1), BrowseClips(chosen)) =>
      (if chosen == "" then w else Validate(w.(form := w.form.(clipsDir := chosen)), fs), fs)
    case (Step(1), ContinuePressed(skip)) =>
      (if w.continueButton.enabled then Step1Continue(w, fs, skip) else w, fs)
    case (Step(1), CloseStep1) => (w.(screen := Closed(None)), fs)
    case (Step(2), Back) => (ShowStep1(w, fs, defaultClips), fs)
    case (Step(2), UseDefaults(mkdir)) => var r := ShowStep3(w, rt, fs, mkdir); (r.0, r.1)
    case (Step(2), RunAnalysis(mkdir)) => var r := ShowStep3(w, rt, fs, mkdir); (r.0, r.1)
    case (Step(3), CancelRun) => (if w.cancelEnabled then Cancel(w) else w, fs)
    case (Step(3), Finished(code)) => (Complete(w, code), fs)
    case _ => (w, fs)
  }

  /** The moves of the step counter: 1 to 2 and back, 2 to 3, and out of
      the wizard from step 1 (skipping, or closing) or from step 3 after a
      successful run. */
  predicate Move(before: Screen, after: Screen) {
    || before == after
    || (before == Step(1) && after in {Step(2), Closed(Some(true)), Closed(None)})
    || (before == Step(2) && after in {Step(1), Step(3)})
    || (before == Step(3) && after == Closed(Some(false)))
  }

  /** Every event moves the wizard along one of its edges, and only a
      successful run leaves step 3. */
  lemma StepMoves(w: Wizard, e: Event, rt: PipelineTab.Runtime, fs: FileSystem, defaultClips: Path)
    requires w.screen.Step? ==> 1 <= w.screen.n <= 3
    ensures Move(w.screen, Handle(w, e, rt, fs, defaultClips).0.screen)
    ensures w.screen == Step(3) && Handle(w, e, rt, fs, defaultClips).0.screen == Closed(Some(false)) ==>
      e == Finished(0)
    ensures w.screen.Closed? ==> Handle(w, e, rt, fs, defaultClips).0 == w
  {
  }

  /** After a failed run Cancel is disabled, so pressing it keeps the
      failure on screen. */
  lemma FailedRunIgnoresCancel(w: Wizard, code: int, rt: PipelineTab.Runtime, fs: FileSystem, defaultClips: Path)
    requires w.screen == Step(3) && code != 0
    ensures var failed := Handle(w, Finished(code), rt, fs, defaultClips).0;
      Handle(failed, CancelRun, rt, fs, defaultClips).0 == failed && failed.runStatus == FailedWith(code)
  {
  }

  /** The wizard skips the pipeline only after a validation found the
      outputs for the directory then chosen, and the user agreed. */
  lemma SkipOnlyWithOutputs(w: Wizard, fs: FileSystem, chosen: string, skip: bool, rt: PipelineTab.Runtime, defaultClips: Path)
    requires w.screen == Step(1) && chosen != ""
    ensures var v := Handle(w, BrowseClips(chosen), rt, fs, defaultClips).0;
      Handle(v, ContinuePressed(skip), rt, fs, defaultClips).0.screen == Closed(Some(true)) <==>
      skip && HasVideo(fs, FromStr(chosen)) && Exists(fs, FromStr(chosen))
      && Exists(fs, Layout.SummaryCsv(FromStr(chosen)))
  {
    var v := Handle(w, BrowseClips(chosen), rt, fs, defaultClips).0;
    var clips := FromStr(chosen);
    SessionManager.OutputsAfterSetDirectory(w.manager, clips, fs);
  }
}

=== FILE: review_clips.dfy ===
/** The command-line review tool: annotations read from the summary CSV, the
    filter lists, the clip list built in title order with the wanted and
    auto-delete filters, the navigation loop over the user's choices, and the
    playback frame step. Playing a clip is reduced to the choice it returns. */
module ReviewClips {
  import opened Options
  import opened Strings
  import opened Order
  import opened Assoc
  import opened Paths
  import ReviewTab

  /** A CSV row as `csv.DictReader` yields it: `None` for a column the file
      does not have. */
  datatype AnnRow = AnnRow(title: Option<string>, animals: Option<string>, multiple: Option<string>)

  /** What `load_annotations` keeps per title. */
  datatype Ann = Ann(uniqueAnimals: string, multiple: bool)

  /** The annotation of one row, as `load_annotations` reads it: stripped
      fields, a multiple flag that is true only for "true" in any case. */
  function RowTitle(row: AnnRow): string {
    Strip(row.title.GetOr(""))
  }

  function RowAnn(row: AnnRow): (a: Ann)
    ensures a.multiple <==> Lower(Strip(row.multiple.GetOr("false"))) == "true"
  {
    Ann(Strip(row.animals.GetOr("")), Lower(Strip(row.multiple.GetOr("false"))) == "true")
  }

  /** The annotations by title. */
  type Dict = Assoc<Ann>

  /** `load_annotations(csv)` over the rows of the file. */
  function LoadAnnotations(rows: seq<AnnRow>): (d: Dict)
    ensures Distinct(Keys(d))
    decreases |rows|
  {
    if |rows| == 0 then []
    else
      var d := LoadAnnotations(rows[..|rows| - 1]);
      var row := rows[|rows| - 1];
      if RowTitle(row) != "" then UpsertDistinct(d, RowTitle(row), RowAnn(row)); Upsert(d, RowTitle(row), RowAnn(row)) else d
  }

  /** The stripped titles of the rows. */
  function RowTitles(rows: seq<AnnRow>): (ts: seq<string>)
    ensures |ts| == |rows| && forall i :: 0 <= i < |rows| ==> ts[i] == RowTitle(rows[i])
  {
    seq(|rows|, i requires 0 <= i < |rows| => RowTitle(rows[i]))
  }

  /** The titles annotated are exactly the non-empty stripped titles of the
      rows. */
  lemma {:induction false} AnnotatedTitles(rows: seq<AnnRow>, k: string)
    ensures k in Keys(LoadAnnotations(rows)) <==> k != "" && k in RowTitles(rows)
    decreases |rows|
  {
    if |rows| > 0 {
      var init := rows[..|rows| - 1];
      var row := rows[|rows| - 1];
      AnnotatedTitles(init, k);
      RowTitlesSnoc(rows);
      var d := LoadAnnotations(init);
      if RowTitle(row) != "" {
        assert LoadAnnotations(rows) == Upsert(d, RowTitle(row), RowAnn(row));
      } else {
        assert LoadAnnotations(rows) == d;
      }
    }
  }

  lemma RowTitlesSnoc(rows: seq<AnnRow>)
    requires |rows| > 0
    ensures forall k :: k in RowTitles(rows) <==> k in RowTitles(rows[..|rows| - 1]) || k == RowTitle(rows[|rows| - 1])
  {
    assert RowTitles(rows) == RowTitles(rows[..|rows| - 1]) + [RowTitle(rows[|rows| - 1])];
  }

  /** For a repeated title the last row wins, and an untitled row changes
      nothing. */
  lemma LastRowWins(rows: seq<AnnRow>, row: AnnRow, k: string)
    ensures RowTitle(row) != "" ==>
      Lookup(LoadAnnotations(rows + [row]), RowTitle(row)) == Some(RowAnn(row))
    ensures k != RowTitle(row) ==>
      Lookup(LoadAnnotations(rows + [row]), k) == Lookup(LoadAnnotations(rows), k)
  {
    assert (rows + [row])[..|rows|] == rows;
  }

  /** `parse_filter_list(s)`: the comma-separated parts, stripped, empty ones
      dropped; so no entry is empty or holds a comma. */
  function ParseFilterList(s: string): (r: seq<string>)
    ensures forall x :: x in r <==> x != "" && x in StripAll(Split(s, ','))
    ensures forall i :: 0 <= i < |r| ==> r[i] != "" && ',' !in r[i]
  {
    var r := NonEmpty(StripAll(Split(s, ',')));
    PartsHaveNoComma(s);
    assert forall i :: 0 <= i < |r| ==> r[i] in r;
    r
  }

  /** The stripped parts of a comma split hold no comma. */
  lemma PartsHaveNoComma(s: string)
    ensures forall x :: x in StripAll(Split(s, ',')) ==> ',' !in x
  {
    var parts := Split(s, ',');
    forall x | x in StripAll(parts) ensures ',' !in x {
      var j :| 0 <= j < |parts| && StripAll(parts)[j] == x;
      StripKeepsOut(parts[j], ',');
    }
  }

  /** The `if a and a not in animals: animals.append(a)` loop over the
      stripped values: the distinct non-empty ones, in the order of their
      first occurrences. */
  function FirstSeen(values: seq<string>): (r: seq<string>)
    ensures FirstSeenOf(values, r)
  {
    if |values| == 0 then []
    else
      var init := values[..|values| - 1];
      var d := FirstSeen(init);
      var a := Strip(values[|values| - 1]);
      FirstSeenStep(values, d);
      if a != "" && a !in d then d + [a] else d
  }

  /** What the loop keeps about the values seen so far. */
  ghost predicate FirstSeenOf(values: seq<string>, r: seq<string>) {
    KeptInOrder(StripAll(values), r)
  }

  /** `r` holds the distinct non-empty elements of `sv`, in the order of
      their first occurrences. */
  ghost predicate KeptInOrder(sv: seq<string>, r: seq<string>) {
    && Distinct(r)
    && (forall a :: a in r <==> a != "" && a in sv)
    && (forall i, j :: 0 <= i < j < |r| ==> IndexOf(sv, r[i]) < IndexOf(sv, r[j]))
  }

  /** One more pass of the loop keeps what it keeps: earlier values keep
      their first occurrences, and a new value comes after all of them. */
  lemma FirstSeenStep(values: seq<string>, d: seq<string>)
    requires |values| > 0 && FirstSeenOf(values[..|values| - 1], d)
    ensures var a := Strip(values[|values| - 1]);
      FirstSeenOf(values, if a != "" && a !in d then d + [a] else d)
  {
    var si := StripAll(values[..|values| - 1]);
    var a := Strip(values[|values| - 1]);
    StripAllSnoc(values);
    if a != "" && a !in d {
      FirstSeenAppend(si, a, d);
    } else {
      FirstSeenKeep(si, a, d);
    }
  }

  /** Stripping a non-empty list is stripping all but the last value, then
      the last one. */
  lemma StripAllSnoc(values: seq<string>)
    requires |values| > 0
    ensures StripAll(values) == StripAll(values[..|values| - 1]) + [Strip(values[|values| - 1])]
  {
    var si := StripAll(values[..|values| - 1]);
    var r := si + [Strip(values[|values| - 1])];
    assert |StripAll(values)| == |r|;
    forall i | 0 <= i < |r| ensures StripAll(values)[i] == r[i] {
      if i < |si| {
        assert values[..|values| - 1][i] == values[i];
      }
    }
  }

  lemma FirstIndicesKept(si: seq<string>, a: string, d: seq<string>)
    requires forall x :: x in d ==> x in si
    ensures forall x :: x in d ==> IndexOf(si + [a], x) == IndexOf(si, x)
  {
    forall x | x in d ensures IndexOf(si + [a], x) == IndexOf(si, x) {
      IndexOfAppend(si, [a], x);
    }
  }

  lemma FirstSeenKeep(si: seq<string>, a: string, d: seq<string>)
    requires a == "" || a in d
    requires KeptInOrder(si, d)
    ensures KeptInOrder(si + [a], d)
  {
    FirstIndicesKept(si, a, d);
    forall i, j | 0 <= i < j < |d| ensures IndexOf(si + [a], d[i]) < IndexOf(si + [a], d[j]) {
      assert d[i] in d && d[j] in d;
    }
  }

  lemma FirstSeenAppend(si: seq<string>, a: string, d: seq<string>)
    requires a != "" && a !in d
    requires KeptInOrder(si, d)
    ensures KeptInOrder(si + [a], d + [a])
  {
    var r := d + [a];
    FirstIndicesKept(si, a, d);
    IndexOfLast(si, a);
    forall i, j | 0 <= i < j < |r| ensures IndexOf(si + [a], r[i]) < IndexOf(si + [a], r[j]) {
      assert r[i] == d[i] && d[i] in d;
      if j < |d| {
        assert r[j] == d[j] && d[j] in d;
      }
    }
  }

  /** `load_available_animals(csv)`: nothing when the file is missing,
      otherwise the distinct stripped non-empty `animal` values in first-seen
      order. `column` holds each row's `animal` field, `None` when absent. */
  function LoadAvailableAnimals(present: bool, column: seq<Option<string>>): (r: seq<string>)
    ensures !present ==> r == []
    ensures Distinct(r)
    ensures forall x :: x in r <==> present && x != "" && exists i :: 0 <= i < |column| && Strip(column[i].GetOr("")) == x
    ensures forall x :: x in r ==> x in StripAll(ColumnValues(column))
    ensures forall i, j :: 0 <= i < j < |r| ==>
      IndexOf(StripAll(ColumnValues(column)), r[i]) < IndexOf(StripAll(ColumnValues(column)), r[j])
  {
    if !present then []
    else
      ColumnFirstSeen(column);
      FirstSeen(ColumnValues(column))
  }

  /** The column with absent fields read as empty strings. */
  function ColumnValues(column: seq<Option<string>>): (values: seq<string>)
    ensures |values| == |column| && forall i :: 0 <= i < |column| ==> values[i] == column[i].GetOr("")
  {
    seq(|column|, i requires 0 <= i < |column| => column[i].GetOr(""))
  }

  /** The first-seen list of a column, read field by field. */
  lemma ColumnFirstSeen(column: seq<Option<string>>)
    ensures var r := FirstSeen(ColumnValues(column));
      && Distinct(r)
      && (forall x :: x in r <==> x != "" && exists i :: 0 <= i < |column| && Strip(column[i].GetOr("")) == x)
      && (forall x :: x in r ==> x in StripAll(ColumnValues(column)))
      && (forall i, j :: 0 <= i < j < |r| ==>
            IndexOf(StripAll(ColumnValues(column)), r[i]) < IndexOf(StripAll(ColumnValues(column)), r[j]))
  {
    var values := ColumnValues(column);
    var sv := StripAll(values);
    var r := FirstSeen(values);
    assert KeptInOrder(sv, r);
    forall x ensures x in sv <==> exists i :: 0 <= i < |column| && Strip(column[i].GetOr("")) == x {
      if x in sv {
        var i :| 0 <= i < |sv| && sv[i] == x;
        assert Strip(column[i].GetOr("")) == x;
      }
      if exists i :: 0 <= i < |column| && Strip(column[i].GetOr("")) == x {
        var i :| 0 <= i < |column| && Strip(column[i].GetOr("")) == x;
        assert sv[i] == x;
      }
    }
  }

  // ----------------------------------------------------------- clip list

  /** `set(a for a in unique_animals.split("_") if a)` */
  function AnimalSet(uniqueAnimals: string): set<string> {
    set a | a in Split(uniqueAnimals, '_') && a != ""
  }

  /** The wanted filter: with an wanted set, some animal must be in it. */
  predicate Included(wanted: set<string>, animals: set<string>) {
    wanted == {} || animals * wanted != {}
  }

  /** The auto-delete rule: a single-species clip whose species is listed. */
  predicate AutoDeleted(auto: set<string>, animals: set<string>) {
    auto != {} && |animals| == 1 && animals * auto != {}
  }

  lemma AutoDeletedSingle(auto: set<string>, animals: set<string>)
    requires AutoDeleted(auto, animals)
    ensures exists a :: animals == {a} && a in auto
  {
    var a :| a in animals * auto;
    assert animals == {a} by {
      forall b | b in animals ensures b == a {
        if b != a {
          assert {a, b} <= animals;
          assert |{a, b}| == 2;
          SubsetCard({a, b}, animals);
        }
      }
    }
  }

  lemma SubsetCard(a: set<string>, b: set<string>)
    requires a <= b
    ensures |a| <= |b|
  {
    if a != {} {
      var x :| x in a;
      SubsetCard(a - {x}, b - {x});
    }
  }

  /** An entry of the review list; the title is kept to state the order. */
  datatype Entry = Entry(title: string, path: Path, uniqueAnimals: string, multiple: bool)

  /** What happens to a title while the list is built. */
  function Decide(fs: FileSystem, dir: Path, exts: seq<string>, d: Dict, wanted: set<string>,
                  auto: set<string>, title: string): (r: (Option<Entry>, Option<Path>))
    ensures r.0.Some? ==> r.1.None? && r.0.value.title == title
    ensures r.0.Some? || r.1.Some? ==> ReviewTab.FindClip(fs, dir, title, exts).Some?
    ensures r.0.Some? ==> r.0.value.path == ReviewTab.FindClip(fs, dir, title, exts).value
    ensures r.0.Some? ==>
      && r.0.value.uniqueAnimals == Lookup(d, title).GetOr(Ann("", false)).uniqueAnimals
      && r.0.value.multiple == Lookup(d, title).GetOr(Ann("", false)).multiple
    ensures r.1.Some? ==> r.1.value == ReviewTab.FindClip(fs, dir, title, exts).value
    ensures r.0.Some? ==> var animals := AnimalSet(r.0.value.uniqueAnimals);
      Included(wanted, animals) && !AutoDeleted(auto, animals)
    ensures ReviewTab.FindClip(fs, dir, title, exts).Some? ==>
      var animals := AnimalSet(Lookup(d, title).GetOr(Ann("", false)).uniqueAnimals);
      && (r.0.Some? <==> Included(wanted, animals) && !AutoDeleted(auto, animals))
      && (r.1.Some? <==> Included(wanted, animals) && AutoDeleted(auto, animals))
  {
    match ReviewTab.FindClip(fs, dir, title, exts)
    case None => (None, None)
    case Some(p) =>
      var a := Lookup(d, title).GetOr(Ann("", false));
      var animals := AnimalSet(a.uniqueAnimals);
      if !Included(wanted, animals) then (None, None)
      else if AutoDeleted(auto, animals) then (None, Some(p))
      else (Some(Entry(title, p, a.uniqueAnimals, a.multiple)), None)
  }

  /** The loop over the titles: the review list and the clips sent to the
      trash by the auto-delete rule, both in title order. */
  function BuildList(fs: FileSystem, dir: Path, exts: seq<string>, d: Dict, wanted: set<string>,
                     auto: set<string>, titles: seq<string>): (r: (seq<Entry>, seq<Path>))
    ensures |r.0| + |r.1| <= |titles|
    ensures forall i :: 0 <= i < |r.0| ==> r.0[i].title in titles
    ensures forall i :: 0 <= i < |r.0| ==>
      var e := r.0[i];
      Included(wanted, AnimalSet(e.uniqueAnimals)) && !AutoDeleted(auto, AnimalSet(e.uniqueAnimals))
  {
    if |titles| == 0 then ([], [])
    else
      var rest := BuildList(fs, dir, exts, d, wanted, auto, titles[1..]);
      var (e, p) := Decide(fs, dir, exts, d, wanted, auto, titles[0]);
      var listed: seq<Entry> := if e.Some? then [e.value] else [];
      var trashed: seq<Path> := if p.Some? then [p.value] else [];
      assert forall x :: x in titles[1..] ==> x in titles;
      assert forall i :: 0 <= i < |listed| ==> listed[i] == e.value;
      (listed + rest.0, trashed + rest.1)
  }

  /** Every title whose clip is found and passes the wanted filter is either
      listed, with its path and annotation, or sent to the trash by the
      auto-delete rule. */
  lemma {:induction false} BuildListComplete(fs: FileSystem, dir: Path, exts: seq<string>, d: Dict,
                                             wanted: set<string>, auto: set<string>, titles: seq<string>, t: string)
    requires t in titles
    ensures var (e, p) := Decide(fs, dir, exts, d, wanted, auto, t);
      var (listed, trashed) := BuildList(fs, dir, exts, d, wanted, auto, titles);
      && (e.Some? ==> e.value in listed)
      && (p.Some? ==> p.value in trashed)
  {
    if titles[0] != t {
      BuildListComplete(fs, dir, exts, d, wanted, auto, titles[1..], t);
    }
  }

  /** The entries are in title order. */
  predicate TitleOrdered(es: seq<Entry>) {
    forall i, j :: 0 <= i < j < |es| ==> LexLe(es[i].title, es[j].title)
  }

  /** The titles of the review list keep the order of the titles they were
      picked from: a list built from sorted titles is sorted. */
  lemma {:induction false} BuildListSorted(fs: FileSystem, dir: Path, exts: seq<string>, d: Dict,
                                           wanted: set<string>, auto: set<string>, titles: seq<string>)
    requires SortedBy(titles, LexLe)
    ensures TitleOrdered(BuildList(fs, dir, exts, d, wanted, auto, titles).0)
  {
    if |titles| > 0 {
      var tail := titles[1..];
      SortedTail(titles);
      BuildListSorted(fs, dir, exts, d, wanted, auto, tail);
      var rest := BuildList(fs, dir, exts, d, wanted, auto, tail).0;
      var e := Decide(fs, dir, exts, d, wanted, auto, titles[0]).0;
      assert BuildList(fs, dir, exts, d, wanted, auto, titles).0 == (if e.Some? then [e.value] else []) + rest;
      if e.Some? {
        HeadPrecedes(titles, rest);
        TitleOrderedCons(e.value, rest);
      }
    }
  }

  lemma SortedTail(titles: seq<string>)
    requires SortedBy(titles, LexLe) && |titles| > 0
    ensures SortedBy(titles[1..], LexLe)
  {
    var tail := titles[1..];
    forall i, j | 0 <= i < j < |tail| ensures LexLe(tail[i], tail[j]) {
      assert tail[i] == titles[i + 1] && tail[j] == titles[j + 1];
    }
  }

  lemma HeadPrecedes(titles: seq<string>, rest: seq<Entry>)
    requires SortedBy(titles, LexLe) && |titles| > 0
    requires forall i :: 0 <= i < |rest| ==> rest[i].title in titles[1..]
    ensures forall i :: 0 <= i < |rest| ==> LexLe(titles[0], rest[i].title)
  {
    forall i | 0 <= i < |rest| ensures LexLe(titles[0], rest[i].title) {
      var k :| 0 <= k < |titles[1..]| && titles[1..][k] == rest[i].title;
      assert titles[k + 1] == rest[i].title;
    }
  }

  lemma TitleOrderedCons(e: Entry, rest: seq<Entry>)
    requires forall i :: 0 <= i < |rest| ==> LexLe(e.title, rest[i].title)
    requires TitleOrdered(rest)
    ensures TitleOrdered([e] + rest)
  {
    var es := [e] + rest;
    forall i, j | 0 <= i < j < |es| ensures LexLe(es[i].title, es[j].title) {
      assert es[j] == rest[j - 1];
      if i > 0 {
        assert es[i] == rest[i - 1];
      }
    }
  }

  /** `sorted(annotations.keys())` */
  function SortedTitles(d: Dict): (r: seq<string>)
    ensures SortedBy(r, LexLe)
    ensures multiset(r) == multiset(Keys(d))
  {
    LexLeIsTotalOrder();
    Sort(Keys(d), LexLe)
  }

  /** `set(xs)` */
  function ToSet(xs: seq<string>): (r: set<string>)
    ensures forall x :: x in r <==> x in xs
  {
    set x | x in xs
  }

  /** The outcome of `main` before the navigation loop. */
  datatype Setup =
    | CsvMissing
    | ClipsDirMissing
    | NoMatchingClips(autoTrashed: seq<Path>)
    | Ready(entries: seq<Entry>, autoTrashed: seq<Path>)

  /** `[e for e in exts.split(",") if e]` */
  function ParseExts(s: string): (r: seq<string>)
    ensures forall i :: 0 <= i < |r| ==> r[i] != "" && ',' !in r[i]
  {
    var parts := Split(s, ',');
    var r := NonEmpty(parts);
    assert forall i :: 0 <= i < |r| ==> r[i] in r && r[i] in parts;
    r
  }

  /** The entry the loop lists for annotated title `t` under the command
      line's extensions and filters, if any. */
  function Candidate(fs: FileSystem, dir: Path, rows: seq<AnnRow>, exts: string,
                     wanted: string, auto: string, t: string): Option<Entry> {
    Decide(fs, dir, ParseExts(exts), LoadAnnotations(rows), ToSet(ParseFilterList(wanted)),
           ToSet(ParseFilterList(auto)), t).0
  }

  /** `main` up to the loop: checks the CSV and the clips directory, reads
      the annotations, and builds the list in sorted title order. A ready
      list holds exactly the entries of the annotated titles that are
      listed, and "no matching clips" means no annotated title is. */
  function Prepare(fs: FileSystem, csv: Path, dir: Path, rows: seq<AnnRow>, exts: string,
                   wanted: string, auto: string): (r: Setup)
    ensures !Exists(fs, csv) ==> r == CsvMissing
    ensures Exists(fs, csv) && !Exists(fs, dir) ==> r == ClipsDirMissing
    ensures Exists(fs, csv) && Exists(fs, dir) ==> r.Ready? || r.NoMatchingClips?
    ensures r.Ready? ==> |r.entries| > 0 && TitleOrdered(r.entries)
    ensures r.Ready? ==> forall e :: e in r.entries ==>
      e.title in Keys(LoadAnnotations(rows)) && Candidate(fs, dir, rows, exts, wanted, auto, e.title) == Some(e)
    ensures r.Ready? ==> forall t :: t in Keys(LoadAnnotations(rows)) && Candidate(fs, dir, rows, exts, wanted, auto, t).Some? ==>
      Candidate(fs, dir, rows, exts, wanted, auto, t).value in r.entries
    ensures r.NoMatchingClips? ==> forall t :: t in Keys(LoadAnnotations(rows)) ==>
      Candidate(fs, dir, rows, exts, wanted, auto, t).None?
  {
    if !Exists(fs, csv) then CsvMissing
    else if !Exists(fs, dir) then ClipsDirMissing
    else
      var d := LoadAnnotations(rows);
      var titles := SortedTitles(d);
      var inc, ad := ToSet(ParseFilterList(wanted)), ToSet(ParseFilterList(auto));
      var (es, trashed) := BuildList(fs, dir, ParseExts(exts), d, inc, ad, titles);
      BuildListSorted(fs, dir, ParseExts(exts), d, inc, ad, titles);
      ListedCandidates(fs, dir, rows, exts, wanted, auto);
      if |es| == 0 then NoMatchingClips(trashed) else Ready(es, trashed)
  }

  /** The list built from the sorted annotated titles holds exactly the
      candidates of the annotated titles. */
  lemma ListedCandidates(fs: FileSystem, dir: Path, rows: seq<AnnRow>, exts: string, wanted: string, auto: string)
    ensures var d := LoadAnnotations(rows);
      var es := BuildList(fs, dir, ParseExts(exts), d, ToSet(ParseFilterList(wanted)),
                          ToSet(ParseFilterList(auto)), SortedTitles(d)).0;
      && (forall e :: e in es ==>
            e.title in Keys(d) && Candidate(fs, dir, rows, exts, wanted, auto, e.title) == Some(e))
      && (forall t :: t in Keys(d) && Candidate(fs, dir, rows, exts, wanted, auto, t).Some? ==>
            Candidate(fs, dir, rows, exts, wanted, auto, t).value in es)
  {
    var d := LoadAnnotations(rows);
    var titles := SortedTitles(d);
    var inc, ad := ToSet(ParseFilterList(wanted)), ToSet(ParseFilterList(auto));
    BuildListSound(fs, dir, ParseExts(exts), d, inc, ad, titles);
    forall e | e in BuildList(fs, dir, ParseExts(exts), d, inc, ad, titles).0 ensures e.title in Keys(d) {
      assert e.title in multiset(titles);
    }
    forall t | t in Keys(d) && Candidate(fs, dir, rows, exts, wanted, auto, t).Some?
      ensures Candidate(fs, dir, rows, exts, wanted, auto, t).value in BuildList(fs, dir, ParseExts(exts), d, inc, ad, titles).0
    {
      assert t in multiset(titles);
      BuildListComplete(fs, dir, ParseExts(exts), d, inc, ad, titles, t);
    }
  }

  /** Every listed entry is the one its own title decides to list. */
  lemma {:induction false} BuildListSound(fs: FileSystem, dir: Path, exts: seq<string>, d: Dict,
                                          wanted: set<string>, auto: set<string>, titles: seq<string>)
    ensures forall e :: e in BuildList(fs, dir, exts, d, wanted, auto, titles).0 ==>
      e.title in titles && Decide(fs, dir, exts, d, wanted, auto, e.title).0 == Some(e)
  {
    if |titles| > 0 {
      BuildListSound(fs, dir, exts, d, wanted, auto, titles[1..]);
      var rest := BuildList(fs, dir, exts, d, wanted, auto, titles[1..]).0;
      var e := Decide(fs, dir, exts, d, wanted, auto, titles[0]).0;
      assert BuildList(fs, dir, exts, d, wanted, auto, titles).0 == (if e.Some? then [e.value] else []) + rest;
      assert forall x :: x in titles[1..] ==> x in titles;
    }
  }

  // ---------------------------------------------------------- navigation

  /** What playing a clip ends with: the key pressed (or "next" when the
      clip ran out or could not be opened); for a delete, whether moving the
      file to the trash succeeds. */
  datatype Choice = Next | Prev | Delete(trashOk: bool) | Quit

  /** One pass of the loop body for the clip at `idx` that did not end in
      quit: the new list, the clip moved to the trash if any, and the new
      index. Next and a failed delete move on by one; prev moves back but
      never below the first clip; a successful delete removes exactly that
      clip and lands on the clip that followed it, or on the new last clip
      when it was the last (ending the loop when none is left). */
  function NavStep(remaining: seq<Entry>, idx: int, c: Choice): (r: (seq<Entry>, Option<Entry>, int))
    requires 0 <= idx < |remaining| && c != Quit
    ensures r.1.None? ==> r.0 == remaining
    ensures r.1.Some? <==> c == Delete(true)
    ensures c == Next || c == Delete(false) ==> r.2 == idx + 1
    ensures c == Prev ==> 0 <= r.2 && (r.2 == idx - 1 || (idx == 0 && r.2 == 0))
    ensures c == Delete(true) ==>
      && r.1 == Some(remaining[idx])
      && r.0 == ReviewTab.RemoveAt(remaining, idx)
      && multiset(r.0) + multiset{remaining[idx]} == multiset(remaining)
      && (idx < |r.0| ==> r.2 == idx && r.0[r.2] == remaining[idx + 1])
      && (idx == |r.0| ==> r.2 == |r.0| - 1)
  {
    match c
    case Next => (remaining, None, idx + 1)
    case Prev => (remaining, None, if idx - 1 < 0 then 0 else idx - 1)
    case Delete(ok) =>
      if !ok then (remaining, None, idx + 1)
      else
        var (rest, next) := DeleteStep(remaining, idx);
        (rest, Some(remaining[idx]), next)
  }

  /** A successful delete: the list without the clip at `idx`, and the index
      of the clip that followed it, or of the new last clip. */
  function DeleteStep(remaining: seq<Entry>, idx: nat): (r: (seq<Entry>, int))
    requires idx < |remaining|
    ensures r.0 == ReviewTab.RemoveAt(remaining, idx)
    ensures multiset(r.0) + multiset{remaining[idx]} == multiset(remaining)
    ensures idx < |r.0| ==> r.1 == idx && r.0[r.1] == remaining[idx + 1]
    ensures idx == |r.0| ==> r.1 == |r.0| - 1
  {
    var rest := ReviewTab.RemoveAt(remaining, idx);
    RemoveAtMultiset(remaining, idx);
    (rest, if idx >= |rest| then |rest| - 1 else idx)
  }

  /** The clip a step moved to the trash, as a list. */
  function Moved(e: Option<Entry>): (r: seq<Entry>)
    ensures multiset(r) == if e.Some? then multiset{e.value} else multiset{}
  {
    if e.Some? then [e.value] else []
  }

  /** A step loses no clip: what leaves the list is moved to the trash, and
      the new index is at most one past the end of the list. */
  lemma NavStepKeeps(remaining: seq<Entry>, trashed: seq<Entry>, idx: int, c: Choice)
    requires 0 <= idx < |remaining| && c != Quit
    ensures var step := NavStep(remaining, idx, c);
      && multiset(step.0) + multiset(trashed + Moved(step.1)) == multiset(remaining) + multiset(trashed)
      && -1 <= step.2 <= |step.0|
  {
    var step := NavStep(remaining, idx, c);
    assert multiset(trashed + Moved(step.1)) == multiset(trashed) + multiset(Moved(step.1));
  }

  /** The navigation loop of `main` over the user's choices, one per clip
      played. It stops on quit, when the index leaves the list, or when the
      choices run out. */
  method Navigate(entries: seq<Entry>, choices: seq<Choice>)
      returns (remaining: seq<Entry>, trashed: seq<Entry>, played: seq<Entry>, idx: int)
    ensures multiset(remaining) + multiset(trashed) == multiset(entries)
    ensures |played| <= |choices|
    ensures forall i :: 0 <= i < |played| ==> played[i] in entries
    ensures -1 <= idx <= |remaining|
    ensures |played| < |choices| ==>
      (|played| > 0 && choices[|played| - 1] == Quit) || idx < 0 || idx >= |remaining|
    ensures |entries| > 0 && |choices| > 0 ==> |played| > 0 && played[0] == entries[0]
    ensures Delete(true) !in choices ==> remaining == entries && trashed == []
  {
    remaining := entries;
    trashed := [];
    played := [];
    idx := 0;
    var quit := false;
    while 0 <= idx < |remaining| && |played| < |choices| && !quit
      invariant multiset(remaining) + multiset(trashed) == multiset(entries)
      invariant |played| <= |choices|
      invariant forall i :: 0 <= i < |played| ==> played[i] in entries
      invariant -1 <= idx <= |remaining|
      invariant quit ==> |played| > 0 && choices[|played| - 1] == Quit
      invariant |entries| > 0 && |played| > 0 ==> played[0] == entries[0]
      invariant |played| == 0 ==> remaining == entries && idx == 0
      invariant Delete(true) !in choices ==> remaining == entries && trashed == []
      decreases |choices| - |played|
    {
      var e := remaining[idx];
      assert e in multiset(entries);
      var c := choices[|played|];
      played := played + [e];
      if c == Quit {
        quit := true;
      } else {
        var step := NavStep(remaining, idx, c);
        NavStepKeeps(remaining, trashed, idx, c);
        trashed := trashed + Moved(step.1);
        remaining, idx := step.0, step.2;
      }
    }
  }

  // ------------------------------------------------------------ playback

  /** `math.ceil(x)` */
  function Ceil(x: real): (n: int)
    ensures n as real >= x && (n - 1) as real < x
  {
    -((-x).Floor)
  }

  /** `max(1, ceil(play_rate))`: frames advanced per displayed frame. */
  function FrameStep(rate: real): (step: nat)
    ensures step >= 1
    ensures rate > 0.0 ==> step as real >= rate && (step - 1) as real < rate
    ensures rate <= 1.0 ==> step == 1
  {
    var c := Ceil(rate);
    if c < 1 then 1 else c
  }
}

=== FILE: review_tab.dfy ===
/** The review screen: the clip list built from the summary CSV, the current
    clip index and its moves (play-at, next, previous, delete), the search
    filter and first-match jump, the animals caption, keyboard-shortcut gating,
    and the end-of-clip overlay with its scheduled auto-advance. Widgets and
    message boxes are reduced to the state they leave behind; the decoder, the
    file system and the user's answers are inputs. */
module ReviewTab {
  import opened Options
  import opened Strings
  import opened Paths
  import Layout
  import VP = VideoPlayer

  /** One row of `animals_in_videos.csv`. */
  datatype Row = Row(videoTitle: string, uniqueAnimals: string, multipleAnimals: string)

  /** One entry of the clip list. `animals` is what the list shows and what the
      search looks at; `uniqueAnimals` is the raw CSV field. */
  datatype Clip = Clip(path: Path, title: string, animals: string, uniqueAnimals: string, multiple: bool)

  /** The message box a call leaves open, if any. */
  datatype Alert = NoAlert | InvalidDirectory | NoData | PlaybackError | DeleteError

  /** What a timer scheduled at the end of a clip does when it fires. */
  datatype Timer = Advance | HideOverlay

  /** The tab's state. `retired` lists the players a new clip replaced, in
      order; `trashed` the files moved to the trash; `status` the text of the
      video label; `pending` the timers not yet fired. */
  datatype Tab = Tab(
    clips: seq<Clip>,
    current: Option<nat>,
    player: Option<VP.Player>,
    retired: seq<VP.Player>,
    trashed: seq<Path>,
    overlay: bool,
    pending: seq<Timer>,
    status: string,
    alert: Alert,
    shortcutsEnabled: bool,
    searchFocus: bool)

  /** What the tab reads from outside when it acts: the file system, what the
      decoder opens for a path, the video frame's current size, the speed
      slider and the auto-play switch. */
  datatype Env = Env(
    fs: FileSystem,
    decode: Path -> VP.Capture,
    frameWidth: int,
    frameHeight: int,
    speed: real,
    autoPlay: bool)

  /** The tab as constructed: no clips, no player, shortcuts on. */
  function New(): Tab {
    Tab([], None, None, [], [], false, [], "", NoAlert, true, false)
  }

  function Max(a: int, b: int): int {
    if a < b then b else a
  }

  // ------------------------------------------------------------ clip list

  /** The extensions probed for a title, in order. */
  const Exts: seq<string> := [".mp4", ".MP4", ".mov", ".MOV"]

  predicate Probe(fs: FileSystem, dir: Path, title: string, ext: string) {
    Exists(fs, Slash(dir, title + ext))
  }

  /** Index of the first extension under which the title exists. */
  function FirstProbe(fs: FileSystem, dir: Path, title: string, exts: seq<string>): (r: Option<nat>)
    ensures r.Some? ==> r.value < |exts| && Probe(fs, dir, title, exts[r.value])
    ensures r.Some? ==> forall j :: 0 <= j < r.value ==> !Probe(fs, dir, title, exts[j])
    ensures r.None? ==> forall j :: 0 <= j < |exts| ==> !Probe(fs, dir, title, exts[j])
  {
    if |exts| == 0 then None
    else if Probe(fs, dir, title, exts[0]) then Some(0)
    else match FirstProbe(fs, dir, title, exts[1..])
      case None => None
      case Some(k) => Some(k + 1)
  }

  /** `_find_clip(title, dir, exts)`: the first existing `dir / (title + ext)`. */
  function FindClip(fs: FileSystem, dir: Path, title: string, exts: seq<string>): (r: Option<Path>)
    ensures r.Some? ==> Exists(fs, r.value)
    ensures r.None? <==> forall j :: 0 <= j < |exts| ==> !Probe(fs, dir, title, exts[j])
  {
    match FirstProbe(fs, dir, title, exts)
    case None => None
    case Some(k) => Some(Slash(dir, title + exts[k]))
  }

  /** The clip a row becomes once its file is found. */
  function ClipOf(row: Row, path: Path): (c: Clip)
    ensures c.animals != ""
    ensures c.uniqueAnimals != "" ==> c.animals == c.uniqueAnimals
    ensures c.multiple <==> row.multipleAnimals == "true"
  {
    Clip(path, row.videoTitle, if row.uniqueAnimals == "" then "none" else row.uniqueAnimals,
         row.uniqueAnimals, row.multipleAnimals == "true")
  }

  /** The clip list `_load_clips` builds: rows in CSV order, each row whose
      file is found becoming one clip, the others dropped. */
  function BuildClips(fs: FileSystem, dir: Path, rows: seq<Row>): (r: seq<Clip>)
    ensures |r| <= |rows|
    ensures forall i :: 0 <= i < |r| ==> Exists(fs, r[i].path) && r[i].animals != ""
  {
    if |rows| == 0 then []
    else
      match FindClip(fs, dir, rows[0].videoTitle, Exts)
      case None => BuildClips(fs, dir, rows[1..])
      case Some(p) => [ClipOf(rows[0], p)] + BuildClips(fs, dir, rows[1..])
  }

  /** Every clip comes from a row whose file was found under that path. */
  lemma {:induction false} BuildClipsSound(fs: FileSystem, dir: Path, rows: seq<Row>, c: Clip)
    requires c in BuildClips(fs, dir, rows)
    ensures exists row :: row in rows && FindClip(fs, dir, row.videoTitle, Exts) == Some(c.path) && c == ClipOf(row, c.path)
  {
    var found := FindClip(fs, dir, rows[0].videoTitle, Exts);
    if found.Some? && c == ClipOf(rows[0], found.value) {
      assert rows[0] in rows;
    } else {
      BuildClipsSound(fs, dir, rows[1..], c);
      var row :| row in rows[1..] && FindClip(fs, dir, row.videoTitle, Exts) == Some(c.path) && c == ClipOf(row, c.path);
      assert row in rows;
    }
  }

  /** Every row whose file is found yields its clip. */
  lemma {:induction false} BuildClipsComplete(fs: FileSystem, dir: Path, rows: seq<Row>, row: Row)
    requires row in rows && FindClip(fs, dir, row.videoTitle, Exts).Some?
    ensures ClipOf(row, FindClip(fs, dir, row.videoTitle, Exts).value) in BuildClips(fs, dir, rows)
  {
    if row != rows[0] {
      assert row in rows[1..] by {
        var k :| 0 <= k < |rows| && rows[k] == row;
        assert rows[1..][k - 1] == row;
      }
      BuildClipsComplete(fs, dir, rows[1..], row);
    }
  }

  /** Building keeps CSV order: the clips of two consecutive blocks of rows
      are the clips of the first block followed by those of the second. */
  lemma {:induction false} BuildClipsAppend(fs: FileSystem, dir: Path, a: seq<Row>, b: seq<Row>)
    ensures BuildClips(fs, dir, a + b) == BuildClips(fs, dir, a) + BuildClips(fs, dir, b)
  {
    if |a| > 0 {
      assert (a + b)[0] == a[0] && (a + b)[1..] == a[1..] + b;
      BuildClipsAppend(fs, dir, a[1..], b);
    } else {
      assert a + b == b;
    }
  }

  /** A row whose file is missing under every extension is dropped. */
  lemma DropsMissing(fs: FileSystem, dir: Path, rows: seq<Row>, row: Row)
    requires forall j :: 0 <= j < |Exts| ==> !Probe(fs, dir, row.videoTitle, Exts[j])
    ensures BuildClips(fs, dir, rows + [row]) == BuildClips(fs, dir, rows)
  {
    BuildClipsAppend(fs, dir, rows, [row]);
    assert [row][1..] == [];
  }

  /** `_load_clips()` for the clips directory `dir` whose summary CSV holds
      `rows`: the directory and the CSV must exist; the list is replaced and,
      when it is not empty, the first clip starts playing. */
  function LoadClips(t: Tab, env: Env, dir: Path, rows: seq<Row>): (r: Tab)
    ensures !Exists(env.fs, dir) ==> r == t.(alert := InvalidDirectory)
    ensures Exists(env.fs, dir) && !Exists(env.fs, Layout.SummaryCsv(dir)) ==> r == t.(alert := NoData)
    ensures Exists(env.fs, dir) && Exists(env.fs, Layout.SummaryCsv(dir)) ==>
      && r.clips == BuildClips(env.fs, dir, rows)
      && (|r.clips| > 0 ==> r.current == Some(0))
      && (|r.clips| == 0 ==> r.current == t.current && r.player == t.player)
  {
    if !Exists(env.fs, dir) then t.(alert := InvalidDirectory)
    else if !Exists(env.fs, Layout.SummaryCsv(dir)) then t.(alert := NoData)
    else
      var t1 := t.(clips := BuildClips(env.fs, dir, rows));
      if |t1.clips| == 0 then t1 else PlayAt(t1, env, 0)
  }

  /** `clip['animals'].replace('&', ', ').replace('_', ', ')`, cut to 25
      characters plus "..." when longer than 28. */
  function AnimalsDisplay(animals: string): (r: string)
    ensures |r| <= 28
    ensures '&' !in r && '_' !in r
    ensures var pretty := ReplaceChar(ReplaceChar(animals, '&', ", "), '_', ", ");
      && (|pretty| <= 28 ==> r == pretty)
      && (|pretty| > 28 ==> |r| == 28 && StartsWith(pretty, r[..25]) && EndsWith(r, "..."))
  {
    var pretty := ReplaceChar(ReplaceChar(animals, '&', ", "), '_', ", ");
    if |pretty| > 28 then pretty[..25] + "..." else pretty
  }

  /** An animals field without '&', '_' or a comma is shown as it is when it
      is short enough, so single names read unchanged. */
  lemma {:induction false} PlainNameShownAsIs(animals: string)
    requires '&' !in animals && '_' !in animals && |animals| <= 28
    ensures AnimalsDisplay(animals) == animals
  {
    ReplaceAbsent(animals, '&', ", ");
    ReplaceAbsent(animals, '_', ", ");
  }

  // ------------------------------------------------------------- playback

  /** Creates a player for `path`, loads it, sizes it to the video frame when
      the frame is laid out, applies the speed slider and starts it; the
      first call that raises ends the sequence. */
  function Launch(env: Env, path: Path): (r: VP.Outcome)
    ensures r.Returned? ==> r.state.running && r.state.position == 0 && r.state.completions == 0
    ensures r.Returned? <==> env.decode(path).isOpen && env.decode(path).width != 0 && env.decode(path).height != 0
    ensures VP.Inv(r.state)
  {
    var loaded := VP.LoadVideo(VP.New(), env.decode(path));
    if loaded.Raised? then loaded
    else
      var sized :=
        if env.frameWidth > 1
        then VP.SetContainerSize(loaded.state, Max(400, env.frameWidth - 20), Max(300, env.frameHeight - 20))
        else loaded;
      if sized.Raised? then sized
      else VP.Start(VP.SetSpeed(sized.state, env.speed))
  }

  /** The previous player, stopped, appended to the retired ones. */
  function Retire(t: Tab): (r: seq<VP.Player>)
    ensures |r| == |t.retired| + (if t.player.Some? then 1 else 0)
    ensures t.player.Some? ==> r[|r| - 1] == VP.Stop(t.player.value)
  {
    match t.player
    case Some(p) => t.retired + [VP.Stop(p)]
    case None => t.retired
  }

  /** `_play_clip(i)`: ignored outside `[0, len)`; otherwise stops the old
      player, makes `i` current and starts a fresh player, even when that
      raises (the index is already set and an error is shown). */
  function PlayAt(t: Tab, env: Env, i: int): (r: Tab)
    ensures i < 0 || i >= |t.clips| ==> r == t
    ensures 0 <= i < |t.clips| ==>
      && r.current == Some(i) && r.clips == t.clips && r.trashed == t.trashed && r.pending == t.pending
      && r.retired == Retire(t) && r.player.Some? && r.player.value.cap.Some?
      && (r.player.value.running <==> Launch(env, t.clips[i].path).Returned?)
      && r.alert == (if Launch(env, t.clips[i].path).Returned? then t.alert else PlaybackError)
  {
    if i < 0 || i >= |t.clips| then t
    else
      var launched := Launch(env, t.clips[i].path);
      t.(current := Some(i), player := Some(launched.state), retired := Retire(t),
         alert := if launched.Raised? then PlaybackError else t.alert)
  }

  /** `_next_clip()`: hides the overlay; with a current clip, plays the next
      one, or at the end of the list stops the player and says so. */
  function Next(t: Tab, env: Env): (r: Tab)
    ensures !r.overlay
    ensures r.clips == t.clips && r.pending == t.pending
    ensures t.current.None? || |t.clips| == 0 ==> r == t.(overlay := false)
    ensures t.current.Some? && t.current.value + 1 < |t.clips| ==> r.current == Some(t.current.value + 1)
    ensures t.current.Some? && |t.clips| > 0 && t.current.value + 1 >= |t.clips| ==>
      r.current == t.current && (r.player.Some? ==> !r.player.value.running) && r.status == "End of clip list"
  {
    var t0 := t.(overlay := false);
    if t0.current.None? || |t0.clips| == 0 then t0
    else if t0.current.value + 1 < |t0.clips| then PlayAt(t0, env, t0.current.value + 1)
    else
      t0.(player := if t0.player.Some? then Some(VP.Stop(t0.player.value)) else None, status := "End of clip list")
  }

  /** `_previous_clip()`: hides the overlay; plays the previous clip when
      there is one, and never wraps. */
  function Previous(t: Tab, env: Env): (r: Tab)
    ensures !r.overlay
    ensures r.clips == t.clips
    ensures t.current.Some? && 1 <= t.current.value <= |t.clips| ==> r.current == Some(t.current.value - 1)
    ensures t.current.None? || t.current.value == 0 || t.current.value > |t.clips| ==> r == t.(overlay := false)
  {
    var t0 := t.(overlay := false);
    if t0.current.None? || |t0.clips| == 0 then t0
    else if t0.current.value - 1 >= 0 then PlayAt(t0, env, t0.current.value - 1)
    else t0
  }

  /** The list without its `d`-th element. */
  function RemoveAt<T>(s: seq<T>, d: nat): (r: seq<T>)
    requires d < |s|
    ensures |r| == |s| - 1
    ensures forall k :: 0 <= k < d ==> r[k] == s[k]
    ensures forall k :: d <= k < |r| ==> r[k] == s[k + 1]
  {
    s[..d] + s[d + 1..]
  }

  /** `_delete_clip()` with the user's answer `confirm` and whether moving
      the file to the trash succeeds. Confirmed: the player is stopped first;
      a failed move shows an error and leaves the list alone; a successful one
      removes the current clip and plays the one now at its place (or the new
      last one), or clears the index when none is left. */
  function Delete(t: Tab, env: Env, confirm: bool, trashOk: bool): (r: Tab)
    ensures t.current.None? || t.current.value >= |t.clips| || !confirm ==> r == t
    ensures t.current.Some? && t.current.value < |t.clips| && confirm && !trashOk ==>
      && r.clips == t.clips && r.current == t.current && r.alert == DeleteError && r.trashed == t.trashed
      && (r.player.Some? ==> !r.player.value.running)
    ensures t.current.Some? && t.current.value < |t.clips| && confirm && trashOk ==>
      var d := t.current.value;
      && r.clips == RemoveAt(t.clips, d)
      && r.trashed == t.trashed + [t.clips[d].path]
      && (|r.clips| == 0 ==> r.current.None? && r.status == "No more clips to review")
      && (|r.clips| > 0 ==> r.current == Some(if d < |r.clips| then d else |r.clips| - 1))
  {
    if t.current.None? || t.current.value >= |t.clips| || !confirm then t
    else
      var d := t.current.value;
      var t1 := Halt(t);
      if !trashOk then t1.(alert := DeleteError)
      else
        Reselect(t1.(clips := RemoveAt(t.clips, d), trashed := t.trashed + [t.clips[d].path]), env, d)
  }

  /** The current player, if any, stopped; nothing else changes. */
  function Halt(t: Tab): (r: Tab)
    ensures r == t.(player := r.player)
    ensures r.player.Some? <==> t.player.Some?
    ensures r.player.Some? ==> !r.player.value.running
  {
    t.(player := if t.player.Some? then Some(VP.Stop(t.player.value)) else None)
  }

  /** After a clip at `d` is gone: play the clip now at its place, or the
      new last one, or clear the index when none is left. */
  function Reselect(t: Tab, env: Env, d: nat): (r: Tab)
    ensures r.clips == t.clips && r.trashed == t.trashed
    ensures |t.clips| == 0 ==> r.current.None? && r.status == "No more clips to review"
    ensures |t.clips| > 0 ==> r.current == Some(if d < |t.clips| then d else |t.clips| - 1)
  {
    if |t.clips| == 0 then t.(current := None, status := "No more clips to review")
    else PlayAt(t, env, if d < |t.clips| then d else |t.clips| - 1)
  }

  /** `_toggle_pause()` */
  function TogglePause(t: Tab): (r: Tab)
    ensures t.player.None? ==> r == t
    ensures t.player.Some? ==> r.player.Some? && r.player.value.paused != t.player.value.paused
    ensures r.clips == t.clips && r.current == t.current
  {
    match t.player
    case None => t
    case Some(p) => t.(player := Some(VP.TogglePause(p)))
  }

  /** `_stop_playback()` */
  function StopPlayback(t: Tab): (r: Tab)
    ensures t.player.None? ==> r == t
    ensures t.player.Some? ==> r.player.Some? && !r.player.value.running && r.player.value.cap.None?
    ensures r.clips == t.clips && r.current == t.current
  {
    match t.player
    case None => t
    case Some(p) => t.(player := Some(VP.Stop(p)), status := "Playback stopped\nSelect a clip to resume")
  }

  /** `_update_speed(m)`: passes the slider value on to the player. */
  function UpdateSpeed(t: Tab, m: real): (r: Tab)
    ensures t.player.None? ==> r == t
    ensures t.player.Some? ==> r.player == Some(VP.SetSpeed(t.player.value, m))
    ensures t.player.Some? ==> r.player.Some? && r.player.value.speed >= 0.1
    ensures r == t.(player := r.player)
  {
    match t.player
    case None => t
    case Some(p) => t.(player := Some(VP.SetSpeed(p, m)))
  }

  /** Moving the slider twice leaves the player as the second value alone
      would: only the last value counts. */
  lemma LastSpeedWins(t: Tab, a: real, b: real)
    ensures UpdateSpeed(UpdateSpeed(t, a), b) == UpdateSpeed(t, b)
  {
  }

  /** `_on_video_frame_resize` for a frame of `w` by `h` pixels. */
  function FrameResized(t: Tab, w: int, h: int): (r: Tab)
    ensures t.player.None? || w <= 1 || h <= 1 ==> r == t
    ensures r.clips == t.clips && r.current == t.current
  {
    if t.player.Some? && w > 1 && h > 1
    then t.(player := Some(VP.SetContainerSize(t.player.value, Max(400, w - 20), Max(300, h - 20)).state))
    else t
  }

  // -------------------------------------------------------------- search

  /** A clip is listed under the query when the query is empty or, in lower
      case, occurs in the lower-cased title or the lower-cased `animals`. */
  predicate Visible(c: Clip, query: string) {
    var q := Lower(query);
    q == "" || Contains(Lower(c.title), q) || Contains(Lower(c.animals), q)
  }

  /** `_on_search_changed()`: which list entries are shown. The clip list is
      a parameter and is not returned, so it cannot change. */
  function Visibility(clips: seq<Clip>, query: string): (r: seq<bool>)
    ensures |r| == |clips|
    ensures forall i :: 0 <= i < |r| ==> (r[i] <==> Visible(clips[i], query))
  {
    seq(|clips|, i requires 0 <= i < |clips| => Visible(clips[i], query))
  }

  /** The number of clips shown under the query. */
  function MatchCount(clips: seq<Clip>, query: string): (n: nat)
    ensures n <= |clips|
  {
    if |clips| == 0 then 0
    else (if Visible(clips[0], query) then 1 else 0) + MatchCount(clips[1..], query)
  }

  function CountTrue(s: seq<bool>): nat {
    if |s| == 0 then 0 else (if s[0] then 1 else 0) + CountTrue(s[1..])
  }

  /** The match count is the number of entries the filter shows. */
  lemma {:induction false} MatchCountIsShown(clips: seq<Clip>, query: string)
    ensures MatchCount(clips, query) == CountTrue(Visibility(clips, query))
  {
    if |clips| > 0 {
      MatchCountIsShown(clips[1..], query);
      assert Visibility(clips, query)[1..] == Visibility(clips[1..], query);
    }
  }

  /** With an empty query every clip is shown. */
  lemma {:induction false} EmptyQueryShowsAll(clips: seq<Clip>)
    ensures MatchCount(clips, "") == |clips|
  {
    if |clips| > 0 {
      EmptyQueryShowsAll(clips[1..]);
    }
  }

  /** The text of the match-count label: empty for an empty query, else
      "<matches> of <total> clips". */
  function CountLabel(clips: seq<Clip>, query: string): (r: string)
    ensures r == "" <==> query == ""
    ensures query != "" ==> var w := Split(r, ' ');
      && |w| == 4 && w[1] == "of" && w[3] == "clips"
      && ParseInt(w[0]) == Some(MatchCount(clips, query))
      && ParseInt(w[2]) == Some(|clips|)
  {
    if Lower(query) == "" then ""
    else
      var m := NatToString(MatchCount(clips, query));
      var t := NatToString(|clips|);
      CountWords(m, t);
      NonNegativeRoundTrip(MatchCount(clips, query));
      NonNegativeRoundTrip(|clips|);
      m + " of " + t + " clips"
  }

  /** The label's four words, read back by splitting on spaces. */
  lemma CountWords(m: string, t: string)
    requires ' ' !in m && ' ' !in t && |m| > 0 && |t| > 0
    ensures Split(m + " of " + t + " clips", ' ') == [m, "of", t, "clips"]
  {
    var parts := [m, "of", t, "clips"];
    assert Join(parts[2..], ' ') == t + " clips" by {
      assert parts[2..][1..] == ["clips"];
    }
    assert Join(parts[1..], ' ') == "of " + t + " clips" by {
      assert parts[1..][1..] == parts[2..];
    }
    assert Join(parts, ' ') == m + " of " + t + " clips";
    SplitJoin(parts, ' ');
  }

  /** Lowest index whose lower-cased title contains the lower-cased query. */
  function FirstTitleMatch(clips: seq<Clip>, query: string): (r: Option<nat>)
    ensures r.Some? ==> r.value < |clips| && Contains(Lower(clips[r.value].title), Lower(query))
    ensures r.Some? ==> forall j :: 0 <= j < r.value ==> !Contains(Lower(clips[j].title), Lower(query))
    ensures r.None? ==> forall j :: 0 <= j < |clips| ==> !Contains(Lower(clips[j].title), Lower(query))
  {
    if |clips| == 0 then None
    else if Contains(Lower(clips[0].title), Lower(query)) then Some(0)
    else match FirstTitleMatch(clips[1..], query)
      case None => None
      case Some(k) => Some(k + 1)
  }

  /** `_jump_to_first_match()`: plays the first clip whose title matches;
      animals are not consulted, and with no match nothing happens. */
  function JumpToFirstMatch(t: Tab, env: Env, query: string): (r: Tab)
    ensures FirstTitleMatch(t.clips, query).None? ==> r == t
    ensures FirstTitleMatch(t.clips, query).Some? ==> r.current == FirstTitleMatch(t.clips, query)
  {
    match FirstTitleMatch(t.clips, query)
    case None => t
    case Some(i) => PlayAt(t, env, i)
  }

  /** An empty query matches the first clip, so Return in an empty search box
      plays clip 0. */
  lemma EmptyJumpPlaysFirst(t: Tab, env: Env)
    requires |t.clips| > 0
    ensures JumpToFirstMatch(t, env, "").current == Some(0)
  {
    ContainsEmpty(Lower(t.clips[0].title));
  }

  // ------------------------------------------------------------ shortcuts

  /** `_should_execute_shortcut()` */
  predicate ShouldExecuteShortcut(t: Tab) {
    t.shortcutsEnabled && !t.searchFocus
  }

  function SearchFocusIn(t: Tab): Tab {
    t.(searchFocus := true)
  }

  function SearchFocusOut(t: Tab): Tab {
    t.(searchFocus := false)
  }

  function ShortcutsToggled(t: Tab, on: bool): Tab {
    t.(shortcutsEnabled := on)
  }

  /** While the search box has focus no shortcut runs; once it loses focus
      they run exactly when enabled. */
  lemma ShortcutGating(t: Tab, on: bool)
    ensures !ShouldExecuteShortcut(SearchFocusIn(t))
    ensures ShouldExecuteShortcut(SearchFocusOut(t)) <==> t.shortcutsEnabled
    ensures ShouldExecuteShortcut(ShortcutsToggled(t, on)) <==> on && !t.searchFocus
  {
  }

  // -------------------------------------------------------- end of a clip

  /** `_on_video_complete()`: shows the overlay and schedules either an
      advance (auto-play on) or only hiding the overlay. Nothing cancels a
      scheduled timer. */
  function OnVideoComplete(t: Tab, env: Env): (r: Tab)
    ensures r.overlay
    ensures r.pending == t.pending + [if env.autoPlay then Advance else HideOverlay]
    ensures r.clips == t.clips && r.current == t.current
  {
    t.(overlay := true, pending := t.pending + [if env.autoPlay then Advance else HideOverlay])
  }

  /** The `k`-th pending timer fires: both kinds hide the overlay, an advance
      then moves to the next clip. */
  function FireTimer(t: Tab, env: Env, k: nat): (r: Tab)
    ensures k >= |t.pending| ==> r == t
    ensures k < |t.pending| && t.pending[k] == HideOverlay ==> r == t.(overlay := false, pending := RemoveAt(t.pending, k))
    ensures k < |t.pending| && t.pending[k] == Advance ==>
      r == Next(t.(overlay := false, pending := RemoveAt(t.pending, k)), env)
  {
    if k >= |t.pending| then t
    else
      var t1 := t.(overlay := false, pending := RemoveAt(t.pending, k));
      if t.pending[k] == Advance then Next(t1, env) else t1
  }

  /** One pass of the current player's loop; a completion it signals runs
      the end-of-clip handler. */
  function PlayerPass(t: Tab, env: Env): (r: Tab)
    ensures t.player.None? ==> r == t
    ensures r.clips == t.clips && r.current == t.current
  {
    match t.player
    case None => t
    case Some(p) =>
      var q := VP.Tick(p);
      var t1 := t.(player := Some(q));
      if q.completions > p.completions then OnVideoComplete(t1, env) else t1
  }

  /** A timer scheduled by an earlier clip still advances after the user has
      moved on by hand, so the move and the timer together skip a clip. */
  lemma StaleAdvanceSkips(t: Tab, env: Env, c: nat)
    requires t.current == Some(c) && c + 2 < |t.clips|
    requires |t.pending| == 1 && t.pending[0] == Advance
    ensures FireTimer(Next(t, env), env, 0).current == Some(c + 2)
  {
    var t1 := Next(t, env);
    assert t1.current == Some(c + 1) && t1.pending == t.pending;
    FireAdvance(t1, env, 0);
  }

  /** A pending advance, when it fires, is dropped and moves to the next
      clip. */
  lemma FireAdvance(t: Tab, env: Env, k: nat)
    requires k < |t.pending| && t.pending[k] == Advance
    ensures FireTimer(t, env, k) == Next(t.(overlay := false, pending := RemoveAt(t.pending, k)), env)
  {
  }

  // ---------------------------------------------------------- invariants

  /** The index points into a non-empty list, and every replaced player has
      been stopped. */
  predicate Inv(t: Tab) {
    && (t.current.Some? && |t.clips| > 0 ==> t.current.value < |t.clips|)
    && RetiredStopped(t)
  }

  predicate RetiredStopped(t: Tab) {
    forall k :: 0 <= k < |t.retired| ==> !t.retired[k].running
  }

  lemma NewInv()
    ensures Inv(New()) && ShouldExecuteShortcut(New())
  {
  }

  /** What the user or the event loop can do on the tab. */
  datatype Key = NextKey | PreviousKey | DeleteKey(confirm: bool, trashOk: bool) | SpaceKey | QuitKey

  datatype Action =
    | Load(dir: Path, rows: seq<Row>)
    | Click(i: int)
    | Pressed(key: Key)
    | Jump(query: string)
    | SpeedSlider(m: real)
    | Resize(w: int, h: int)
    | FocusIn
    | FocusOut
    | ShortcutsSwitch(on: bool)
    | Pass
    | Fire(k: nat)

  /** A keyboard shortcut runs only when shortcuts may execute. */
  function PressKey(t: Tab, env: Env, k: Key): (r: Tab)
    ensures !ShouldExecuteShortcut(t) ==> r == t
  {
    if !ShouldExecuteShortcut(t) then t
    else match k
      case NextKey => Next(t, env)
      case PreviousKey => Previous(t, env)
      case DeleteKey(confirm, ok) => Delete(t, env, confirm, ok)
      case SpaceKey => TogglePause(t)
      case QuitKey => StopPlayback(t)
  }

  function Apply(t: Tab, env: Env, a: Action): Tab {
    match a
    case Load(dir, rows) => LoadClips(t, env, dir, rows)
    case Click(i) => PlayAt(t, env, i)
    case Pressed(k) => PressKey(t, env, k)
    case Jump(q) => JumpToFirstMatch(t, env, q)
    case SpeedSlider(m) => UpdateSpeed(t, m)
    case Resize(w, h) => FrameResized(t, w, h)
    case FocusIn => SearchFocusIn(t)
    case FocusOut => SearchFocusOut(t)
    case ShortcutsSwitch(on) => ShortcutsToggled(t, on)
    case Pass => PlayerPass(t, env)
    case Fire(k) => FireTimer(t, env, k)
  }

  /** Runs a sequence of actions, each in the environment current at its time. */
  function Run(t: Tab, steps: seq<(Env, Action)>): Tab
    decreases |steps|
  {
    if |steps| == 0 then t else Run(Apply(t, steps[0].0, steps[0].1), steps[1..])
  }

  lemma RetireInv(t: Tab)
    requires RetiredStopped(t)
    ensures forall k :: 0 <= k < |Retire(t)| ==> !Retire(t)[k].running
  {
  }

  lemma PlayAtInv(t: Tab, env: Env, i: int)
    requires RetiredStopped(t) && (0 <= i < |t.clips| || Inv(t))
    ensures Inv(PlayAt(t, env, i))
  {
    RetireInv(t);
  }

  lemma NextInv(t: Tab, env: Env)
    requires Inv(t)
    ensures Inv(Next(t, env))
  {
    PlayAtInv(t.(overlay := false), env, if t.current.Some? then t.current.value + 1 else 0);
  }

  lemma PreviousInv(t: Tab, env: Env)
    requires Inv(t)
    ensures Inv(Previous(t, env))
  {
    if t.current.Some? {
      PlayAtInv(t.(overlay := false), env, t.current.value - 1);
    }
  }

  lemma DeleteInv(t: Tab, env: Env, confirm: bool, trashOk: bool)
    requires Inv(t)
    ensures Inv(Delete(t, env, confirm, trashOk))
  {
    if t.current.Some? && t.current.value < |t.clips| && confirm && trashOk {
      var d := t.current.value;
      var t1 := Halt(t);
      var t2 := t1.(clips := RemoveAt(t.clips, d), trashed := t.trashed + [t.clips[d].path]);
      ReselectInv(t2, env, d);
    }
  }

  lemma ReselectInv(t: Tab, env: Env, d: nat)
    requires RetiredStopped(t)
    ensures Inv(Reselect(t, env, d))
  {
    if |t.clips| > 0 {
      PlayAtInv(t, env, if d < |t.clips| then d else |t.clips| - 1);
    }
  }

  lemma ApplyInv(t: Tab, env: Env, a: Action)
    requires Inv(t)
    ensures Inv(Apply(t, env, a))
  {
    match a
    case Load(dir, rows) => LoadInv(t, env, dir, rows);
    case Click(i) => PlayAtInv(t, env, i);
    case Pressed(k) => PressKeyInv(t, env, k);
    case Jump(q) =>
      if FirstTitleMatch(t.clips, q).Some? {
        PlayAtInv(t, env, FirstTitleMatch(t.clips, q).value);
      }
    case SpeedSlider(m) =>
    case Resize(w, h) =>
    case FocusIn =>
    case FocusOut =>
    case ShortcutsSwitch(on) =>
    case Pass =>
    case Fire(k) => FireInv(t, env, k);
  }

  lemma LoadInv(t: Tab, env: Env, dir: Path, rows: seq<Row>)
    requires Inv(t)
    ensures Inv(LoadClips(t, env, dir, rows))
  {
    if Exists(env.fs, dir) && Exists(env.fs, Layout.SummaryCsv(dir)) {
      var t1 := t.(clips := BuildClips(env.fs, dir, rows));
      if |t1.clips| > 0 {
        PlayAtInv(t1, env, 0);
      }
    }
  }

  lemma PressKeyInv(t: Tab, env: Env, k: Key)
    requires Inv(t)
    ensures Inv(PressKey(t, env, k))
  {
    if ShouldExecuteShortcut(t) {
      match k
      case NextKey => NextInv(t, env);
      case PreviousKey => PreviousInv(t, env);
      case DeleteKey(confirm, ok) => DeleteInv(t, env, confirm, ok);
      case SpaceKey =>
      case QuitKey =>
    }
  }

  lemma FireInv(t: Tab, env: Env, k: nat)
    requires Inv(t)
    ensures Inv(FireTimer(t, env, k))
  {
    if k < |t.pending| && t.pending[k] == Advance {
      NextInv(t.(overlay := false, pending := RemoveAt(t.pending, k)), env);
    }
  }

  /** Whatever the user and the event loop do, the index stays in range
      whenever there are clips, and no replaced player keeps running. */
  lemma {:induction false} RunInv(t: Tab, steps: seq<(Env, Action)>)
    requires Inv(t)
    ensures Inv(Run(t, steps))
    decreases |steps|
  {
    if |steps| > 0 {
      ApplyInv(t, steps[0].0, steps[0].1);
      RunInv(Apply(t, steps[0].0, steps[0].1), steps[1..]);
    }
  }
}

=== FILE: run_pipeline.dfy ===
/** The command-line pipeline runner: its default paths, the three steps
    (extract frames, classify frames, summarise videos) with their
    skip-if-output-exists decisions, the command line of each step, and the
    abort on a failing step. A child process is a function from its command
    line and the file system to its exit code and the file system it
    leaves. */
module RunPipeline {
  import opened Options
  import opened Strings
  import opened Paths
  import ExtractFrames
  import ClassifyFrames

  /** The parsed options; an empty string is an option not given. */
  datatype Args = Args(
    clipsDir: string,
    framesDir: string,
    detectionDir: string,
    framesPerClip: int,
    framesWorkers: int,
    classifyWorkers: int,
    exts: string,
    force: bool)

  /** The options when none is given on the command line. */
  const Defaults: Args := Args("clips", "", "", 4, 4, 4, ".mp4,.MP4", false)

  /** The options that take a value, in the order `parse_args` declares
      them. */
  const ValueFlags: seq<string> := ["--clips_dir", "--frames_dir", "--detection_dir",
    "--frames_per_clip", "--frames_workers", "--classify_workers", "--exts"]

  /** A token argparse accepts as an option's value: one that does not
      start with '-', or a negative integer. */
  predicate IsValueToken(t: string) {
    |t| == 0 || t[0] != '-' || IsDigits(t[1..])
  }

  /** One `--flag value` pair applied to the options read so far; `None` is
      the usage error for a value `int()` rejects. */
  function SetOption(a: Args, flag: string, value: string): (r: Option<Args>)
    requires flag in ValueFlags
    ensures r.Some? ==> r.value.force == a.force
    ensures r.None? <==> flag in ValueFlags[3..6] && ParseInt(value).None?
  {
    if flag == "--clips_dir" then Some(a.(clipsDir := value))
    else if flag == "--frames_dir" then Some(a.(framesDir := value))
    else if flag == "--detection_dir" then Some(a.(detectionDir := value))
    else if flag == "--exts" then Some(a.(exts := value))
    else
      match ParseInt(value)
      case None => None
      case Some(n) =>
        if flag == "--frames_per_clip" then Some(a.(framesPerClip := n))
        else if flag == "--frames_workers" then Some(a.(framesWorkers := n))
        else Some(a.(classifyWorkers := n))
  }

  /** argparse over the remaining tokens, from the options read so far: a
      later occurrence of an option overrides an earlier one, and an unknown
      token, a missing value or a bad number is a usage error (`None`). */
  function ParseFrom(argv: seq<string>, a: Args): (r: Option<Args>)
    ensures r.Some? ==> (r.value.force <==> a.force || "--force" in argv)
    decreases |argv|
  {
    if |argv| == 0 then Some(a)
    else if argv[0] == "--force" then
      assert argv == [argv[0]] + argv[1..];
      ParseFrom(argv[1..], a.(force := true))
    else if argv[0] in ValueFlags && |argv| > 1 && IsValueToken(argv[1]) then
      assert argv == [argv[0], argv[1]] + argv[2..];
      assert "--force" in argv <==> "--force" in argv[2..] by {
        assert ("--force"[1..])[0] == '-';
        assert !IsValueToken("--force") && "--force" !in ValueFlags;
        assert argv[0] != "--force" && argv[1] != "--force";
        assert forall x :: x in argv <==> x == argv[0] || x == argv[1] || x in argv[2..];
      }
      match SetOption(a, argv[0], argv[1])
      case None => None
      case Some(a') => ParseFrom(argv[2..], a')
    else None
  }

  /** One step of argparse at an option that takes a value. */
  lemma ParseStep(argv: seq<string>, a: Args)
    requires |argv| > 1 && argv[0] in ValueFlags
    ensures ParseFrom(argv, a) == (
      if !IsValueToken(argv[1]) then None
      else match SetOption(a, argv[0], argv[1])
        case None => None
        case Some(b) => ParseFrom(argv[2..], b))
  {
    assert "--force" !in ValueFlags;
  }

  /** `parse_args()` over `sys.argv[1:]`. */
  function ParseArgs(argv: seq<string>): Option<Args> {
    ParseFrom(argv, Defaults)
  }

  function ClipsDir(a: Args): Path {
    FromStr(a.clipsDir)
  }

  /** `--frames_dir`, by default `frames` beside the clips directory. */
  function FramesDir(a: Args): (p: Path)
    ensures a.framesDir != "" ==> p == FromStr(a.framesDir)
    ensures a.framesDir == "" ==> Parent(p) == Parent(ClipsDir(a)) && Name(p) == "frames"
  {
    ParentOfChild(Parent(ClipsDir(a)), "frames");
    if a.framesDir != "" then FromStr(a.framesDir) else Child(Parent(ClipsDir(a)), "frames")
  }

  /** `--detection_dir`, by default `detection_csvs` beside the frames
      directory. */
  function DetectionDir(a: Args): (p: Path)
    ensures a.detectionDir != "" ==> p == FromStr(a.detectionDir)
    ensures a.detectionDir == "" ==> Parent(p) == Parent(FramesDir(a)) && Name(p) == "detection_csvs"
  {
    ParentOfChild(Parent(FramesDir(a)), "detection_csvs");
    if a.detectionDir != "" then FromStr(a.detectionDir) else Child(Parent(FramesDir(a)), "detection_csvs")
  }

  function AnimalCsv(a: Args): Path {
    Child(DetectionDir(a), "animal_predictions.csv")
  }

  function SummaryCsv(a: Args): Path {
    Child(DetectionDir(a), "animals_in_videos.csv")
  }

  /** With no paths given, everything lands beside the clips directory:
      frames in `frames`, the CSV files in `detection_csvs`. */
  lemma DefaultLayout(a: Args)
    requires a.framesDir == "" && a.detectionDir == ""
    ensures FramesDir(a) == Child(Parent(ClipsDir(a)), "frames")
    ensures DetectionDir(a) == Child(Parent(ClipsDir(a)), "detection_csvs")
    ensures Parent(Parent(AnimalCsv(a))) == Parent(ClipsDir(a))
    ensures Parent(SummaryCsv(a)) == Parent(AnimalCsv(a))
  {
    ParentOfChild(Parent(ClipsDir(a)), "frames");
    ParentOfChild(DetectionDir(a), "animal_predictions.csv");
    ParentOfChild(DetectionDir(a), "animals_in_videos.csv");
    ParentOfChild(Parent(ClipsDir(a)), "detection_csvs");
  }

  /** A generator object such as `frames_dir.glob(p)`: it yields the matches
      lazily and defines neither `__bool__` nor `__len__`. */
  datatype GlobGenerator = GlobGenerator(dir: Path, pattern: string)

  /** Python's truth value of a generator object, which does not look at
      what it would yield. */
  predicate Truthy(g: GlobGenerator) {
    true
  }

  /** `any_frames_exist(frames_dir)` as written: `any` over the generator
      objects themselves. */
  predicate AnyFramesExistAsWritten(fs: FileSystem, dir: Path) {
    exists i :: 0 <= i < |ClassifyFrames.FramePatterns| && Truthy(GlobGenerator(dir, ClassifyFrames.FramePatterns[i]))
  }

  /** As written the check holds for every directory, so existing frames
      are never what skips extraction. */
  lemma AsWrittenAlwaysTrue(fs: FileSystem, dir: Path)
    ensures AnyFramesExistAsWritten(fs, dir)
    ensures AnyFramesExistAsWritten(FileSystem([]), dir) && !AnyFramesExist(FileSystem([]), dir)
  {
    assert Truthy(GlobGenerator(dir, ClassifyFrames.FramePatterns[0]));
    forall i | 0 <= i < |ClassifyFrames.FramePatterns| ensures Glob(FileSystem([]), dir, FrameSuffix(i)) == [] {
    }
  }

  /** The suffix the `i`-th frame pattern matches. */
  function FrameSuffix(i: nat): string
    requires i < |ClassifyFrames.FramePatterns|
  {
    ClassifyFrames.FramePatterns[i][1..]
  }

  lemma FrameSuffixes()
    ensures |ClassifyFrames.FramePatterns| == 3
    ensures FrameSuffix(0) == ".jpg" && FrameSuffix(1) == ".jpeg" && FrameSuffix(2) == ".png"
  {
  }

  /** `any_frames_exist` as evidently intended: some pattern has a
      match. */
  predicate AnyFramesExist(fs: FileSystem, dir: Path) {
    exists i :: 0 <= i < |ClassifyFrames.FramePatterns| && Glob(fs, dir, FrameSuffix(i)) != []
  }

  /** The corrected check holds exactly when the directory holds a `.jpg`,
      `.jpeg` or `.png` file. */
  lemma AnyFramesExistIff(fs: FileSystem, dir: Path)
    ensures AnyFramesExist(fs, dir) <==>
      exists n :: Child(dir, n) in fs.entries && (EndsWith(n, ".jpg") || EndsWith(n, ".jpeg") || EndsWith(n, ".png"))
  {
    FrameSuffixes();
    if AnyFramesExist(fs, dir) {
      var i :| 0 <= i < |ClassifyFrames.FramePatterns| && Glob(fs, dir, FrameSuffix(i)) != [];
      var g := Glob(fs, dir, FrameSuffix(i));
      assert g[0] in g;
    }
    if exists n :: Child(dir, n) in fs.entries && (EndsWith(n, ".jpg") || EndsWith(n, ".jpeg") || EndsWith(n, ".png")) {
      var n :| Child(dir, n) in fs.entries && (EndsWith(n, ".jpg") || EndsWith(n, ".jpeg") || EndsWith(n, ".png"));
      var i := if EndsWith(n, ".jpg") then 0 else if EndsWith(n, ".jpeg") then 1 else 2;
      assert n in Glob(fs, dir, FrameSuffix(i));
    }
  }

  datatype Step = Extract | Classify | Summarize

  /** The steps in the order `main` takes them. */
  const Steps: seq<Step> := [Extract, Classify, Summarize]

  function Rank(s: Step): nat {
    match s
    case Extract => 0
    case Classify => 1
    case Summarize => 2
  }

  /** Whether `main` runs a step on the file system as it finds it. */
  predicate ShouldRun(a: Args, fs: FileSystem, s: Step) {
    match s
    case Extract => a.force || !AnyFramesExist(fs, FramesDir(a))
    case Classify => a.force || !Exists(fs, AnimalCsv(a))
    case Summarize => a.force || !Exists(fs, SummaryCsv(a))
  }

  /** The decision for the extraction step as written, with the generator
      objects in place of the corrected check. */
  predicate ShouldExtractAsWritten(a: Args, fs: FileSystem) {
    a.force || !AnyFramesExistAsWritten(fs, FramesDir(a))
  }

  /** As written, extraction runs exactly when `--force` is given. */
  lemma ExtractOnlyWhenForced(a: Args, fs: FileSystem)
    ensures ShouldExtractAsWritten(a, fs) <==> a.force
  {
    AsWrittenAlwaysTrue(fs, FramesDir(a));
  }

  /** The script each step runs. */
  function Script(s: Step): string {
    match s
    case Extract => "extract_frames.py"
    case Classify => "classify_frames.py"
    case Summarize => "summarize_videos.py"
  }

  /** The value the `--flag value` pairs of a command line give `flag`
      (the first occurrence), as the child's argparse would read it when
      the flag occurs once. */
  function FlagValue(pairs: seq<string>, flag: string): Option<string>
    decreases |pairs|
  {
    if |pairs| < 2 then None
    else if pairs[0] == flag then Some(pairs[1])
    else FlagValue(pairs[2..], flag)
  }

  /** The command line of a step; `python` is `sys.executable`. */
  function Command(a: Args, python: string, s: Step): (cmd: seq<string>)
    ensures |cmd| >= 2 && cmd[0] == python && cmd[1] == Script(s)
    ensures cmd[2..] == StepArgs(a, s)
  {
    [python, Script(s)] + StepArgs(a, s)
  }

  /** The `--flag value` pairs a step's script is given: every flag is
      followed by its value, and each step is handed the directories and
      numbers `main` settled on (ExtractCommand, ClassifyCommand,
      SummarizeCommand). */
  function StepArgs(a: Args, s: Step): seq<string> {
    match s
    case Extract =>
      ["--input_dir", ToStr(ClipsDir(a)),
       "--output_dir", ToStr(FramesDir(a)),
       "--frames_per_clip", IntToString(a.framesPerClip),
       "--workers", IntToString(a.framesWorkers),
       "--exts", a.exts]
    case Classify =>
      ["--frames_dir", ToStr(FramesDir(a)),
       "--csv_output_dir", ToStr(DetectionDir(a)),
       "--workers", IntToString(a.classifyWorkers)]
    case Summarize =>
      ["--input_csv", ToStr(AnimalCsv(a)),
       "--output_csv", ToStr(SummaryCsv(a))]
  }

  /** A pair in front: its flag reads its value, any other flag reads on. */
  lemma FlagValueCons(f: string, v: string, rest: seq<string>, g: string)
    ensures FlagValue([f, v] + rest, g) == if f == g then Some(v) else FlagValue(rest, g)
  {
    assert ([f, v] + rest)[2..] == rest;
  }

  /** Extraction is handed the clips directory, the frames directory, the
      frame count, its worker count and the patterns. */
  lemma ExtractCommand(a: Args, python: string)
    ensures var args := Command(a, python, Extract)[2..];
      && FlagValue(args, "--input_dir") == Some(ToStr(ClipsDir(a)))
      && FlagValue(args, "--output_dir") == Some(ToStr(FramesDir(a)))
      && FlagValue(args, "--frames_per_clip") == Some(IntToString(a.framesPerClip))
      && FlagValue(args, "--workers") == Some(IntToString(a.framesWorkers))
      && FlagValue(args, "--exts") == Some(a.exts)
  {
    var p3 := ExtractTail(a);
    var p4 := ["--output_dir", ToStr(FramesDir(a))] + p3;
    var p5 := ["--input_dir", ToStr(ClipsDir(a))] + p4;
    assert StepArgs(a, Extract) == p5;
    FlagValueCons("--input_dir", ToStr(ClipsDir(a)), p4, "--input_dir");
    FlagValueCons("--input_dir", ToStr(ClipsDir(a)), p4, "--output_dir");
    FlagValueCons("--output_dir", ToStr(FramesDir(a)), p3, "--output_dir");
    ExtractTailShift(a, p3, p4, p5);
  }

  /** The two leading pairs of the extraction command do not hide its last
      three. */
  lemma ExtractTailShift(a: Args, p3: seq<string>, p4: seq<string>, p5: seq<string>)
    requires p3 == ExtractTail(a)
    requires p4 == ["--output_dir", ToStr(FramesDir(a))] + p3
    requires p5 == ["--input_dir", ToStr(ClipsDir(a))] + p4
    ensures FlagValue(p5, "--frames_per_clip") == Some(IntToString(a.framesPerClip))
    ensures FlagValue(p5, "--workers") == Some(IntToString(a.framesWorkers))
    ensures FlagValue(p5, "--exts") == Some(a.exts)
  {
    FlagValueCons("--output_dir", ToStr(FramesDir(a)), p3, "--frames_per_clip");
    FlagValueCons("--output_dir", ToStr(FramesDir(a)), p3, "--workers");
    FlagValueCons("--output_dir", ToStr(FramesDir(a)), p3, "--exts");
    FlagValueCons("--input_dir", ToStr(ClipsDir(a)), p4, "--frames_per_clip");
    FlagValueCons("--input_dir", ToStr(ClipsDir(a)), p4, "--workers");
    FlagValueCons("--input_dir", ToStr(ClipsDir(a)), p4, "--exts");
  }

  /** The last three pairs of the extraction command: frame count, worker
      count and patterns. */
  function ExtractTail(a: Args): (p: seq<string>)
    ensures FlagValue(p, "--frames_per_clip") == Some(IntToString(a.framesPerClip))
    ensures FlagValue(p, "--workers") == Some(IntToString(a.framesWorkers))
    ensures FlagValue(p, "--exts") == Some(a.exts)
  {
    var p1 := ["--exts", a.exts];
    var p2 := ["--workers", IntToString(a.framesWorkers)] + p1;
    var p3 := ["--frames_per_clip", IntToString(a.framesPerClip)] + p2;
    FlagValueCons("--exts", a.exts, [], "--exts");
    FlagValueCons("--workers", IntToString(a.framesWorkers), p1, "--exts");
    FlagValueCons("--workers", IntToString(a.framesWorkers), p1, "--workers");
    FlagValueCons("--frames_per_clip", IntToString(a.framesPerClip), p2, "--exts");
    FlagValueCons("--frames_per_clip", IntToString(a.framesPerClip), p2, "--workers");
    FlagValueCons("--frames_per_clip", IntToString(a.framesPerClip), p2, "--frames_per_clip");
    p3
  }

  /** Classification is handed the frames directory, the CSV directory and
      its worker count. */
  lemma ClassifyCommand(a: Args, python: string)
    ensures var args := Command(a, python, Classify)[2..];
      && FlagValue(args, "--frames_dir") == Some(ToStr(FramesDir(a)))
      && FlagValue(args, "--csv_output_dir") == Some(ToStr(DetectionDir(a)))
      && FlagValue(args, "--workers") == Some(IntToString(a.classifyWorkers))
  {
    var p1 := ["--workers", IntToString(a.classifyWorkers)];
    var p2 := ["--csv_output_dir", ToStr(DetectionDir(a))] + p1;
    var p3 := ["--frames_dir", ToStr(FramesDir(a))] + p2;
    assert StepArgs(a, Classify) == p3;
    FlagValueCons("--workers", IntToString(a.classifyWorkers), [], "--workers");
    forall g
      ensures FlagValue(p2, g) == if g == "--csv_output_dir" then Some(ToStr(DetectionDir(a))) else FlagValue(p1, g)
      ensures FlagValue(p3, g) == if g == "--frames_dir" then Some(ToStr(FramesDir(a))) else FlagValue(p2, g)
    {
      FlagValueCons("--csv_output_dir", ToStr(DetectionDir(a)), p1, g);
      FlagValueCons("--frames_dir", ToStr(FramesDir(a)), p2, g);
    }
  }

  /** Summarising is handed the per-frame CSV and the summary CSV. */
  lemma SummarizeCommand(a: Args, python: string)
    ensures var args := Command(a, python, Summarize)[2..];
      && FlagValue(args, "--input_csv") == Some(ToStr(AnimalCsv(a)))
      && FlagValue(args, "--output_csv") == Some(ToStr(SummaryCsv(a)))
  {
    var p1 := ["--output_csv", ToStr(SummaryCsv(a))];
    var p2 := ["--input_csv", ToStr(AnimalCsv(a))] + p1;
    assert StepArgs(a, Summarize) == p2;
    FlagValueCons("--output_csv", ToStr(SummaryCsv(a)), [], "--output_csv");
    FlagValueCons("--input_csv", ToStr(AnimalCsv(a)), p1, "--output_csv");
    FlagValueCons("--input_csv", ToStr(AnimalCsv(a)), p1, "--input_csv");
  }

  /** Every flag of a command line is followed by its value, and the steps
      hand each other the same directories: classification reads the frames
      extraction writes, and summarising reads the CSV classification
      writes. */
  lemma CommandsAgree(a: Args, python: string)
    ensures Command(a, python, Extract)[5] == Command(a, python, Classify)[3]
    ensures Command(a, python, Classify)[5] == ToStr(Parent(AnimalCsv(a)))
    ensures Command(a, python, Summarize)[3] == ToStr(AnimalCsv(a))
  {
    ExtractWrites(a, python);
    ClassifyReads(a, python);
    SummarizeReads(a, python);
    ParentOfChild(DetectionDir(a), "animal_predictions.csv");
  }

  lemma ExtractWrites(a: Args, python: string)
    ensures Command(a, python, Extract)[5] == ToStr(FramesDir(a))
  {
    var c := Command(a, python, Extract);
    assert c[5] == c[2..][3];
  }

  lemma ClassifyReads(a: Args, python: string)
    ensures Command(a, python, Classify)[3] == ToStr(FramesDir(a))
    ensures Command(a, python, Classify)[5] == ToStr(DetectionDir(a))
  {
    var c := Command(a, python, Classify);
    assert c[3] == c[2..][1] && c[5] == c[2..][3];
  }

  lemma SummarizeReads(a: Args, python: string)
    ensures Command(a, python, Summarize)[3] == ToStr(AnimalCsv(a))
  {
    var c := Command(a, python, Summarize);
    assert c[3] == c[2..][1];
  }

  /** How a run of `main` ends: `sys.exit(code)` after a failing step, or
      "Pipeline complete." with the file system left by the last step. Both
      carry the steps that ran, in order. */
  datatype Outcome = Exited(code: int, ran: seq<Step>) | Completed(ran: seq<Step>, fs: FileSystem)

  /** A step as `run_cmd` executes it: its exit code and the file system it
      leaves. */
  type Exec = (Step, FileSystem) -> (int, FileSystem)

  /** The steps `main` still has to take, from file system `fs`; `decide`
      is the run-or-skip test made on the file system as it is then. */
  function RunFrom(steps: seq<Step>, fs: FileSystem, decide: (Step, FileSystem) -> bool, exec: Exec): (r: Outcome)
    ensures |r.ran| <= |steps|
    ensures forall i :: 0 <= i < |r.ran| ==> r.ran[i] in steps
    ensures r.Exited? ==> r.code != 0 && |r.ran| > 0
  {
    if |steps| == 0 then Completed([], fs)
    else
      var s := steps[0];
      if decide(s, fs) then
        var (code, fs') := exec(s, fs);
        if code != 0 then Exited(code, [s])
        else
          match RunFrom(steps[1..], fs', decide, exec)
          case Exited(c, ran) => Exited(c, [s] + ran)
          case Completed(ran, fs'') => Completed([s] + ran, fs'')
      else RunFrom(steps[1..], fs, decide, exec)
  }

  /** A child process: its exit code and the file system it leaves, for a
      command line and the file system it starts on. */
  type ChildProcess = (seq<string>, FileSystem) -> (int, FileSystem)

  /** `main`'s run-or-skip test. */
  function Decide(a: Args): (Step, FileSystem) -> bool {
    (s, fs) => ShouldRun(a, fs, s)
  }

  /** `run_cmd` on a step's command line. */
  function ExecOf(a: Args, python: string, child: ChildProcess): Exec {
    (s, fs) => child(Command(a, python, s), fs)
  }

  /** `main()`: `python` is `sys.executable`, `child` runs a command line. */
  function Run(a: Args, python: string, fs: FileSystem, child: ChildProcess): (r: Outcome)
    ensures InOrder(r.ran)
    ensures r.Exited? ==> r.code != 0
  {
    RanInOrder(Steps, fs, Decide(a), ExecOf(a, python, child));
    RunFrom(Steps, fs, Decide(a), ExecOf(a, python, child))
  }

  /** The file system `main` finds at the `k`-th step when nothing failed
      before it. */
  function FoundAt(a: Args, python: string, fs: FileSystem, child: ChildProcess, k: nat): FileSystem {
    StateAt(Steps, fs, Decide(a), ExecOf(a, python, child), k)
  }

  /** Extraction either is skipped or exits with code 0. */
  predicate ExtractionPassed(a: Args, python: string, fs: FileSystem, child: ChildProcess) {
    Reached(Steps, fs, Decide(a), ExecOf(a, python, child), 1)
  }

  /** Classification runs iff extraction did not fail and `--force` is given
      or `animal_predictions.csv` is missing once extraction is over. */
  lemma ClassifyDecision(a: Args, python: string, fs: FileSystem, child: ChildProcess)
    ensures Classify in Run(a, python, fs, child).ran <==>
      ExtractionPassed(a, python, fs, child) && (a.force || !Exists(FoundAt(a, python, fs, child, 1), AnimalCsv(a)))
  {
    RanIff(Steps, fs, Decide(a), ExecOf(a, python, child), 1);
  }

  /** Summarising runs iff neither earlier step failed and `--force` is
      given or `animals_in_videos.csv` is missing once they are over. */
  lemma SummarizeDecision(a: Args, python: string, fs: FileSystem, child: ChildProcess)
    ensures Summarize in Run(a, python, fs, child).ran <==>
      && Reached(Steps, fs, Decide(a), ExecOf(a, python, child), 2)
      && (a.force || !Exists(FoundAt(a, python, fs, child, 2), SummaryCsv(a)))
  {
    RanIff(Steps, fs, Decide(a), ExecOf(a, python, child), 2);
  }

  /** A run that exits reports the non-zero code of the last step that
      ran, on the file system that step found; one that completes leaves
      the file system the three steps left. */
  lemma RunExitCode(a: Args, python: string, fs: FileSystem, child: ChildProcess)
    ensures var r := Run(a, python, fs, child);
      && (r.Exited? ==>
            var s := r.ran[|r.ran| - 1];
            r.code == child(Command(a, python, s), FoundAt(a, python, fs, child, Rank(s))).0)
      && (r.Completed? ==> r.fs == FoundAt(a, python, fs, child, 3))
  {
    var decide, exec := Decide(a), ExecOf(a, python, child);
    var r := RunFrom(Steps, fs, decide, exec);
    assert Run(a, python, fs, child) == r;
    var k := ExitAt(Steps, fs, decide, exec);
    if r.Exited? {
      var s := Steps[k];
      assert Rank(s) == k by { assert Rank(Steps[0]) == 0 && Rank(Steps[1]) == 1 && Rank(Steps[2]) == 2; }
      assert r.code == exec(s, StateAt(Steps, fs, decide, exec, k)).0;
    }
  }

  /** `main`'s run-or-skip test as written: extraction is decided by the
      generator objects, the other two steps as in `ShouldRun`. */
  predicate ShouldRunAsWritten(a: Args, fs: FileSystem, s: Step) {
    if s == Extract then ShouldExtractAsWritten(a, fs) else ShouldRun(a, fs, s)
  }

  function DecideAsWritten(a: Args): (Step, FileSystem) -> bool {
    (s, fs) => ShouldRunAsWritten(a, fs, s)
  }

  /** `main()` as written: the same loop over the steps, with the
      as-written extraction test, so extraction runs exactly when
      `--force` is given. */
  function RunAsWritten(a: Args, python: string, fs: FileSystem, child: ChildProcess): (r: Outcome)
    ensures InOrder(r.ran)
    ensures r.Exited? ==> r.code != 0
    ensures Extract in r.ran <==> a.force
  {
    var decide, exec := DecideAsWritten(a), ExecOf(a, python, child);
    RanInOrder(Steps, fs, decide, exec);
    ExtractOnlyWhenForced(a, fs);
    RanIff(Steps, fs, decide, exec, 0);
    RunFrom(Steps, fs, decide, exec)
  }

  /** As written, classification and summarising are decided as in the
      corrected run, on the file system the earlier steps leave. */
  lemma AsWrittenLaterDecisions(a: Args, python: string, fs: FileSystem, child: ChildProcess)
    ensures var decide, exec := DecideAsWritten(a), ExecOf(a, python, child);
      Classify in RunAsWritten(a, python, fs, child).ran <==>
        && Reached(Steps, fs, decide, exec, 1)
        && (a.force || !Exists(StateAt(Steps, fs, decide, exec, 1), AnimalCsv(a)))
    ensures var decide, exec := DecideAsWritten(a), ExecOf(a, python, child);
      Summarize in RunAsWritten(a, python, fs, child).ran <==>
        && Reached(Steps, fs, decide, exec, 2)
        && (a.force || !Exists(StateAt(Steps, fs, decide, exec, 2), SummaryCsv(a)))
  {
    var decide, exec := DecideAsWritten(a), ExecOf(a, python, child);
    RanIff(Steps, fs, decide, exec, 1);
    RanIff(Steps, fs, decide, exec, 2);
  }

  /** The two runs part on a first run without `--force` and without
      frames: the corrected one extracts, the one as written does not. */
  lemma AsWrittenSkipsMissingFrames(a: Args, python: string, child: ChildProcess)
    requires !a.force
    ensures Extract in Run(a, python, FileSystem([]), child).ran
    ensures Extract !in RunAsWritten(a, python, FileSystem([]), child).ran
  {
    var fs := FileSystem([]);
    AsWrittenAlwaysTrue(fs, FramesDir(a));
    ExtractDecision(a, python, fs, child);
    var r := Run(a, python, fs, child);
    assert r.ran[0] in r.ran;
  }

  /** Each step comes after the previous one in pipeline order. */
  predicate InOrder(steps: seq<Step>) {
    forall i, j :: 0 <= i < j < |steps| ==> Rank(steps[i]) < Rank(steps[j])
  }

  /** A step ranked below every later one can go in front. */
  lemma ConsInOrder(s: Step, ran: seq<Step>, later: seq<Step>)
    requires InOrder(ran) && forall x :: x in ran ==> x in later
    requires forall x :: x in later ==> Rank(s) < Rank(x)
    ensures InOrder([s] + ran)
  {
    var r := [s] + ran;
    forall i, j | 0 <= i < j < |r| ensures Rank(r[i]) < Rank(r[j]) {
      assert r[j] == ran[j - 1] && ran[j - 1] in ran;
      if i > 0 {
        assert r[i] == ran[i - 1];
      }
    }
  }

  /** The first of an ordered list of steps is ranked below the rest. */
  lemma HeadFirst(steps: seq<Step>)
    requires InOrder(steps) && |steps| > 0
    ensures InOrder(steps[1..]) && forall x :: x in steps[1..] ==> Rank(steps[0]) < Rank(x)
  {
    forall x | x in steps[1..] ensures Rank(steps[0]) < Rank(x) {
      var k :| 0 <= k < |steps[1..]| && steps[1..][k] == x;
      assert steps[k + 1] == x;
    }
  }

  /** Steps run in pipeline order, each at most once. */
  lemma {:induction false} RanInOrder(steps: seq<Step>, fs: FileSystem, decide: (Step, FileSystem) -> bool, exec: Exec)
    requires InOrder(steps)
    ensures InOrder(RunFrom(steps, fs, decide, exec).ran)
  {
    if |steps| > 0 {
      var s := steps[0];
      HeadFirst(steps);
      if !decide(s, fs) {
        RanInOrder(steps[1..], fs, decide, exec);
      } else {
        var (code, fs') := exec(s, fs);
        if code == 0 {
          RanInOrder(steps[1..], fs', decide, exec);
          var rest := RunFrom(steps[1..], fs', decide, exec);
          assert RunFrom(steps, fs, decide, exec).ran == [s] + rest.ran;
          ConsInOrder(s, rest.ran, steps[1..]);
        }
      }
    }
  }

  /** The file system before the `k`-th step when every earlier step ran
      and succeeded. */
  function StateBefore(steps: seq<Step>, fs: FileSystem, exec: Exec, k: int): FileSystem
    decreases |steps|
  {
    if k <= 0 || |steps| == 0 then fs
    else StateBefore(steps[1..], exec(steps[0], fs).1, exec, k - 1)
  }

  /** When every step is run (as with `--force`), the steps that ran are the
      first ones in order, and a run that completes ran them all. */
  lemma {:induction false} AllRunPrefix(steps: seq<Step>, fs: FileSystem, decide: (Step, FileSystem) -> bool, exec: Exec)
    requires forall s, f :: decide(s, f)
    ensures var r := RunFrom(steps, fs, decide, exec);
      && r.ran == steps[..|r.ran|]
      && (r.Completed? ==> r.ran == steps)
  {
    if |steps| > 0 {
      var s := steps[0];
      var (code, fs') := exec(s, fs);
      assert decide(s, fs);
      AllRunPrefix(steps[1..], fs', decide, exec);
      var r := RunFrom(steps, fs, decide, exec);
      if code != 0 {
        assert r == Exited(code, [s]);
        assert steps[..1] == [s];
      } else {
        var rest := RunFrom(steps[1..], fs', decide, exec);
        assert r.ran == [s] + rest.ran && (r.Completed? <==> rest.Completed?);
        PrefixCons(steps, rest.ran);
      }
    }
  }

  lemma PrefixCons(steps: seq<Step>, tail: seq<Step>)
    requires |tail| < |steps| && tail == steps[1..][..|tail|]
    ensures [steps[0]] + tail == steps[..|tail| + 1]
  {
    assert forall i :: 0 <= i < |tail| ==> tail[i] == steps[i + 1];
  }

  /** When every step is run, a run that exits reports the exit code of the
      last step that ran, on the file system the earlier steps left. */
  lemma {:induction false} AllRunExitCode(steps: seq<Step>, fs: FileSystem, decide: (Step, FileSystem) -> bool, exec: Exec)
    requires forall s, f :: decide(s, f)
    ensures var r := RunFrom(steps, fs, decide, exec);
      r.Exited? ==> r.code == exec(r.ran[|r.ran| - 1], StateBefore(steps, fs, exec, |r.ran| - 1)).0
  {
    if |steps| > 0 {
      var s := steps[0];
      var (code, fs') := exec(s, fs);
      assert decide(s, fs);
      AllRunExitCode(steps[1..], fs', decide, exec);
      var r := RunFrom(steps, fs, decide, exec);
      if code != 0 {
        assert r == Exited(code, [s]);
      } else {
        var rest := RunFrom(steps[1..], fs', decide, exec);
        if rest.Exited? {
          assert r == Exited(rest.code, [s] + rest.ran);
          assert r.ran[|r.ran| - 1] == rest.ran[|rest.ran| - 1];
          assert StateBefore(steps, fs, exec, |r.ran| - 1) == StateBefore(steps[1..], fs', exec, |rest.ran| - 1);
        }
      }
    }
  }

  /** The file system a step leaves under `decide`: the child's when the
      step runs, unchanged when it is skipped. */
  function After(s: Step, fs: FileSystem, decide: (Step, FileSystem) -> bool, exec: Exec): FileSystem {
    if decide(s, fs) then exec(s, fs).1 else fs
  }

  /** The file system `main` finds at step `k` when none of the earlier
      steps failed. */
  function StateAt(steps: seq<Step>, fs: FileSystem, decide: (Step, FileSystem) -> bool, exec: Exec, k: nat): FileSystem
    decreases k
  {
    if k == 0 || |steps| == 0 then fs
    else StateAt(steps[1..], After(steps[0], fs, decide, exec), decide, exec, k - 1)
  }

  /** Step `k` is run (not skipped) once reached. */
  predicate RunsAt(steps: seq<Step>, fs: FileSystem, decide: (Step, FileSystem) -> bool, exec: Exec, k: nat)
    requires k < |steps|
  {
    decide(steps[k], StateAt(steps, fs, decide, exec, k))
  }

  /** Step `k` is run once reached and its child exits non-zero. */
  predicate FailsAt(steps: seq<Step>, fs: FileSystem, decide: (Step, FileSystem) -> bool, exec: Exec, k: nat)
    requires k < |steps|
  {
    RunsAt(steps, fs, decide, exec, k) && exec(steps[k], StateAt(steps, fs, decide, exec, k)).0 != 0
  }

  /** No step before `k` failed, so `main` gets as far as step `k`. */
  predicate Reached(steps: seq<Step>, fs: FileSystem, decide: (Step, FileSystem) -> bool, exec: Exec, k: nat) {
    forall j: nat :: j < k && j < |steps| ==> !FailsAt(steps, fs, decide, exec, j)
  }

  /** Looking at the steps after the first is looking one index further
      on, from the file system the first step leaves. */
  lemma StateShift(steps: seq<Step>, fs: FileSystem, decide: (Step, FileSystem) -> bool, exec: Exec, j: nat)
    requires 0 < j < |steps|
    ensures StateAt(steps, fs, decide, exec, j) == StateAt(steps[1..], After(steps[0], fs, decide, exec), decide, exec, j - 1)
    ensures FailsAt(steps, fs, decide, exec, j) == FailsAt(steps[1..], After(steps[0], fs, decide, exec), decide, exec, j - 1)
  {
    assert steps[1..][j - 1] == steps[j];
  }

  /** When the first step does not fail, reaching step `k` is reaching
      step `k - 1` of the rest. */
  lemma ReachedShift(steps: seq<Step>, fs: FileSystem, decide: (Step, FileSystem) -> bool, exec: Exec, k: nat)
    requires 0 < k <= |steps| && !FailsAt(steps, fs, decide, exec, 0)
    ensures Reached(steps, fs, decide, exec, k) == Reached(steps[1..], After(steps[0], fs, decide, exec), decide, exec, k - 1)
  {
    var fs' := After(steps[0], fs, decide, exec);
    forall j: nat | 0 < j < k
      ensures FailsAt(steps, fs, decide, exec, j) == FailsAt(steps[1..], fs', decide, exec, j - 1)
    {
      StateShift(steps, fs, decide, exec, j);
    }
    if !Reached(steps[1..], fs', decide, exec, k - 1) {
      var j: nat :| j < k - 1 && j < |steps[1..]| && FailsAt(steps[1..], fs', decide, exec, j);
      assert FailsAt(steps, fs, decide, exec, j + 1);
    }
    if !Reached(steps, fs, decide, exec, k) {
      var j: nat :| j < k && j < |steps| && FailsAt(steps, fs, decide, exec, j);
      assert j > 0;
    }
  }

  /** For any run-or-skip test: a step of an ordered list is among those
      that ran iff no earlier step failed and the test said to run it on
      the file system found then. */
  lemma {:induction false} RanIff(steps: seq<Step>, fs: FileSystem, decide: (Step, FileSystem) -> bool, exec: Exec, k: nat)
    requires InOrder(steps) && k < |steps|
    ensures steps[k] in RunFrom(steps, fs, decide, exec).ran <==>
      Reached(steps, fs, decide, exec, k) && RunsAt(steps, fs, decide, exec, k)
  {
    var s := steps[0];
    var fs' := After(s, fs, decide, exec);
    var r := RunFrom(steps, fs, decide, exec);
    var rest := RunFrom(steps[1..], fs', decide, exec);
    HeadFirst(steps);
    if k == 0 {
      assert s !in rest.ran;
    } else {
      assert steps[k] != s by {
        assert steps[k] in steps[1..] by { assert steps[1..][k - 1] == steps[k]; }
      }
      StateShift(steps, fs, decide, exec, k);
      assert steps[1..][k - 1] == steps[k];
      if FailsAt(steps, fs, decide, exec, 0) {
        assert r.ran == [s];
      } else {
        InOrderTail(steps);
        RanIff(steps[1..], fs', decide, exec, k - 1);
        ReachedShift(steps, fs, decide, exec, k);
        assert steps[k] in r.ran <==> steps[k] in rest.ran;
      }
    }
  }

  /** How a run ends, with `k` the index of the failing step, or the number
      of steps when none failed: no step before `k` failed; the run exits
      iff `k` is a step, which then failed, ran last and gave the exit code;
      a completed run leaves the file system the steps left. */
  ghost predicate EndsAt(steps: seq<Step>, fs: FileSystem, decide: (Step, FileSystem) -> bool, exec: Exec, k: nat) {
    var r := RunFrom(steps, fs, decide, exec);
    && k <= |steps| && Reached(steps, fs, decide, exec, k)
    && (r.Exited? <==> k < |steps|)
    && (k < |steps| ==>
          && FailsAt(steps, fs, decide, exec, k) && r.ran[|r.ran| - 1] == steps[k]
          && r.code == exec(steps[k], StateAt(steps, fs, decide, exec, k)).0)
    && (r.Completed? ==> r.fs == StateAt(steps, fs, decide, exec, |steps|))
  }

  /** For any run-or-skip test, how a run ends: with the exit code of the
      first step that ran and failed, which is the last step that ran, or,
      when no step failed, complete with the file system the steps left. */
  lemma {:induction false} ExitAt(steps: seq<Step>, fs: FileSystem, decide: (Step, FileSystem) -> bool, exec: Exec) returns (k: nat)
    ensures k <= |steps| && Reached(steps, fs, decide, exec, k)
    ensures var r := RunFrom(steps, fs, decide, exec);
      && (r.Exited? <==> k < |steps|)
      && (k < |steps| ==>
            && FailsAt(steps, fs, decide, exec, k) && r.ran[|r.ran| - 1] == steps[k]
            && r.code == exec(steps[k], StateAt(steps, fs, decide, exec, k)).0)
      && (r.Completed? ==> r.fs == StateAt(steps, fs, decide, exec, |steps|))
  {
    if |steps| == 0 {
      k := 0;
    } else if FailsAt(steps, fs, decide, exec, 0) {
      k := 0;
      FailFirst(steps, fs, decide, exec);
    } else {
      var k' := ExitAt(steps[1..], After(steps[0], fs, decide, exec), decide, exec);
      k := k' + 1;
      ExitStep(steps, fs, decide, exec, k');
    }
  }

  /** A first step that fails ends the run there. */
  lemma FailFirst(steps: seq<Step>, fs: FileSystem, decide: (Step, FileSystem) -> bool, exec: Exec)
    requires |steps| > 0 && FailsAt(steps, fs, decide, exec, 0)
    ensures EndsAt(steps, fs, decide, exec, 0)
  {
    assert StateAt(steps, fs, decide, exec, 0) == fs;
  }

  /** When the first step does not fail, the run ends one index further on
      than the run of the remaining steps. */
  lemma ExitStep(steps: seq<Step>, fs: FileSystem, decide: (Step, FileSystem) -> bool, exec: Exec, k': nat)
    requires |steps| > 0 && !FailsAt(steps, fs, decide, exec, 0)
    requires EndsAt(steps[1..], After(steps[0], fs, decide, exec), decide, exec, k')
    ensures EndsAt(steps, fs, decide, exec, k' + 1)
  {
    var k := k' + 1;
    ReachedShift(steps, fs, decide, exec, k);
    EndShift(steps, fs, decide, exec);
    if k < |steps| {
      FailShift(steps, fs, decide, exec, k');
    }
  }

  /** The step that fails in the rest of the run, one index further on. */
  lemma FailShift(steps: seq<Step>, fs: FileSystem, decide: (Step, FileSystem) -> bool, exec: Exec, k': nat)
    requires k' + 1 < |steps|
    ensures steps[1..][k'] == steps[k' + 1]
    ensures FailsAt(steps, fs, decide, exec, k' + 1) == FailsAt(steps[1..], After(steps[0], fs, decide, exec), decide, exec, k')
    ensures StateAt(steps, fs, decide, exec, k' + 1) == StateAt(steps[1..], After(steps[0], fs, decide, exec), decide, exec, k')
  {
    StateShift(steps, fs, decide, exec, k' + 1);
    assert steps[1..][k'] == steps[k' + 1];
  }

  /** When the first step does not fail, a run ends as the run of the
      remaining steps does. */
  lemma EndShift(steps: seq<Step>, fs: FileSystem, decide: (Step, FileSystem) -> bool, exec: Exec)
    requires |steps| > 0 && !FailsAt(steps, fs, decide, exec, 0)
    ensures var r := RunFrom(steps, fs, decide, exec);
      var rest := RunFrom(steps[1..], After(steps[0], fs, decide, exec), decide, exec);
      && (r.Exited? <==> rest.Exited?)
      && (r.Exited? ==> r.code == rest.code && r.ran[|r.ran| - 1] == rest.ran[|rest.ran| - 1])
      && (r.Completed? ==> r.fs == rest.fs)
    ensures StateAt(steps, fs, decide, exec, |steps|) == StateAt(steps[1..], After(steps[0], fs, decide, exec), decide, exec, |steps| - 1)
  {
    var s := steps[0];
    assert StateAt(steps, fs, decide, exec, 0) == fs;
    if decide(s, fs) {
      PassedFirst(steps, fs, decide, exec);
    } else {
      SkippedFirst(steps, fs, decide, exec);
    }
  }

  /** A first step that is skipped leaves the run to the rest. */
  lemma SkippedFirst(steps: seq<Step>, fs: FileSystem, decide: (Step, FileSystem) -> bool, exec: Exec)
    requires |steps| > 0 && !decide(steps[0], fs)
    ensures RunFrom(steps, fs, decide, exec) == RunFrom(steps[1..], After(steps[0], fs, decide, exec), decide, exec)
  {
  }

  /** A first step that runs and exits with 0 is put in front of the rest. */
  lemma PassedFirst(steps: seq<Step>, fs: FileSystem, decide: (Step, FileSystem) -> bool, exec: Exec)
    requires |steps| > 0 && decide(steps[0], fs) && exec(steps[0], fs).0 == 0
    ensures var r := RunFrom(steps, fs, decide, exec);
      var rest := RunFrom(steps[1..], After(steps[0], fs, decide, exec), decide, exec);
      && (r.Exited? <==> rest.Exited?)
      && (r.Exited? ==> r.code == rest.code && r.ran[|r.ran| - 1] == rest.ran[|rest.ran| - 1])
      && (r.Completed? ==> r.fs == rest.fs)
  {
    var s := steps[0];
    var rest := RunFrom(steps[1..], exec(s, fs).1, decide, exec);
    var r := RunFrom(steps, fs, decide, exec);
    match rest
    case Exited(c, ran) =>
      assert r == Exited(c, [s] + ran);
      LastOfCons(s, ran);
    case Completed(ran, f) =>
      assert r == Completed([s] + ran, f);
  }

  lemma LastOfCons<T>(x: T, xs: seq<T>)
    requires |xs| > 0
    ensures ([x] + xs)[|[x] + xs| - 1] == xs[|xs| - 1]
  {
  }

  lemma InOrderTail(steps: seq<Step>)
    requires InOrder(steps) && |steps| > 0
    ensures InOrder(steps[1..])
  {
  }

  /** When no step fails the run completes. */
  lemma {:induction false} NoFailureCompletes(steps: seq<Step>, fs: FileSystem, decide: (Step, FileSystem) -> bool, exec: Exec)
    requires forall s, f :: exec(s, f).0 == 0
    ensures RunFrom(steps, fs, decide, exec).Completed?
  {
    if |steps| > 0 {
      var (code, fs') := exec(steps[0], fs);
      NoFailureCompletes(steps[1..], fs', decide, exec);
      NoFailureCompletes(steps[1..], fs, decide, exec);
    }
  }

  /** With `--force` the three steps run in order until one fails; without
      failures the pipeline completes after all three. */
  lemma ForceRunsAll(a: Args, python: string, fs: FileSystem, child: ChildProcess)
    requires a.force
    ensures var r := Run(a, python, fs, child);
      && r.ran == Steps[..|r.ran|]
      && (r.Completed? ==> r.ran == [Extract, Classify, Summarize])
  {
    AllRunPrefix(Steps, fs, Decide(a), ExecOf(a, python, child));
  }

  /** Extraction, the first step, runs exactly when `--force` is given or
      the frames directory holds no frame. */
  lemma ExtractDecision(a: Args, python: string, fs: FileSystem, child: ChildProcess)
    ensures var r := Run(a, python, fs, child);
      (|r.ran| > 0 && r.ran[0] == Extract) <==> a.force || !AnyFramesExist(fs, FramesDir(a))
  {
    var decide := Decide(a);
    var exec := ExecOf(a, python, child);
    var r := RunFrom(Steps, fs, decide, exec);
    if !decide(Extract, fs) {
      var r2 := RunFrom(Steps[1..], fs, decide, exec);
      assert r == r2;
      assert Steps[1..] == [Classify, Summarize];
      if |r2.ran| > 0 {
        assert r2.ran[0] in Steps[1..];
      }
    }
  }

  /** With every output present and no `--force`, nothing runs. */
  lemma NothingToDo(a: Args, python: string, fs: FileSystem, child: ChildProcess)
    requires !a.force && AnyFramesExist(fs, FramesDir(a)) && Exists(fs, AnimalCsv(a)) && Exists(fs, SummaryCsv(a))
    ensures Run(a, python, fs, child) == Completed([], fs)
  {
    var decide := Decide(a);
    var exec := ExecOf(a, python, child);
    assert !decide(Extract, fs) && !decide(Classify, fs) && !decide(Summarize, fs);
    assert Steps[1..] == [Classify, Summarize];
    assert Steps[1..][1..] == [Summarize];
    assert Steps[1..][1..][1..] == [];
    assert RunFrom([Summarize], fs, decide, exec) == Completed([], fs);
    assert RunFrom([Classify, Summarize], fs, decide, exec) == Completed([], fs);
  }
}

=== FILE: session_manager.dfy ===
/** The session store of the GUI: the in-memory clip index, clips directory
    and derived summary-CSV path, and their persistence as a versioned record
    in a configuration file. The record is modelled as a datatype rather than
    JSON text; the configuration file is one of: absent, unreadable, holding
    text that does not parse, or holding a record. */
module SessionManager {
  import opened Options
  import opened Paths
  import Layout

  /** `current_clip_index`, `clips_directory`, `csv_path` */
  datatype Manager = Manager(index: int, directory: Option<Path>, csv: Option<Path>)

  /** A JSON scalar a preference can hold. */
  datatype PrefValue = PBool(b: bool) | PInt(i: int) | PReal(x: real) | PStr(s: string)

  type Prefs = map<string, PrefValue>

  /** The `session` object of the record; `None` is a key that is absent or
      `null`. */
  datatype SessionDoc = SessionDoc(clipsDirectory: Option<string>, index: Option<int>, csvPath: Option<string>)

  /** The saved record; `None` is an absent key. */
  datatype Doc = Doc(version: Option<string>, session: Option<SessionDoc>, preferences: Option<Prefs>)

  datatype ConfigFile = NoFile | Unreadable | Corrupt | Stored(doc: Doc)

  /** How writing the file went: written in full, failed to open (nothing
      touched), or failed while dumping after `open(..., 'w')` had already
      truncated the file. */
  datatype WriteOutcome = Written | OpenFailed | PartialWrite

  const Version: string := "1.0"

  /** A new manager: index 0, nothing selected. */
  function New(): Manager {
    Manager(0, None, None)
  }

  /** `set_clips_directory(d)`: the CSV path is derived from the directory. */
  function SetClipsDirectory(m: Manager, d: Path): (r: Manager)
    ensures r.index == m.index && r.directory == Some(d) && r.csv.Some?
    ensures Name(r.csv.value) == "animals_in_videos.csv"
    ensures Parent(Parent(Parent(r.csv.value))) == d
    ensures WellFormed(d) ==> WellFormed(r.csv.value)
    ensures r.csv == Some(Layout.SummaryCsv(d))
  {
    Layout.SummaryCsvAncestors(d);
    assert WellFormed(d) ==> WellFormed(Layout.SummaryCsv(d)) by {
      if WellFormed(d) {
        Layout.LayoutWellFormed(d);
      }
    }
    Manager(m.index, Some(d), Some(Layout.SummaryCsv(d)))
  }

  /** `save_clip_index(i)` */
  function SaveClipIndex(m: Manager, i: int): (r: Manager)
    ensures r.index == i && r.directory == m.directory && r.csv == m.csv
  {
    m.(index := i)
  }

  /** `has_existing_outputs()`: a CSV path is set and the file exists. */
  predicate HasExistingOutputs(m: Manager, fs: FileSystem) {
    m.csv.Some? && Exists(fs, m.csv.value)
  }

  /** Outputs exist for a freshly chosen directory exactly when its summary
      CSV does. */
  lemma OutputsAfterSetDirectory(m: Manager, d: Path, fs: FileSystem)
    ensures HasExistingOutputs(SetClipsDirectory(m, d), fs) <==> Exists(fs, Layout.SummaryCsv(d))
  {
  }

  /** `reset()` */
  function Reset(m: Manager): (r: Manager)
    ensures r.index == 0 && r.directory.None? && r.csv.None?
  {
    New()
  }

  /** After a reset no outputs are reported, whatever exists on disk. */
  lemma ResetForgetsOutputs(m: Manager, fs: FileSystem)
    ensures !HasExistingOutputs(Reset(m), fs)
  {
  }

  /** `load_state()`: the record when the file exists, reads, parses and
      carries version "1.0"; `None` otherwise. */
  function LoadState(f: ConfigFile): (r: Option<Doc>)
    ensures r.Some? <==> f.Stored? && f.doc.version == Some(Version)
    ensures r.Some? ==> r.value == f.doc
  {
    match f
    case Stored(d) => if d.version == Some(Version) then Some(d) else None
    case _ => None
  }

  /** `str(p) if p else None`; a path is always truthy. */
  function PathField(p: Option<Path>): (r: Option<string>)
    ensures r.Some? <==> p.Some?
  {
    match p
    case Some(q) => Some(ToStr(q))
    case None => None
  }

  /** The record `save_state(prefs)` writes (the timestamp is left out). */
  function SavedDoc(m: Manager, prefs: Prefs): (d: Doc)
    ensures d.version == Some(Version) && d.preferences == Some(prefs)
    ensures d.session.Some? && d.session.value.index == Some(m.index)
  {
    Doc(Some(Version), Some(SessionDoc(PathField(m.directory), Some(m.index), PathField(m.csv))), Some(prefs))
  }

  /** `save_state(prefs)`: the configuration file afterwards. The manager
      itself is never changed, and a failed write is swallowed. */
  function SaveState(m: Manager, prefs: Prefs, f: ConfigFile, w: WriteOutcome): (r: ConfigFile)
    ensures w == OpenFailed ==> r == f
    ensures w == PartialWrite ==> LoadState(r).None?
    ensures w == Written ==> LoadState(r) == Some(SavedDoc(m, prefs))
  {
    match w
    case Written => Stored(SavedDoc(m, prefs))
    case OpenFailed => f
    case PartialWrite => Corrupt
  }

  /** Reads a path field of the session: a missing, null or empty value is
      skipped, anything else is parsed with `Path(...)`. */
  function Truthy(s: Option<string>): bool {
    s.Some? && s.value != ""
  }

  /** `validate_state(state)`: there is a session whose clips directory and
      CSV path are both non-empty and exist. */
  function ValidateState(d: Doc, fs: FileSystem): (ok: bool)
    ensures ok ==> d.session.Some?
    ensures ok <==> (d.session.Some?
      && Truthy(d.session.value.clipsDirectory) && Exists(fs, FromStr(d.session.value.clipsDirectory.value))
      && Truthy(d.session.value.csvPath) && Exists(fs, FromStr(d.session.value.csvPath.value)))
  {
    match d.session
    case None => false
    case Some(s) =>
      if !Truthy(s.clipsDirectory) || !Exists(fs, FromStr(s.clipsDirectory.value)) then false
      else if !Truthy(s.csvPath) || !Exists(fs, FromStr(s.csvPath.value)) then false
      else true
  }

  /** `restore_from_state(state)`: the manager afterwards and the returned
      preferences. A field that is missing, null or empty keeps its value;
      a missing index becomes 0 and missing preferences `{}`. */
  function RestoreFromState(m: Manager, d: Doc): (r: (Manager, Prefs))
    ensures d.session.None? ==> r.0 == m.(index := 0)
    ensures !Truthy(d.session.GetOr(SessionDoc(None, None, None)).clipsDirectory) ==> r.0.directory == m.directory
    ensures !Truthy(d.session.GetOr(SessionDoc(None, None, None)).csvPath) ==> r.0.csv == m.csv
    ensures d.preferences.None? ==> r.1 == map[]
    ensures d.preferences.Some? ==> r.1 == d.preferences.value
    ensures d.session.Some? && Truthy(d.session.value.clipsDirectory) ==>
      r.0.directory == Some(FromStr(d.session.value.clipsDirectory.value))
    ensures d.session.Some? && Truthy(d.session.value.csvPath) ==>
      r.0.csv == Some(FromStr(d.session.value.csvPath.value))
    ensures d.session.Some? ==> r.0.index == d.session.value.index.GetOr(0)
  {
    var s := d.session.GetOr(SessionDoc(None, None, None));
    var dir := if Truthy(s.clipsDirectory) then Some(FromStr(s.clipsDirectory.value)) else m.directory;
    var csv := if Truthy(s.csvPath) then Some(FromStr(s.csvPath.value)) else m.csv;
    (Manager(s.index.GetOr(0), dir, csv), d.preferences.GetOr(map[]))
  }

  /** The paths a manager holds are those `Path(...)` can produce. */
  predicate ManagerWellFormed(m: Manager) {
    && (m.directory.Some? ==> WellFormed(m.directory.value))
    && (m.csv.Some? ==> WellFormed(m.csv.value))
  }

  lemma PathFieldRoundTrip(p: Option<Path>, fallback: Option<Path>)
    requires p.Some? ==> WellFormed(p.value)
    ensures (if Truthy(PathField(p)) then Some(FromStr(PathField(p).value)) else fallback)
         == (if p.Some? then p else fallback)
  {
    if p.Some? {
      ToStrNonEmpty(p.value);
      StrRoundTrip(p.value);
    }
  }

  /** Saving, loading back and restoring reproduces the index, the
      directory and the CSV path (a field that was unset leaves the
      restoring manager's own value), and returns the saved preferences. */
  lemma SaveLoadRestore(m: Manager, prefs: Prefs, f: ConfigFile, target: Manager)
    requires ManagerWellFormed(m)
    ensures var loaded := LoadState(SaveState(m, prefs, f, Written));
      && loaded.Some?
      && var (r, p) := RestoreFromState(target, loaded.value);
      && r.index == m.index
      && r.directory == (if m.directory.Some? then m.directory else target.directory)
      && r.csv == (if m.csv.Some? then m.csv else target.csv)
      && p == prefs
  {
    PathFieldRoundTrip(m.directory, target.directory);
    PathFieldRoundTrip(m.csv, target.csv);
  }

  /** Restoring into the manager that saved gives that manager back. */
  lemma SaveRestoreSelf(m: Manager, prefs: Prefs, f: ConfigFile)
    requires ManagerWellFormed(m)
    ensures RestoreFromState(m, SavedDoc(m, prefs)) == (m, prefs)
  {
    SaveLoadRestore(m, prefs, f, m);
  }

  /** A saved session validates exactly when both of its paths were set and
      still exist. */
  lemma SavedValidates(m: Manager, prefs: Prefs, fs: FileSystem)
    requires ManagerWellFormed(m)
    ensures ValidateState(SavedDoc(m, prefs), fs) <==>
      m.directory.Some? && m.csv.Some? && Exists(fs, m.directory.value) && Exists(fs, m.csv.value)
  {
    if m.directory.Some? { ToStrNonEmpty(m.directory.value); StrRoundTrip(m.directory.value); }
    if m.csv.Some? { ToStrNonEmpty(m.csv.value); StrRoundTrip(m.csv.value); }
  }

  /** A failed write never produces a record other than the one already
      stored or the new one: loading afterwards gives the old record, the
      new record, or nothing. */
  lemma WriteFailureKeepsOldOrNothing(m: Manager, prefs: Prefs, f: ConfigFile, w: WriteOutcome)
    ensures var l := LoadState(SaveState(m, prefs, f, w));
      l.None? || l == LoadState(f) || l == Some(SavedDoc(m, prefs))
  {
  }
}

=== FILE: strings.dfy ===
/** The string operations the application performs with Python's `str` methods:
    case folding, substring search, single-character replacement, whitespace
    stripping, splitting and joining on a separator, and decimal rendering.
    Case folding and whitespace are modelled for ASCII only. */
module Strings {
  import opened Options

  /** `c.lower()` for an ASCII letter; every other character is left alone. */
  function LowerChar(c: char): char {
    if 'A' <= c <= 'Z' then (c as int + 32) as char else c
  }

  /** `s.lower()` */
  function Lower(s: string): string {
    seq(|s|, i requires 0 <= i < |s| => LowerChar(s[i]))
  }

  predicate StartsWith(s: string, prefix: string) {
    |prefix| <= |s| && s[..|prefix|] == prefix
  }

  predicate EndsWith(s: string, suffix: string) {
    |suffix| <= |s| && s[|s| - |suffix|..] == suffix
  }

  /** `sub` occurs in `s` starting at index `j`. */
  predicate OccursAt(s: string, sub: string, j: int) {
    0 <= j && j + |sub| <= |s| && s[j..j + |sub|] == sub
  }

  /** Lowest index at or after `k` where `sub` occurs in `s`. */
  function FindFrom(s: string, sub: string, k: nat): (r: Option<nat>)
    decreases |s| - k
    ensures r.Some? ==> k <= r.value && OccursAt(s, sub, r.value)
    ensures r.Some? ==> forall j :: k <= j < r.value ==> !OccursAt(s, sub, j)
    ensures r.None? ==> forall j :: k <= j ==> !OccursAt(s, sub, j)
  {
    if k + |sub| > |s| then None
    else if s[k..k + |sub|] == sub then Some(k)
    else FindFrom(s, sub, k + 1)
  }

  /** `s.find(sub)`, with `None` for Python's -1. */
  function Find(s: string, sub: string): Option<nat> {
    FindFrom(s, sub, 0)
  }

  /** A first occurrence is what `find` reports. */
  lemma FindAt(s: string, sub: string, i: nat)
    requires OccursAt(s, sub, i) && forall j :: 0 <= j < i ==> !OccursAt(s, sub, j)
    ensures Find(s, sub) == Some(i)
  {
  }

  /** `sub in s` */
  predicate Contains(s: string, sub: string) {
    Find(s, sub).Some?
  }

  /** `sub in s` means some window of `s` equals `sub`. */
  lemma ContainsWitness(s: string, sub: string, i: nat)
    requires OccursAt(s, sub, i)
    ensures Contains(s, sub)
  {
  }

  /** The empty string occurs in every string. */
  lemma ContainsEmpty(s: string)
    ensures Contains(s, "")
  {
    assert OccursAt(s, "", 0);
  }

  /** `s.rfind(c)` for a single character, with `None` for -1. */
  function LastIndexOf(s: string, c: char): (r: Option<nat>)
    ensures r.Some? ==> r.value < |s| && s[r.value] == c && c !in s[r.value + 1..]
    ensures r.None? ==> c !in s
  {
    if |s| == 0 then None
    else if s[|s| - 1] == c then Some(|s| - 1)
    else
      var r := LastIndexOf(s[..|s| - 1], c);
      assert s == s[..|s| - 1] + [s[|s| - 1]];
      r
  }

  /** The last occurrence is where `c` occurs with no `c` after it. */
  lemma {:induction false} LastIndexOfAt(s: string, c: char, i: nat)
    requires i < |s| && s[i] == c && c !in s[i + 1..]
    ensures LastIndexOf(s, c) == Some(i)
  {
    if i < |s| - 1 {
      assert s[|s| - 1] in s[i + 1..];
      var t := s[..|s| - 1];
      assert t[i + 1..] == s[i + 1..|s| - 1];
      LastIndexOfAt(t, c, i);
    }
  }

  /** `s.replace(c, rep)` for a single-character `c`. */
  function ReplaceChar(s: string, c: char, rep: string): (r: string)
    ensures c !in rep ==> c !in r
    ensures forall x :: x in r ==> x in rep || (x in s && x != c)
  {
    if |s| == 0 then ""
    else (if s[0] == c then rep else [s[0]]) + ReplaceChar(s[1..], c, rep)
  }

  /** Replacing one character by another acts position by position. */
  lemma {:induction false} ReplaceCharPointwise(s: string, c: char, d: char)
    ensures |ReplaceChar(s, c, [d])| == |s|
    ensures forall i :: 0 <= i < |s| ==> ReplaceChar(s, c, [d])[i] == if s[i] == c then d else s[i]
  {
    if |s| > 0 {
      ReplaceCharPointwise(s[1..], c, d);
    }
  }

  /** The ASCII characters Python's `str.isspace` accepts. */
  predicate IsSpace(c: char) {
    c == ' ' || 9 <= c as int <= 13 || 28 <= c as int <= 31
  }

  function TrimLeft(s: string): (r: string)
    ensures |r| <= |s| && r == s[|s| - |r|..]
    ensures |r| > 0 ==> !IsSpace(r[0])
    ensures forall i :: 0 <= i < |s| - |r| ==> IsSpace(s[i])
  {
    if |s| > 0 && IsSpace(s[0]) then TrimLeft(s[1..]) else s
  }

  function TrimRight(s: string): (r: string)
    ensures |r| <= |s| && r == s[..|r|]
    ensures |r| > 0 ==> !IsSpace(r[|r| - 1])
    ensures forall i :: |r| <= i < |s| ==> IsSpace(s[i])
  {
    if |s| > 0 && IsSpace(s[|s| - 1]) then TrimRight(s[..|s| - 1]) else s
  }

  /** `s.strip()`: removes leading and trailing whitespace. */
  function Strip(s: string): (r: string)
    ensures |r| <= |s|
    ensures |r| > 0 ==> !IsSpace(r[0]) && !IsSpace(r[|r| - 1])
  {
    TrimRight(TrimLeft(s))
  }

  /** `[x for x in s if x]`: the non-empty strings, in order. */
  function NonEmpty(s: seq<string>): (r: seq<string>)
    ensures forall a :: a in r <==> a in s && a != ""
    ensures |r| <= |s|
  {
    if |s| == 0 then []
    else (if s[0] != "" then [s[0]] else []) + NonEmpty(s[1..])
  }

  /** `[x.strip() for x in parts]` */
  function StripAll(parts: seq<string>): (r: seq<string>)
    ensures |r| == |parts| && forall i :: 0 <= i < |parts| ==> r[i] == Strip(parts[i])
  {
    seq(|parts|, i requires 0 <= i < |parts| => Strip(parts[i]))
  }

  /** What `Strip` keeps is an infix of its argument, and everything it
      removes is whitespace. */
  lemma StripInfix(s: string) returns (k: nat)
    ensures k + |Strip(s)| <= |s| && Strip(s) == s[k..k + |Strip(s)|]
    ensures forall i :: 0 <= i < k ==> IsSpace(s[i])
    ensures forall i :: k + |Strip(s)| <= i < |s| ==> IsSpace(s[i])
  {
    var t := TrimLeft(s);
    var r := TrimRight(t);
    assert Strip(s) == r;
    k := |s| - |t|;
    PrefixOfSuffix(s, k, r);
    forall i | k + |r| <= i < |s| ensures IsSpace(s[i]) {
      assert s[i] == t[i - k];
    }
  }

  /** A prefix of the suffix of `s` from `k` is the infix from `k`. */
  lemma PrefixOfSuffix(s: string, k: nat, r: string)
    requires k <= |s| && |r| <= |s| - k && r == s[k..][..|r|]
    ensures r == s[k..k + |r|]
    ensures forall i :: k <= i < |s| ==> s[i] == s[k..][i - k]
  {
  }

  /** Stripping never adds a character. */
  lemma StripKeepsOut(s: string, c: char)
    requires c !in s
    ensures c !in Strip(s)
  {
    var k := StripInfix(s);
    var r := Strip(s);
    forall i | 0 <= i < |r| ensures r[i] != c {
      assert r[i] == s[k + i];
    }
  }

  /** A string without surrounding whitespace is its own strip. */
  lemma StripStripped(s: string)
    requires |s| > 0 ==> !IsSpace(s[0]) && !IsSpace(s[|s| - 1])
    ensures Strip(s) == s
  {
  }

  /** Lower-casing maps whitespace to whitespace and nothing else to it. */
  lemma LowerSpaces(s: string)
    ensures |Lower(s)| == |s|
    ensures forall i :: 0 <= i < |s| ==> (IsSpace(Lower(s)[i]) <==> IsSpace(s[i]))
  {
  }

  /** Lower-casing leaves no ASCII capital. */
  lemma LowerNoCapitals(s: string)
    ensures forall i :: 0 <= i < |Lower(s)| ==> !('A' <= Lower(s)[i] <= 'Z')
  {
  }

  /** Lower-casing introduces no character other than a small letter. */
  lemma LowerKeepsOut(s: string, c: char)
    requires c !in s && !('a' <= c <= 'z')
    ensures c !in Lower(s)
  {
    forall i | 0 <= i < |s| ensures Lower(s)[i] != c {
      assert s[i] != c;
    }
  }

  /** A string without ASCII capitals is its own lower-case form. */
  lemma LowerLowered(s: string)
    requires forall i :: 0 <= i < |s| ==> !('A' <= s[i] <= 'Z')
    ensures Lower(s) == s
  {
  }

  /** Lower-casing and stripping commute, because case folding maps
      whitespace to whitespace and nothing else to it. */
  lemma StripLower(s: string)
    ensures Strip(Lower(s)) == Lower(Strip(s))
  {
    TrimLeftLower(s);
    TrimRightLower(TrimLeft(s));
  }

  lemma {:induction false} TrimLeftLower(s: string)
    ensures TrimLeft(Lower(s)) == Lower(TrimLeft(s))
  {
    if |s| > 0 {
      assert Lower(s)[1..] == Lower(s[1..]);
      if IsSpace(s[0]) {
        TrimLeftLower(s[1..]);
      }
    }
  }

  lemma {:induction false} TrimRightLower(s: string)
    ensures TrimRight(Lower(s)) == Lower(TrimRight(s))
  {
    if |s| > 0 {
      assert Lower(s)[..|s| - 1] == Lower(s[..|s| - 1]);
      if IsSpace(s[|s| - 1]) {
        TrimRightLower(s[..|s| - 1]);
      }
    }
  }

  /** Replacing a character that does not occur changes nothing. */
  lemma {:induction false} ReplaceAbsent(s: string, c: char, rep: string)
    requires c !in s
    ensures ReplaceChar(s, c, rep) == s
  {
    if |s| > 0 {
      ReplaceAbsent(s[1..], c, rep);
      assert s == [s[0]] + s[1..];
    }
  }

  /** `s.split(sep)` for a single-character separator: never empty, and no
      piece contains the separator. */
  function Split(s: string, sep: char): (r: seq<string>)
    ensures |r| >= 1
    ensures forall i :: 0 <= i < |r| ==> sep !in r[i]
  {
    if |s| == 0 then [""]
    else
      var rest := Split(s[1..], sep);
      if s[0] == sep then [""] + rest
      else [[s[0]] + rest[0]] + rest[1..]
  }

  /** `sep.join(parts)` */
  function Join(parts: seq<string>, sep: char): string {
    if |parts| == 0 then ""
    else if |parts| == 1 then parts[0]
    else parts[0] + [sep] + Join(parts[1..], sep)
  }

  lemma JoinCons(a: string, t: seq<string>, sep: char)
    ensures Join([a] + t, sep) == if |t| == 0 then a else a + [sep] + Join(t, sep)
  {
    assert ([a] + t)[1..] == t;
  }

  /** Joining the pieces of a split restores the string. */
  lemma {:induction false} JoinSplit(s: string, sep: char)
    ensures Join(Split(s, sep), sep) == s
  {
    if |s| > 0 {
      var rest := Split(s[1..], sep);
      JoinSplit(s[1..], sep);
      assert s == [s[0]] + s[1..];
      if s[0] == sep {
        JoinCons("", rest, sep);
      } else {
        var head := [s[0]] + rest[0];
        assert Split(s, sep) == [head] + rest[1..];
        JoinCons(head, rest[1..], sep);
        JoinCons(rest[0], rest[1..], sep);
        assert rest == [rest[0]] + rest[1..];
        assert Join(rest, sep) == s[1..];
        if |rest| == 1 {
          assert Join(Split(s, sep), sep) == head;
        } else {
          assert Join(rest, sep) == rest[0] + [sep] + Join(rest[1..], sep);
          assert Join(Split(s, sep), sep) == head + [sep] + Join(rest[1..], sep);
        }
      }
    }
  }

  /** A string without the separator splits into itself alone. */
  lemma {:induction false} SplitNoSep(a: string, sep: char)
    requires sep !in a
    ensures Split(a, sep) == [a]
  {
    if |a| > 0 {
      SplitNoSep(a[1..], sep);
      assert [a[0]] + a[1..] == a;
    }
  }

  /** A leading separator splits off an empty first piece. */
  lemma SplitLeadingSep(s: string, sep: char)
    requires |s| > 0 && s[0] == sep
    ensures Split(s, sep) == [""] + Split(s[1..], sep)
  {
  }

  /** A separator-free prefix glues onto the first piece of the rest. */
  lemma {:induction false} SplitPrefix(a: string, b: string, sep: char)
    requires sep !in a
    ensures Split(a + b, sep) == [a + Split(b, sep)[0]] + Split(b, sep)[1..]
  {
    var sb := Split(b, sep);
    if |a| == 0 {
      assert a + b == b;
      assert a + sb[0] == sb[0];
      assert sb == [sb[0]] + sb[1..];
    } else {
      SplitPrefix(a[1..], b, sep);
      assert a + b == [a[0]] + (a[1..] + b);
      SplitCons(a[0], a[1..] + b, sep);
      assert [a[0]] + (a[1..] + sb[0]) == a + sb[0];
    }
  }

  /** A character other than the separator joins the first piece. */
  lemma SplitCons(c: char, s: string, sep: char)
    requires c != sep
    ensures Split([c] + s, sep) == [[c] + Split(s, sep)[0]] + Split(s, sep)[1..]
  {
    assert ([c] + s)[1..] == s;
  }

  /** Splitting a join of separator-free pieces gives the pieces back. */
  lemma {:induction false} SplitJoin(parts: seq<string>, sep: char)
    requires |parts| >= 1
    requires forall i :: 0 <= i < |parts| ==> sep !in parts[i]
    ensures Split(Join(parts, sep), sep) == parts
  {
    if |parts| == 1 {
      SplitNoSep(parts[0], sep);
    } else {
      var tail := parts[1..];
      SplitJoin(tail, sep);
      var b := [sep] + Join(tail, sep);
      assert Join(parts, sep) == parts[0] + b;
      SplitPrefix(parts[0], b, sep);
      assert b[0] == sep && b[1..] == Join(tail, sep);
      assert Split(b, sep) == [""] + tail;
      assert Split(b, sep)[0] == "" && Split(b, sep)[1..] == tail;
      assert parts[0] + "" == parts[0];
      assert parts == [parts[0]] + tail;
    }
  }

  function DigitChar(d: nat): (c: char)
    requires d < 10
    ensures '0' <= c <= '9'
  {
    ('0' as int + d) as char
  }

  /** `str(n)` for a non-negative integer: decimal digits, no leading zero. */
  function NatToString(n: nat): (r: string)
    ensures |r| >= 1
    ensures forall i :: 0 <= i < |r| ==> '0' <= r[i] <= '9'
    ensures |r| > 1 ==> r[0] != '0'
  {
    if n < 10 then [DigitChar(n)] else NatToString(n / 10) + [DigitChar(n % 10)]
  }

  /** `str(i)` for any integer. */
  function IntToString(i: int): string {
    if i < 0 then "-" + NatToString(-i) else NatToString(i)
  }

  /** The number a string of decimal digits denotes (Python's `int(s)`). */
  function DigitsValue(s: string): nat
    requires forall i :: 0 <= i < |s| ==> '0' <= s[i] <= '9'
  {
    if |s| == 0 then 0
    else 10 * DigitsValue(s[..|s| - 1]) + (s[|s| - 1] as int - '0' as int)
  }

  /** Reading back the decimal rendering gives the number: `int(str(n)) == n`. */
  lemma {:induction false} NatToStringRoundTrip(n: nat)
    ensures DigitsValue(NatToString(n)) == n
  {
    if n >= 10 {
      NatToStringRoundTrip(n / 10);
      var r := NatToString(n);
      assert r[..|r| - 1] == NatToString(n / 10);
    }
  }

  predicate IsDigits(s: string) {
    |s| > 0 && forall i :: 0 <= i < |s| ==> '0' <= s[i] <= '9'
  }

  /** `int(s)` for a plain decimal numeral with an optional minus sign; any
      other string is a `ValueError`, here `None`. */
  function ParseInt(s: string): (r: Option<int>)
    ensures r.Some? <==> IsDigits(s) || (|s| > 1 && s[0] == '-' && IsDigits(s[1..]))
    ensures r.Some? && s[0] == '-' ==> r.value <= 0
    ensures r.Some? && s[0] != '-' ==> r.value >= 0
  {
    if |s| > 1 && s[0] == '-' && IsDigits(s[1..]) then
      var magnitude: int := DigitsValue(s[1..]);
      Some(-magnitude)
    else if IsDigits(s) then Some(DigitsValue(s))
    else None
  }

  /** `int(str(i)) == i` for every integer. */
  lemma IntToStringRoundTrip(i: int)
    ensures ParseInt(IntToString(i)) == Some(i)
  {
    if i < 0 {
      NegativeRoundTrip(-i);
    } else {
      NonNegativeRoundTrip(i);
    }
  }

  lemma NonNegativeRoundTrip(n: nat)
    ensures ParseInt(NatToString(n)) == Some(n)
  {
    var digits := NatToString(n);
    NatToStringRoundTrip(n);
    assert IsDigits(digits) && digits[0] != '-';
  }

  lemma NegativeRoundTrip(n: nat)
    ensures ParseInt("-" + NatToString(n)) == Some(0 - n)
  {
    var digits := NatToString(n);
    var s := "-" + digits;
    NatToStringRoundTrip(n);
    assert s[1..] == digits && IsDigits(digits);
  }
}

=== FILE: summarize_videos.dfy ===
/** The per-video summary: frame names mapped back to their clip, frame
    predictions grouped by clip, and one summary row per clip holding the
    `&`-joined sorted animals and the multiple-animals flag. */
module SummarizeVideos {
  import opened Options
  import opened Strings
  import opened Order
  import opened Assoc
  import opened Paths
  import ExtractFrames

  const Marker: string := ExtractFrames.FrameMarker

  /** `video_name_from_frame(name)`: the stem up to the first `_frame_`, or
      the whole stem when it has none. */
  function VideoNameFromFrame(frameFilename: string): (r: string)
    ensures StartsWith(Stem(FromStr(frameFilename)), r)
    ensures r == Stem(FromStr(frameFilename)) || OccursAt(Stem(FromStr(frameFilename)), Marker, |r|)
    ensures forall j :: 0 <= j < |r| ==> !OccursAt(Stem(FromStr(frameFilename)), Marker, j)
    ensures !Contains(Stem(FromStr(frameFilename)), Marker) ==> r == Stem(FromStr(frameFilename))
  {
    var stem := Stem(FromStr(frameFilename));
    match Find(stem, Marker)
    case Some(i) => stem[..i]
    case None => stem
  }

  /** The pieces of a frame file name: the clip stem, the marker and the
      number, then the `.jpg` suffix, and no `/` anywhere when the stem has
      none. */
  lemma FrameNameParts(stem: string, idx: nat)
    requires '/' !in stem
    ensures var base := stem + Marker + NatToString(idx);
      var name := ExtractFrames.FrameFileName(stem, idx);
      && |name| == |base| + 4 && name[..|base|] == base
      && name[|base|] == '.' && '.' !in name[|base| + 1..]
      && IsComponent(name)
  {
    var d := NatToString(idx);
    var base := stem + Marker + d;
    var name := ExtractFrames.FrameFileName(stem, idx);
    assert name == base + ".jpg";
    assert '/' !in d by {
      forall i | 0 <= i < |d| ensures d[i] != '/' { }
    }
    assert '/' !in Marker;
    assert '/' !in base;
    assert name[|base| + 1..] == "jpg";
  }

  /** A frame file of a clip whose stem has no `/` parses back to the clip
      stem, marker and number. */
  lemma FrameFileStem(stem: string, idx: nat)
    requires '/' !in stem
    ensures Stem(FromStr(ExtractFrames.FrameFileName(stem, idx))) == stem + Marker + NatToString(idx)
  {
    var base := stem + Marker + NatToString(idx);
    var name := ExtractFrames.FrameFileName(stem, idx);
    FrameNameParts(stem, idx);
    FromComponent(name);
    LastIndexOfAt(name, '.', |base|);
    assert SuffixDot(name) == Some(|base|);
  }

  /** A `_frame_` starting inside the stem and ending inside it would be
      one of the stem's own. */
  lemma NoMarkerWithin(stem: string, rest: string, j: nat)
    requires !Contains(stem, Marker) && j + 7 <= |stem|
    ensures !OccursAt(stem + Marker + rest, Marker, j)
  {
    var s := stem + Marker + rest;
    assert s[j..j + 7] == stem[j..j + 7];
    assert !OccursAt(stem, Marker, j);
  }

  /** A `_frame_` starting in the last five characters of the stem would
      need the appended `_` where the marker has a letter. */
  lemma NoMarkerAcross(stem: string, rest: string, j: nat)
    requires j < |stem| < j + 6
    ensures !OccursAt(stem + Marker + rest, Marker, j)
  {
    var s := stem + Marker + rest;
    var m := |stem| - j;
    if j + 7 <= |s| {
      assert s[j + m] == '_';
      assert Marker[m] != '_';
      assert s[j..j + 7][m] == s[j + m];
    }
  }

  /** A `_frame_` starting six characters before the end of the stem would
      make the stem end in `_frame`. */
  lemma NoMarkerAtTail(stem: string, rest: string, j: nat)
    requires !EndsWith(stem, "_frame") && j + 6 == |stem|
    ensures !OccursAt(stem + Marker + rest, Marker, j)
  {
    var s := stem + Marker + rest;
    assert stem[|stem| - 6..] != "_frame";
    assert s[j..j + 7][..6] == stem[j..];
    assert Marker[..6] == "_frame";
  }

  /** No `_frame_` of stem + `_frame_` + rest starts inside the stem. */
  lemma NoEarlyMarker(stem: string, rest: string, j: nat)
    requires !Contains(stem, Marker) && !EndsWith(stem, "_frame") && j < |stem|
    ensures !OccursAt(stem + Marker + rest, Marker, j)
  {
    if j + 7 <= |stem| {
      NoMarkerWithin(stem, rest, j);
    } else if j + 6 == |stem| {
      NoMarkerAtTail(stem, rest, j);
    } else {
      NoMarkerAcross(stem, rest, j);
    }
  }

  /** When the stem neither holds `_frame_` nor ends in `_frame`, the first
      `_frame_` of stem + `_frame_` + rest is the appended one. */
  lemma FirstMarker(stem: string, rest: string)
    requires !Contains(stem, Marker) && !EndsWith(stem, "_frame")
    ensures Find(stem + Marker + rest, Marker) == Some(|stem|)
  {
    var s := stem + Marker + rest;
    assert s[|stem|..|stem| + 7] == Marker;
    forall j | 0 <= j < |stem| ensures !OccursAt(s, Marker, j) {
      NoEarlyMarker(stem, rest, j);
    }
    FindAt(s, Marker, |stem|);
  }

  /** The frame names extract_frames writes map back to their clip when the
      clip stem neither holds `_frame_` nor ends in `_frame`. */
  lemma FrameNameRoundTrip(stem: string, idx: nat)
    requires '/' !in stem && !Contains(stem, Marker) && !EndsWith(stem, "_frame")
    ensures VideoNameFromFrame(ExtractFrames.FrameFileName(stem, idx)) == stem
  {
    FrameFileStem(stem, idx);
    FirstMarker(stem, NatToString(idx));
    assert (stem + Marker + NatToString(idx))[..|stem|] == stem;
  }

  /** A clip whose stem ends in `_frame` is attributed to a shorter name:
      the frames of `a_frame.mp4` count for a clip `a`. */
  lemma StemEndingInFrameIsCut(stem: string, idx: nat)
    requires '/' !in stem && !Contains(stem, Marker) && EndsWith(stem, "_frame")
    ensures VideoNameFromFrame(ExtractFrames.FrameFileName(stem, idx)) == stem[..|stem| - 6]
    ensures VideoNameFromFrame(ExtractFrames.FrameFileName(stem, idx)) != stem
  {
    var rest := NatToString(idx);
    var s := stem + Marker + rest;
    var i := |stem| - 6;
    FrameFileStem(stem, idx);
    assert OccursAt(s, Marker, i) by {
      assert s[i..i + 6] == stem[i..] == "_frame";
      assert s[i + 6] == '_';
      assert s[i..i + 7] == s[i..i + 6] + [s[i + 6]];
    }
    forall j | 0 <= j < i ensures !OccursAt(s, Marker, j) {
      NoMarkerWithin(stem, rest, j);
    }
    FindAt(s, Marker, i);
    assert s[..i] == stem[..i];
  }

  /** `normalize_animal(name)`: every space becomes `_`, nothing else
      changes. */
  function NormalizeAnimal(name: string): (r: string)
    ensures |r| == |name| && ' ' !in r
    ensures forall i :: 0 <= i < |name| ==> r[i] == (if name[i] == ' ' then '_' else name[i])
  {
    ReplaceCharPointwise(name, ' ', '_');
    ReplaceChar(name, ' ', "_")
  }

  /** A row of `animal_predictions.csv`; `None` for a missing column. */
  datatype PredRow = PredRow(filename: Option<string>, animal: Option<string>)

  function VideoOf(row: PredRow): string {
    VideoNameFromFrame(row.filename.GetOr(""))
  }

  function AnimalOf(row: PredRow): string {
    row.animal.GetOr("")
  }

  /** Independent reference: the animals of the rows of one clip, in row
      order. */
  function AnimalsOf(rows: seq<PredRow>, v: string): (r: seq<string>)
    ensures |r| <= |rows|
  {
    if |rows| == 0 then []
    else AnimalsOf(rows[..|rows| - 1], v) + (if VideoOf(rows[|rows| - 1]) == v then [AnimalOf(rows[|rows| - 1])] else [])
  }

  /** `per_video[video].append(animal)` on a `defaultdict(list)`. */
  function AppendTo(g: Assoc<seq<string>>, v: string, a: string): Assoc<seq<string>> {
    Upsert(g, v, Lookup(g, v).GetOr([]) + [a])
  }

  /** The clip of every prediction row, in file order. */
  function ClipsOf(rows: seq<PredRow>): seq<string> {
    if |rows| == 0 then [] else ClipsOf(rows[..|rows| - 1]) + [VideoOf(rows[|rows| - 1])]
  }

  /** `load_predictions(csv)` over the rows of the file: the animals grouped
      by clip, clips in first-seen order. */
  function LoadPredictions(rows: seq<PredRow>): (g: Assoc<seq<string>>)
    ensures Distinct(Keys(g))
    ensures Keys(g) == Dedup(ClipsOf(rows))
  {
    if |rows| == 0 then []
    else
      var init, row := rows[..|rows| - 1], rows[|rows| - 1];
      var g := LoadPredictions(init);
      AppendKeys(g, VideoOf(row), AnimalOf(row), ClipsOf(init));
      AppendTo(g, VideoOf(row), AnimalOf(row))
  }

  /** Appending to a clip's group keeps the keys the clips seen so far,
      without repeats and in first-seen order. */
  lemma AppendKeys(g: Assoc<seq<string>>, v: string, a: string, seen: seq<string>)
    requires Distinct(Keys(g)) && Keys(g) == Dedup(seen)
    ensures Distinct(Keys(AppendTo(g, v, a))) && Keys(AppendTo(g, v, a)) == Dedup(seen + [v])
  {
    UpsertDistinct(g, v, Lookup(g, v).GetOr([]) + [a]);
    assert (seen + [v])[..|seen|] == seen;
  }

  /** Every row lands in exactly one group, the one of its clip, in row
      order; a clip has a group exactly when some row belongs to it. */
  lemma {:induction false} GroupsAreReference(rows: seq<PredRow>, v: string)
    ensures Lookup(LoadPredictions(rows), v) ==
      (if AnimalsOf(rows, v) == [] then None else Some(AnimalsOf(rows, v)))
  {
    if |rows| > 0 {
      var init, row := rows[..|rows| - 1], rows[|rows| - 1];
      GroupsAreReference(init, v);
      var g := LoadPredictions(init);
      var w, a := VideoOf(row), AnimalOf(row);
      assert LoadPredictions(rows) == AppendTo(g, w, a);
      var prev := AnimalsOf(init, v);
      assert AnimalsOf(rows, v) == prev + (if w == v then [a] else []);
      if w == v {
        assert Lookup(g, v).GetOr([]) == prev;
        assert Lookup(AppendTo(g, w, a), v) == Some(prev + [a]);
      } else {
        assert AnimalsOf(rows, v) == prev;
        assert Lookup(AppendTo(g, w, a), v) == Lookup(g, v);
      }
    }
  }

  /** A line of `animals_in_videos.csv`. */
  datatype SummaryRow = SummaryRow(videoTitle: string, uniqueAnimals: string, multipleAnimals: string)

  /** `set(a for a in animals if a)`, as a sequence without repeats. */
  function Uniq(animals: seq<string>): (u: seq<string>)
    ensures Distinct(u)
    ensures forall a :: a in u <==> a in animals && a != ""
  {
    Dedup(NonEmpty(animals))
  }

  /** `sorted(normalize_animal(a) for a in uniq)`. */
  function NormalizedSorted(animals: seq<string>): (r: seq<string>)
    ensures SortedBy(r, LexLe)
    ensures multiset(r) == multiset(MapSeq(NormalizeAnimal, Uniq(animals)))
  {
    LexLeIsTotalOrder();
    Sort(MapSeq(NormalizeAnimal, Uniq(animals)), LexLe)
  }

  /** The `unique_animals` field. */
  function UniqueAnimals(animals: seq<string>): string {
    if |Uniq(animals)| > 0 then Join(NormalizedSorted(animals), '&') else ""
  }

  /** The summary row of one clip. */
  function SummaryOf(video: string, animals: seq<string>): (r: SummaryRow)
    ensures r.videoTitle == video
    ensures r.multipleAnimals == "true" || r.multipleAnimals == "false"
  {
    SummaryRow(video, UniqueAnimals(animals), if |Uniq(animals)| > 1 then "true" else "false")
  }

  /** `aggregate(per_video)`: one row per clip, in the dict's order. */
  function Aggregate(g: Assoc<seq<string>>): (rows: seq<SummaryRow>)
    ensures |rows| == |g|
    ensures forall i :: 0 <= i < |g| ==> rows[i].videoTitle == g[i].0
  {
    if |g| == 0 then [] else [SummaryOf(g[0].0, g[0].1)] + Aggregate(g[1..])
  }

  lemma {:induction false} AggregateAt(g: Assoc<seq<string>>, i: nat)
    requires i < |g|
    ensures Aggregate(g)[i] == SummaryOf(g[i].0, g[i].1)
  {
    var t := g[1..];
    var head := SummaryOf(g[0].0, g[0].1);
    assert Aggregate(g) == [head] + Aggregate(t);
    if i > 0 {
      AggregateAt(t, i - 1);
      assert Aggregate(g)[i] == Aggregate(t)[i - 1];
      assert t[i - 1] == g[i];
    }
  }

  /** The flag is "true" exactly when the clip has two different non-empty
      animal names. */
  lemma MultipleIff(video: string, animals: seq<string>)
    ensures SummaryOf(video, animals).multipleAnimals == "true" <==>
      exists i, j :: 0 <= i < |animals| && 0 <= j < |animals| && animals[i] != "" && animals[j] != "" && animals[i] != animals[j]
  {
    var ne := NonEmpty(animals);
    DedupMoreThanOne(ne);
    if exists i, j :: 0 <= i < |animals| && 0 <= j < |animals| && animals[i] != "" && animals[j] != "" && animals[i] != animals[j] {
      var i, j :| 0 <= i < |animals| && 0 <= j < |animals| && animals[i] != "" && animals[j] != "" && animals[i] != animals[j];
      assert animals[i] in ne && animals[j] in ne;
    }
    if exists i, j :: 0 <= i < |ne| && 0 <= j < |ne| && ne[i] != ne[j] {
      var i, j :| 0 <= i < |ne| && 0 <= j < |ne| && ne[i] != ne[j];
      assert ne[i] in ne && ne[j] in ne;
      assert ne[i] in animals && ne[j] in animals;
    }
  }

  /** The animals field is empty exactly when the clip has no non-empty
      animal name. */
  lemma UniqueAnimalsEmptyIff(animals: seq<string>)
    ensures UniqueAnimals(animals) == "" <==> forall i :: 0 <= i < |animals| ==> animals[i] == ""
  {
    var u := Uniq(animals);
    if |u| > 0 {
      var r := NormalizedSorted(animals);
      assert |r| == |multiset(r)| == |MapSeq(NormalizeAnimal, u)| > 0;
      MapSeqAt(NormalizeAnimal, u);
      assert r[0] in multiset(MapSeq(NormalizeAnimal, u));
      assert forall y :: y in MapSeq(NormalizeAnimal, u) ==> y != "" by {
        forall y | y in MapSeq(NormalizeAnimal, u) ensures y != "" {
          var k :| 0 <= k < |u| && MapSeq(NormalizeAnimal, u)[k] == y;
          assert u[k] in u;
        }
      }
      JoinCons(r[0], r[1..], '&');
      assert r == [r[0]] + r[1..];
      assert u[0] in animals;
    } else {
      forall i | 0 <= i < |animals| ensures animals[i] == "" {
        assert animals[i] in animals;
      }
    }
  }

  /** The summary depends only on the set of non-empty names, not on their
      order or repetition. */
  lemma SameNamesSameSummary(video: string, a: seq<string>, b: seq<string>)
    requires forall x :: x in a && x != "" <==> x in b && x != ""
    ensures SummaryOf(video, a) == SummaryOf(video, b)
  {
    var ua, ub := Uniq(a), Uniq(b);
    DistinctSameMembers(ua, ub);
    assert |ua| == |multiset(ua)| == |multiset(ub)| == |ub|;
    MapPermutation(NormalizeAnimal, ua, ub);
    LexLeIsTotalOrder();
    SortedUnique(NormalizedSorted(a), NormalizedSorted(b), LexLe);
  }

  /** Splitting the field on `&` gives back the sorted normalised names,
      provided no name holds `&`. */
  lemma SplitUniqueAnimals(animals: seq<string>)
    requires forall i :: 0 <= i < |animals| ==> '&' !in animals[i]
    requires exists i :: 0 <= i < |animals| && animals[i] != ""
    ensures Split(UniqueAnimals(animals), '&') == NormalizedSorted(animals)
  {
    var u := Uniq(animals);
    var i :| 0 <= i < |animals| && animals[i] != "";
    assert animals[i] in u;
    var m := MapSeq(NormalizeAnimal, u);
    var r := NormalizedSorted(animals);
    MapSeqAt(NormalizeAnimal, u);
    assert |r| == |multiset(r)| == |m| > 0;
    forall k | 0 <= k < |r| ensures '&' !in r[k] {
      assert r[k] in multiset(m);
      var j :| 0 <= j < |m| && m[j] == r[k];
      assert u[j] in u;
      var t :| 0 <= t < |animals| && animals[t] == u[j];
    }
    SplitJoin(r, '&');
  }

  /** Normalising can merge two different names, and the merged name is
      then listed twice: "red fox" and "red_fox" give "red_fox&red_fox". */
  lemma MergedNamesRepeat(a: string, b: string)
    requires a != "" && b != "" && a != b && NormalizeAnimal(a) == NormalizeAnimal(b)
    ensures NormalizedSorted([a, b]) == [NormalizeAnimal(a), NormalizeAnimal(a)]
  {
    var n := NormalizeAnimal(a);
    var u := Uniq([a, b]);
    UniqOfTwo(a, b);
    MapSeqAt(NormalizeAnimal, u);
    assert u[0] in u && u[1] in u;
    assert NormalizeAnimal(u[0]) == n && NormalizeAnimal(u[1]) == n;
    assert MapSeq(NormalizeAnimal, u) == [n, n];
    TwiceOnly(NormalizedSorted([a, b]), n);
  }

  /** Two different non-empty names stay two. */
  lemma UniqOfTwo(a: string, b: string)
    requires a != "" && b != "" && a != b
    ensures |Uniq([a, b])| == 2 && forall x :: x in Uniq([a, b]) ==> x == a || x == b
  {
    var u := Uniq([a, b]);
    assert a in [a, b] && b in [a, b];
    var p :| 0 <= p < |u| && u[p] == a;
    var q :| 0 <= q < |u| && u[q] == b;
    assert p != q;
    assert |u| <= |NonEmpty([a, b])| <= 2;
  }

  /** A sequence holding one value twice and nothing else is that value
      twice. */
  lemma TwiceOnly(r: seq<string>, n: string)
    requires multiset(r) == multiset([n, n])
    ensures r == [n, n]
  {
    assert |r| == |multiset(r)| == 2;
    assert r[0] in multiset(r) && r[1] in multiset(r);
  }


  /** Every name with a space has a different spelling with `_` that
      normalises to the same name. */
  lemma SpaceSpellingMerges(a: string)
    requires ' ' in a
    ensures var b := ReplaceChar(a, ' ', "_");
      b != a && NormalizeAnimal(b) == NormalizeAnimal(a)
  {
    var b := ReplaceChar(a, ' ', "_");
    ReplaceCharPointwise(a, ' ', '_');
    var k :| 0 <= k < |a| && a[k] == ' ';
    assert b[k] != a[k];
    ReplaceCharPointwise(b, ' ', '_');
  }

  /** `aggregate(load_predictions(csv))` */
  function Summarize(rows: seq<PredRow>): seq<SummaryRow> {
    Aggregate(LoadPredictions(rows))
  }

  /** The summary's titles are the clips without repeats, in file order. */
  lemma {:induction false} SummaryTitlesDedup(rows: seq<PredRow>)
    ensures |Summarize(rows)| == |Dedup(ClipsOf(rows))|
    ensures forall i :: 0 <= i < |Summarize(rows)| ==> Summarize(rows)[i].videoTitle == Dedup(ClipsOf(rows))[i]
  {
    var g := LoadPredictions(rows);
    assert Keys(g) == Dedup(ClipsOf(rows));
    assert |Keys(g)| == |g|;
  }

  /** Rows titled by `Dedup(clips)`, position by position, come in the
      order of the titles' first occurrences in `clips`. */
  lemma FirstSeenTitles(out: seq<SummaryRow>, clips: seq<string>)
    requires |out| == |Dedup(clips)|
    requires forall i :: 0 <= i < |out| ==> out[i].videoTitle == Dedup(clips)[i]
    ensures forall i :: 0 <= i < |out| ==> out[i].videoTitle in clips
    ensures forall i, j :: 0 <= i < j < |out| ==>
      Order.IndexOf(clips, out[i].videoTitle) < Order.IndexOf(clips, out[j].videoTitle)
  {
    var d := Dedup(clips);
    DedupFirstSeen(clips);
    forall i | 0 <= i < |out| ensures out[i].videoTitle in clips {
      assert d[i] in d;
    }
    forall i, j | 0 <= i < j < |out|
      ensures Order.IndexOf(clips, out[i].videoTitle) < Order.IndexOf(clips, out[j].videoTitle)
    {
      assert out[i].videoTitle == d[i] && out[j].videoTitle == d[j];
    }
  }

  /** The summary lists the clips in the order the prediction file first
      mentions them. */
  lemma SummaryInFirstSeenOrder(rows: seq<PredRow>)
    ensures forall i :: 0 <= i < |Summarize(rows)| ==> Summarize(rows)[i].videoTitle in ClipsOf(rows)
    ensures forall i, j :: 0 <= i < j < |Summarize(rows)| ==>
      Order.IndexOf(ClipsOf(rows), Summarize(rows)[i].videoTitle) < Order.IndexOf(ClipsOf(rows), Summarize(rows)[j].videoTitle)
  {
    SummaryTitlesDedup(rows);
    FirstSeenTitles(Summarize(rows), ClipsOf(rows));
  }

  /** One output row per clip: the titles are distinct, a clip has a row
      exactly when some prediction row belongs to it, and that row
      summarises exactly the clip's animals. */
  lemma OneRowPerVideo(rows: seq<PredRow>, v: string)
    ensures var out := Summarize(rows);
      Distinct(MapSeq((r: SummaryRow) => r.videoTitle, out))
    ensures var out := Summarize(rows);
      (exists i :: 0 <= i < |out| && out[i].videoTitle == v) <==> AnimalsOf(rows, v) != []
    ensures var out := Summarize(rows);
      forall i :: 0 <= i < |out| && out[i].videoTitle == v ==> out[i] == SummaryOf(v, AnimalsOf(rows, v))
  {
    var out := Summarize(rows);
    SummaryTitles(rows);
    forall i | 0 <= i < |out| && out[i].videoTitle == v ensures out[i] == SummaryOf(v, AnimalsOf(rows, v)) {
      SummaryRowAt(rows, i);
    }
    TitledRowIff(rows, v);
  }

  /** A clip has a summary row exactly when some prediction row names it. */
  lemma TitledRowIff(rows: seq<PredRow>, v: string)
    ensures (exists i :: 0 <= i < |Summarize(rows)| && Summarize(rows)[i].videoTitle == v) <==> AnimalsOf(rows, v) != []
  {
    var g := LoadPredictions(rows);
    var out := Summarize(rows);
    GroupsAreReference(rows, v);
    LookupKeys(g, v);
    if AnimalsOf(rows, v) != [] {
      var i :| 0 <= i < |g| && Keys(g)[i] == v;
      assert out[i].videoTitle == v;
    }
    if i :| 0 <= i < |out| && out[i].videoTitle == v {
      assert Keys(g)[i] == v;
    }
  }

  /** The output titles are the clips in first-seen order. */
  lemma SummaryTitles(rows: seq<PredRow>)
    ensures MapSeq((r: SummaryRow) => r.videoTitle, Summarize(rows)) == Keys(LoadPredictions(rows))
  {
    MapSeqAt((r: SummaryRow) => r.videoTitle, Summarize(rows));
  }

  /** The row at `i` summarises all the animals of its clip. */
  lemma SummaryRowAt(rows: seq<PredRow>, i: nat)
    requires i < |Summarize(rows)|
    ensures Summarize(rows)[i] == SummaryOf(Summarize(rows)[i].videoTitle, AnimalsOf(rows, Summarize(rows)[i].videoTitle))
  {
    var g := LoadPredictions(rows);
    AggregateAt(g, i);
    LookupDistinct(g, i);
    GroupsAreReference(rows, g[i].0);
  }

  /** The header of `animals_in_videos.csv`. */
  const Columns: seq<string> := ["video_title", "unique_animals", "multiple_animals"]

  /** `write_output(rows, path)` as the table written: the header, then one
      record per row with the fields in header order. */
  function WriteOutput(rows: seq<SummaryRow>): (table: seq<seq<string>>)
    ensures |table| == |rows| + 1 && table[0] == Columns
    ensures forall i :: 1 <= i < |table| ==> |table[i]| == |Columns|
  {
    [Columns] + seq(|rows|, i requires 0 <= i < |rows| =>
      [rows[i].videoTitle, rows[i].uniqueAnimals, rows[i].multipleAnimals])
  }

  /** Reading a written record by column name gives the row's field. */
  function Field(table: seq<seq<string>>, i: nat, column: string): Option<string>
    requires |table| > 0
  {
    if i < |table| then
      match IndexOf(table[0], column)
      case Some(k) => if k < |table[i]| then Some(table[i][k]) else None
      case None => None
    else None
  }

  function IndexOf(s: seq<string>, x: string): (r: Option<nat>)
    ensures r.Some? ==> r.value < |s| && s[r.value] == x
    ensures r.None? ==> x !in s
  {
    if |s| == 0 then None
    else if s[0] == x then Some(0)
    else match IndexOf(s[1..], x)
      case Some(k) => Some(k + 1)
      case None => None
  }

  lemma ReadBack(rows: seq<SummaryRow>, i: nat)
    requires i < |rows|
    ensures Field(WriteOutput(rows), i + 1, "video_title") == Some(rows[i].videoTitle)
    ensures Field(WriteOutput(rows), i + 1, "unique_animals") == Some(rows[i].uniqueAnimals)
    ensures Field(WriteOutput(rows), i + 1, "multiple_animals") == Some(rows[i].multipleAnimals)
  {
    assert IndexOf(Columns, "video_title") == Some(0);
    assert Columns[1..] == ["unique_animals", "multiple_animals"];
    assert IndexOf(Columns, "unique_animals") == Some(1);
    assert Columns[1..][1..] == ["multiple_animals"];
    assert IndexOf(Columns, "multiple_animals") == Some(2);
  }

  lemma DefaultPaths()
    ensures Child(FromStr("detection_csvs"), "animal_predictions.csv") == Path(false, ["detection_csvs", "animal_predictions.csv"])
    ensures Child(FromStr("detection_csvs"), "animals_in_videos.csv") == Path(false, ["detection_csvs", "animals_in_videos.csv"])
  {
    assert IsComponent("detection_csvs");
    ChildOfComponent("detection_csvs", "animal_predictions.csv");
    ChildOfComponent("detection_csvs", "animals_in_videos.csv");
  }

  /** What `main` does: the input and output paths (defaults under
      `detection_csvs`), and either the missing-input error or the table
      written. */
  datatype Outcome = InputMissing(input: Path) | Wrote(output: Path, table: seq<seq<string>>)

  function Main(fs: FileSystem, inputArg: string, outputArg: string, rows: seq<PredRow>): (r: Outcome)
    ensures var input := if inputArg != "" then FromStr(inputArg) else Path(false, ["detection_csvs", "animal_predictions.csv"]);
      r.InputMissing? <==> !Exists(fs, input)
    ensures r.Wrote? ==> r.output == (if outputArg != "" then FromStr(outputArg) else Path(false, ["detection_csvs", "animals_in_videos.csv"]))
    ensures r.Wrote? ==> |r.table| == |Summarize(rows)| + 1
    ensures r.Wrote? ==> r.table == WriteOutput(Summarize(rows))
  {
    var defaultDir := FromStr("detection_csvs");
    DefaultPaths();
    var input := if inputArg != "" then FromStr(inputArg) else Child(defaultDir, "animal_predictions.csv");
    var output := if outputArg != "" then FromStr(outputArg) else Child(defaultDir, "animals_in_videos.csv");
    if !Exists(fs, input) then InputMissing(input)
    else Wrote(output, WriteOutput(Summarize(rows)))
  }
}

=== FILE: video_player.dfy ===
/** The playback engine of the review screen as a sequential state machine:
    the flags `running`/`paused`, the speed multiplier, the aspect-ratio fit of
    the display size, and the playback loop taken one iteration at a time over
    a decoder that delivers a finite stream of frames. The thread, its sleeps
    and the frame conversion are not modelled; one `Tick` is one pass of the
    loop body. */
module VideoPlayer {
  import opened Options

  /** An opened `cv2.VideoCapture`: whether `isOpened()` holds, the width,
      height and frame count it reports, and how many frames it can still
      deliver to `read`/`grab`. */
  datatype Capture = Capture(isOpen: bool, width: int, height: int, frameCount: int, remaining: nat)

  /** The player's fields. `position` is the playback loop's `current_frame`,
      `progress` the values passed to the progress callback in the current
      run, `completions` the number of completion callbacks in the current
      run, and `shown` the number of frames handed to the frame callback. */
  datatype Player = Player(
    cap: Option<Capture>,
    running: bool,
    paused: bool,
    speed: real,
    displaySize: (int, int),
    videoSize: Option<(int, int)>,
    totalFrames: int,
    container: Option<(int, int)>,
    position: nat,
    progress: seq<real>,
    completions: nat,
    shown: nat)

  /** A call either returns or raises; both leave the player in some state,
      since Python has already assigned some fields when it raises. */
  datatype Outcome = Returned(state: Player) | Raised(state: Player)

  /** A freshly constructed player. */
  function New(): Player {
    Player(None, false, false, 1.0, (640, 480), None, 0, None, 0, [], 0, 0)
  }

  // ---------------------------------------------------------------- speed

  /** `set_speed(m)`: the multiplier is floored at 0.1. */
  function SetSpeed(p: Player, m: real): (r: Player)
    ensures r.speed >= 0.1
    ensures m >= 0.1 ==> r.speed == m
    ensures m < 0.1 ==> r.speed == 0.1
    ensures r.(speed := p.speed) == p
  {
    p.(speed := if m < 0.1 then 0.1 else m)
  }

  /** Python's `round(x)` on a float: the nearest integer, ties to the even one. */
  function RoundHalfEven(x: real): (r: int)
    ensures x - 0.5 <= r as real <= x + 0.5
    ensures (r as real == x - 0.5 || r as real == x + 0.5) ==> r % 2 == 0
  {
    var f := x.Floor;
    var d := x - f as real;
    if d < 0.5 then f
    else if d > 0.5 then f + 1
    else if f % 2 == 0 then f
    else f + 1
  }

  /** The contract above pins `round` down: no other integer is within one
      half of `x` and even on a tie. */
  lemma RoundHalfEvenUnique(x: real, n: int)
    requires x - 0.5 <= n as real <= x + 0.5
    requires (n as real == x - 0.5 || n as real == x + 0.5) ==> n % 2 == 0
    ensures n == RoundHalfEven(x)
  {
    var f := x.Floor;
    var d := x - f as real;
    if d < 0.5 {
      assert n == f;
    } else if d > 0.5 {
      assert n == f + 1;
    } else {
      assert n == f || n == f + 1;
    }
  }

  /** Frames advanced per loop pass: `max(1, int(round(speed)))`. */
  function FrameStep(speed: real): (step: nat)
    ensures step >= 1
    ensures speed > 0.5 ==> step == RoundHalfEven(speed)
    ensures speed <= 0.5 ==> step == 1
  {
    var n := RoundHalfEven(speed);
    if n < 1 then 1 else n
  }

  lemma FrameStepExamples()
    ensures FrameStep(1.5) == 2 && FrameStep(2.5) == 2 && FrameStep(0.1) == 1
    ensures FrameStep(4.0) == 4 && FrameStep(0.5) == 1
  {
  }

  // --------------------------------------------------------- display size

  function Abs(x: int): nat {
    if x < 0 then -x else x
  }

  /** `int(a / b)` for integers: exact division, then truncation toward zero. */
  function TruncDiv(a: int, b: int): (q: int)
    requires b != 0
    ensures 0 <= a && 0 < b ==> 0 <= q && q * b <= a < q * b + b
    ensures Abs(q) * Abs(b) <= Abs(a) < (Abs(q) + 1) * Abs(b)
    ensures (a < 0) != (b < 0) ==> q <= 0
    ensures (a < 0) == (b < 0) ==> q >= 0
  {
    var m: int := NatDiv(Abs(a), Abs(b));
    DivBounds(Abs(a), Abs(b));
    if 0 <= a && 0 < b then m
    else if (a < 0) == (b < 0) then m else -m
  }

  /** Division of naturals, whose quotient is a natural. */
  function NatDiv(a: nat, b: nat): (q: nat)
    requires b > 0
    ensures q == a / b
  {
    a / b
  }

  /** The floor quotient of naturals brackets the dividend. */
  lemma DivBounds(a: nat, b: nat)
    requires b > 0
    ensures (a / b) * b <= a < (a / b) * b + b
  {
    assert a == (a / b) * b + a % b;
  }

  /** `_calculate_display_size` for a loaded video of size `video`: fit the
      container's width, and fit its height instead when the fitted height
      is too tall; with no container, 640 pixels wide. `None` is the
      `ZeroDivisionError` a zero width or height raises. The aspect ratio is
      taken exactly (`cw / (w / h)` as `cw * h / w`). */
  function FitDisplay(video: (int, int), container: Option<(int, int)>): (r: Option<(int, int)>)
    ensures r.None? <==> video.0 == 0 || video.1 == 0
    ensures r.Some? && container.None? ==> r.value.0 == 640
  {
    var (w, h) := video;
    if h == 0 || w == 0 then None
    else match container
      case None => Some((640, TruncDiv(640 * h, w)))
      case Some((cw, ch)) =>
        var th := TruncDiv(cw * h, w);
        if th > ch then Some((TruncDiv(ch * w, h), ch)) else Some((cw, th))
  }

  lemma MulStrict(a: int, b: int, c: int)
    requires a < b && c > 0
    ensures a * c < b * c
  {
  }

  lemma MulCancel(a: int, b: int, c: int)
    requires a * c < b * c && c > 0
    ensures a < b
  {
    assert (b - a) * c == b * c - a * c;
  }

  /** The fitted size lies within the container, touches it on one side, and
      keeps the video's aspect ratio up to the truncation of the other side. */
  lemma FitsContainer(w: int, h: int, cw: int, ch: int)
    requires w > 0 && h > 0 && cw >= 0 && ch >= 0
    ensures FitDisplay((w, h), Some((cw, ch))).Some?
    ensures var d := FitDisplay((w, h), Some((cw, ch))).value;
      && 0 <= d.0 <= cw && 0 <= d.1 <= ch
      && ((d.0 == cw && d.1 * w <= cw * h < (d.1 + 1) * w)
       || (d.1 == ch && d.0 * h <= ch * w < (d.0 + 1) * h))
  {
    var th := TruncDiv(cw * h, w);
    if th > ch {
      var tw := TruncDiv(ch * w, h);
      MulStrict(ch, th, w);
      assert tw * h <= ch * w < th * w <= cw * h;
      MulCancel(tw, cw, h);
    }
  }

  /** Without a container the display is 640 pixels wide with the
      proportional height, truncated. */
  lemma FallbackWidth(w: int, h: int)
    requires w > 0 && h > 0
    ensures var d := FitDisplay((w, h), None).value;
      d.0 == 640 && 0 <= d.1 && d.1 * w <= 640 * h < (d.1 + 1) * w
  {
  }

  /** Recomputes the display size when a video is loaded; `None` when that
      raises. */
  function Recalc(p: Player): (r: Option<Player>)
    ensures p.videoSize.None? ==> r == Some(p)
    ensures r.Some? ==> r.value.(displaySize := p.displaySize) == p
  {
    match p.videoSize
    case None => Some(p)
    case Some(v) =>
      match FitDisplay(v, p.container)
      case None => None
      case Some(d) => Some(p.(displaySize := d))
  }

  /** `set_target_container_size(w, h)`: records the container and refits
      the display only when a video is loaded. */
  function SetContainerSize(p: Player, w: int, h: int): (r: Outcome)
    ensures r.state.container == Some((w, h))
    ensures p.videoSize.None? ==> r == Returned(p.(container := Some((w, h))))
    ensures r.state.(displaySize := p.displaySize, container := p.container) == p
    ensures r.Raised? <==> p.videoSize.Some? && (p.videoSize.value.0 == 0 || p.videoSize.value.1 == 0)
  {
    var p1 := p.(container := Some((w, h)));
    match Recalc(p1)
    case None => Raised(p1)
    case Some(p2) => Returned(p2)
  }

  // ------------------------------------------------------------ lifecycle

  /** `stop()`: clears `running` and releases the capture. */
  function Stop(p: Player): (r: Player)
    ensures !r.running && r.cap.None?
    ensures r.(running := p.running, cap := p.cap) == p
  {
    p.(running := false, cap := None)
  }

  /** Stopping twice is stopping once, and stopping a player that never
      started only clears the capture. */
  lemma StopIdempotent(p: Player)
    ensures Stop(Stop(p)) == Stop(p)
    ensures !p.running && p.cap.None? ==> Stop(p) == p
  {
  }

  /** `load_video(path)`, where `c` is what the decoder opened for `path`:
      stops a running player first, raises when the source does not open (the
      unopened capture stays assigned) or when its size makes the fit divide
      by zero, and otherwise records sizes and frame count and unpauses. */
  function LoadVideo(p: Player, c: Capture): (r: Outcome)
    ensures !r.state.running && r.state.cap == Some(c)
    ensures r.Raised? <==> !c.isOpen || c.width == 0 || c.height == 0
    ensures r.Returned? ==>
      (!r.state.paused && r.state.totalFrames == c.frameCount && r.state.videoSize == Some((c.width, c.height)))
    ensures !c.isOpen ==> r.state.videoSize == p.videoSize && r.state.totalFrames == p.totalFrames
    ensures r.state.progress == p.progress && r.state.completions == p.completions
  {
    var p1 := if p.running then Stop(p) else p;
    var p2 := p1.(cap := Some(c));
    if !c.isOpen then Raised(p2)
    else
      var p3 := p2.(videoSize := Some((c.width, c.height)), totalFrames := c.frameCount);
      match Recalc(p3)
      case None => Raised(p3)
      case Some(p4) => Returned(p4.(paused := false))
  }

  /** `start()`: raises without an opened capture, does nothing while already
      running, and otherwise begins a new run of the playback loop. */
  function Start(p: Player): (r: Outcome)
    ensures r.Raised? <==> p.cap.None? || !p.cap.value.isOpen
    ensures r.Raised? ==> r.state == p
    ensures r.Returned? && p.running ==> r.state == p
    ensures r.Returned? ==> r.state.running
    ensures r.Returned? && !p.running ==>
      r.state.position == 0 && r.state.progress == [] && r.state.completions == 0
  {
    if p.cap.None? || !p.cap.value.isOpen then Raised(p)
    else if p.running then Returned(p)
    else Returned(p.(running := true, position := 0, progress := [], completions := 0))
  }

  /** `toggle_pause()` */
  function TogglePause(p: Player): (r: Player)
    ensures r.paused != p.paused
    ensures r.(paused := p.paused) == p
  {
    p.(paused := !p.paused)
  }

  lemma TogglePauseTwice(p: Player)
    ensures TogglePause(TogglePause(p)) == p
  {
  }

  // -------------------------------------------------------- playback loop

  /** `min(1.0, current / total)` for a positive total. */
  function Ratio(current: nat, total: int): (r: real)
    requires total > 0
    ensures 0.0 <= r <= 1.0
    ensures r == 1.0 <==> current >= total
  {
    if current >= total then 1.0 else (current as real) / (total as real)
  }

  lemma RatioMonotone(a: nat, b: nat, total: int)
    requires a <= b && total > 0
    ensures Ratio(a, total) <= Ratio(b, total)
  {
    if b < total {
      assert (a as real) / (total as real) <= (b as real) / (total as real);
    }
  }

  /** The end of the stream: progress 1.0, one completion callback, and the
      loop stops. */
  function Complete(p: Player): (r: Player)
    ensures !r.running && r.completions == p.completions + 1
    ensures r.progress == p.progress + [1.0]
  {
    p.(running := false, progress := p.progress + [1.0], completions := p.completions + 1)
  }

  /** One pass of `_playback_loop`. A stopped loop and a paused one consume
      nothing. Otherwise it reads one frame and grabs `step - 1` more; a
      failed read or grab ends the stream, and a full step reports progress
      when the frame count is positive and shows the frame. */
  function Tick(p: Player): (r: Player)
    ensures !p.running || p.paused || p.cap.None? ==> r == p
    ensures r.videoSize == p.videoSize && r.totalFrames == p.totalFrames && r.speed == p.speed
    ensures p.running && !p.paused && p.cap.Some? ==>
      var step := FrameStep(p.speed);
      var left := p.cap.value.remaining;
      if left >= step then
        && r.running && r.cap.Some? && r.cap.value.remaining == left - step
        && r.position == p.position + step && r.shown == p.shown + 1
        && r.progress == p.progress + (if p.totalFrames > 0 then [Ratio(r.position, p.totalFrames)] else [])
      else
        && !r.running && r.completions == p.completions + 1
        && r.progress == p.progress + [1.0] && r.shown == p.shown
  {
    if !p.running || p.paused || p.cap.None? then p
    else
      var step := FrameStep(p.speed);
      var c := p.cap.value;
      if c.remaining == 0 then Complete(p)
      else if c.remaining < step then
        Complete(p.(cap := Some(c.(remaining := 0)), position := p.position + c.remaining))
      else
        var pos := p.position + step;
        var p1 := p.(cap := Some(c.(remaining := c.remaining - step)), position := pos, shown := p.shown + 1);
        if p.totalFrames > 0 then p1.(progress := p.progress + [Ratio(pos, p.totalFrames)]) else p1
  }

  // ------------------------------------------------------------- sessions

  /** What can happen to a player between loop passes. */
  datatype Event =
    | Pass
    | PauseToggled
    | SpeedSet(m: real)
    | StopRequested
    | Started
    | Loaded(c: Capture)
    | Resized(w: int, h: int)

  function Apply(p: Player, e: Event): Player {
    match e
    case Pass => Tick(p)
    case PauseToggled => TogglePause(p)
    case SpeedSet(m) => SetSpeed(p, m)
    case StopRequested => Stop(p)
    case Started => Start(p).state
    case Loaded(c) => LoadVideo(p, c).state
    case Resized(w, h) => SetContainerSize(p, w, h).state
  }

  function Run(p: Player, es: seq<Event>): Player
    decreases |es|
  {
    if |es| == 0 then p else Run(Apply(p, es[0]), es[1..])
  }

  function Last(s: seq<real>): real
    requires |s| > 0
  {
    s[|s| - 1]
  }

  /** What holds of the player between passes: it only runs on an opened
      capture; reported progress stays within [0, 1], never decreases within
      a run and never exceeds the position reached; the completion callback
      fires at most once per run, after a final report of 1.0, and the loop
      is over by then. */
  predicate Inv(p: Player) {
    && (p.running ==> p.cap.Some? && p.cap.value.isOpen)
    && (forall i :: 0 <= i < |p.progress| ==> 0.0 <= p.progress[i] <= 1.0)
    && (forall i, j :: 0 <= i < j < |p.progress| ==> p.progress[i] <= p.progress[j])
    && (p.running && |p.progress| > 0 ==>
          p.totalFrames > 0 && Last(p.progress) <= Ratio(p.position, p.totalFrames))
    && p.completions <= 1
    && (p.completions == 1 ==> !p.running && |p.progress| > 0 && Last(p.progress) == 1.0)
  }

  lemma NewInv()
    ensures Inv(New()) && !New().running && New().speed == 1.0
  {
  }

  lemma AppendMonotone(s: seq<real>, x: real)
    requires forall i, j :: 0 <= i < j < |s| ==> s[i] <= s[j]
    requires |s| > 0 ==> Last(s) <= x
    ensures forall i, j :: 0 <= i < j < |s + [x]| ==> (s + [x])[i] <= (s + [x])[j]
  {
    forall i, j | 0 <= i < j < |s + [x]| ensures (s + [x])[i] <= (s + [x])[j] {
      if j == |s| && i < |s| - 1 {
        assert s[i] <= Last(s);
      }
    }
  }

  lemma TickInv(p: Player)
    requires Inv(p)
    ensures Inv(Tick(p))
  {
    if p.running && !p.paused && p.cap.Some? {
      if p.cap.value.remaining < FrameStep(p.speed) {
        TickEndInv(p);
      } else {
        TickAdvanceInv(p);
      }
    }
  }

  /** The capture runs out: the bar ends full. */
  lemma TickEndInv(p: Player)
    requires Inv(p) && p.running && !p.paused && p.cap.Some? && p.cap.value.remaining < FrameStep(p.speed)
    ensures Inv(Tick(p))
  {
    AppendMonotone(p.progress, 1.0);
    if |p.progress| > 0 {
      assert Last(p.progress) <= 1.0;
    }
  }

  /** A frame is shown: the bar moves forward to the new position. */
  lemma TickAdvanceInv(p: Player)
    requires Inv(p) && p.running && !p.paused && p.cap.Some? && p.cap.value.remaining >= FrameStep(p.speed)
    ensures Inv(Tick(p))
  {
    if p.totalFrames > 0 {
      var pos := p.position + FrameStep(p.speed);
      RatioMonotone(p.position, pos, p.totalFrames);
      AppendMonotone(p.progress, Ratio(pos, p.totalFrames));
      assert Last(p.progress + [Ratio(pos, p.totalFrames)]) == Ratio(pos, p.totalFrames);
    }
  }

  lemma ApplyInv(p: Player, e: Event)
    requires Inv(p)
    ensures Inv(Apply(p, e))
  {
    match e
    case Pass => TickInv(p);
    case PauseToggled =>
    case SpeedSet(m) =>
    case StopRequested =>
    case Started =>
    case Loaded(c) =>
    case Resized(w, h) =>
  }

  /** Whatever happens between passes, the invariant survives: progress is
      monotone and bounded within a run and completion fires at most once,
      last, with progress at 1.0. */
  lemma {:induction false} RunInv(p: Player, es: seq<Event>)
    requires Inv(p)
    ensures Inv(Run(p, es))
    decreases |es|
  {
    if |es| > 0 {
      ApplyInv(p, es[0]);
      RunInv(Apply(p, es[0]), es[1..]);
    }
  }

  /** A completed run is over: further passes change nothing until the next
      start. */
  lemma {:induction false} CompletedStaysPut(p: Player, n: nat)
    requires Inv(p) && p.completions == 1
    ensures Run(p, seq(n, _ => Pass)) == p
    decreases n
  {
    if n > 0 {
      assert seq(n, _ => Pass)[1..] == seq(n - 1, _ => Pass);
      CompletedStaysPut(p, n - 1);
    }
  }

  /** Passes while paused consume no frames and show nothing. */
  lemma {:induction false} PausedStaysPut(p: Player, n: nat)
    requires p.paused
    ensures Run(p, seq(n, _ => Pass)) == p
    decreases n
  {
    if n > 0 {
      assert seq(n, _ => Pass)[1..] == seq(n - 1, _ => Pass);
      PausedStaysPut(p, n - 1);
    }
  }
}
